=== FILE: README.md ===
# Ethical Gardeners grid world, modelled in Dafny

Ethical Gardeners is a multi-agent simulation. Gardeners walk a rectangular grid of ground and obstacle cells. They plant seeds, which grow into flowers that lower the pollution of their cell. They harvest grown flowers for money and, depending on the world's policy, for new seeds. Without a flower, a ground cell's pollution rises every step. Each update is clamped only towards the bound it moves to, so pollution that starts inside the world's bounds stays there (`Runs.RunKeepsBounds`). A new ground cell starts at 50 whatever the bounds are, and can stay outside them (`Cells.StartOutsideBoundsStaysOutside`).

This project models the core of that simulation as pure functions over immutable values:

- the world grid, its cells and flowers (`ethicalgardeners/worldgrid.py`);
- the gardener (`ethicalgardeners/agent.py`);
- the action handler (`ethicalgardeners/actionhandler.py`);
- the older cell class (`ethicalgardeners/WorldGrid.py`);
- the default configuration (`ethicalgardeners/constants.py`).

Every operation that mutates objects in the program is modelled as a function from a world to a new world. An operation that raises returns an `Err` of a `Result`. A cell refers to the agent standing on it by that agent's index in the world's list of agents. The flower index (`WorldGrid.flowers`) maps each flower type to the positions its flowers were planted at.

Modules, one per file:

| file | module | what it holds |
|---|---|---|
| `common.dfy` | `Common` | `Option`, `Result`, the error values, positions |
| `actions.dfy` | `Actions` | the seven actions |
| `flowercell.dfy` | `Cells` | `CellType`, `Flower`, `Cell` and their operations |
| `agent.dfy` | `Agents` | the gardener and its seed bookkeeping |
| `constants.dfy` | `Constants` | `DEFAULT_GRID_CONFIG`, `MAX_PENALTY_TURNS` |
| `worldgrid.dfy` | `Grid` | the world, `get_cell`, `valid_position`, `valid_move`, placement, removal, the pollution tick |
| `construction.dfy` | `Construction` | the constructor's placement loops, `init_from_code`, `init_random` |
| `text.dfy` | `Text` | `strip`, `split`, `join`, `int`, `float` and `str` on strings |
| `gridfile.dfy` | `GridFile` | `init_from_file` over the file's lines, with a writer of the format and the read-after-write theorem |
| `fixture.dfy` | `GridFixture` | the 5x5 file of the grid tests, read back to a concrete world |
| `actionhandler.dfy` | `ActionHandler` | `handle_action` and the four handlers, plus the corrected move |
| `legacycell.dfy` | `LegacyCell` | the cell of `WorldGrid.py` and how it differs from the current one |
| `runs.dfy` | `Runs` | runs of actions and ticks, and the invariants every run keeps |

### Whole-run properties

`Runs.Run` applies a sequence of events to a world. Each event is either an agent's action or a tick of `update_cell`. Starting from a well-formed world (`Runs.WorldWf`), every world along the run is well-formed. `Runs.RunKeepsBounds` then gives the following for the final world:

- every ground cell's pollution lies in `[min_pollution, max_pollution]`;
- every flower's stage lies in `[0, num_growth_stage]`;
- every seed count is `-1` (infinite) or non-negative.

These hold only from a well-formed start; "## Left out" names each condition of `Runs.WorldWf`. Outside it they fail in the program. A new ground cell starts at 50 whatever the bounds are. A seed-return policy such as -5 is stored as given, and each harvest then adds -5 seeds (`Agents.AddSeedNegative`).

`Runs.RunKeepsReferenced` covers worlds with collisions on. If every agent's cell refers to that agent at the start, this still holds at the end, so no two agents ever share a cell.

### Behaviours of the program that are reproduced and stated

- **Stale back-reference after a move.**
  - `move_agent` clears the destination cell (after the agent has moved), not the cell the agent left.
  - The cell left behind keeps its reference to the mover (`ActionHandler.MoveLeavesStaleBackReference`, `Runs.MoveLeavesStaleReference`).
  - With collisions on, that cell stays blocked for every later move (`ActionHandler.VacatedCellStaysBlocked`, `ActionHandler.CannotStepBack`).
  - This is logged under "## Findings".
- **Opposite collision polarity.**
  - With collisions on, `place_agent` accepts an occupied cell, overwriting its reference, while `valid_move` refuses it.
  - With collisions off, it is the other way round (`Grid.CollisionPolarity`).
- **The flower index is never purged.** `remove_flower` leaves the position in the type's list (`Grid.RemoveFlowerLeavesIndexEntry`, `Grid.PlaceThenRemove`).
- **The world's `pollution_increment` never reaches the cells.** Every cell keeps its own increment of 1 (`Construction.InitFromCode`, whose result has increment 1 in every cell whatever the configuration says).
- **The default `flowers_data` is never stored.**
  - When the constructor gets no flower table, it keys the index by the three default types but stores nothing.
  - Every later flower is therefore refused (`Construction.Configured`, `Construction.NoTableNoFlowers`).
- **A harvest touches no counter.** It neither resets `turns_without_income` nor counts the harvest (`ActionHandler.CountersLeftAlone`).
- **A refused move counts no turn** (`ActionHandler.CountersLeftAlone`).

## Model

| member | source | states |
|---|---|---|
| Agents.NewAgent | ethicalgardeners/agent.py:19-38 | a new agent has the given position and money, no turns without income, the given seeds or ten of each of types 0, 1 and 2, and both counters at zero for exactly the seed types |
| Agents.NewDefaultAgent | ethicalgardeners/agent.py:32-37 | a default agent holds ten seeds of types 0, 1 and 2, and its counts are well-formed |
| Agents.Move | ethicalgardeners/agent.py:40-57 | each direction moves exactly one step along its axis with no bounds check; any other action leaves the agent unchanged |
| Agents.MoveThenOpposite | ethicalgardeners/agent.py:50-57 | a step followed by the opposite step returns the agent to where it was |
| Agents.MoveSequenceScenario | tests/test_agent.py:17-33 | UP, RIGHT, RIGHT, DOWN from (5, 5) ends at (5, 7) |
| Agents.UseSeed | ethicalgardeners/agent.py:59-100 | a seed is used exactly when the supply is infinite or positive; a finite supply loses exactly the seed the planted counter gains; other types and an unused call change nothing |
| Agents.UseSeedScenario | tests/test_agent.py:98-109 | three seeds become two with one planting counted; with none left the agent is unchanged and `false` is returned |
| Agents.AddMoney | ethicalgardeners/agent.py:102-109 | the money grows by exactly the amount and nothing else changes |
| Agents.AddSeed | ethicalgardeners/agent.py:111-122 | a finite supply grows by exactly the number given, an infinite one stays as it is, and other types are untouched |
| Agents.AddSeedNegative | ethicalgardeners/agent.py:119-122 | a negative number of seeds is added as it is: with -5 a count of 3 becomes -2 and a count of 4 becomes the infinite sentinel |
| Agents.SeedOpsPreserveAgentOk | ethicalgardeners/agent.py:77-122 | using a seed, or adding a non-negative number of seeds, keeps every count at `-1` or non-negative and the counters aligned with the seed types |
| Cells.NewFlower | ethicalgardeners/worldgrid.py:718-738 | a flower copies its type's price and reductions, and its last stage is one less than the number of reductions; within range it is well-formed |
| Cells.Grow | ethicalgardeners/worldgrid.py:740-749 | the stage rises by one below the last stage and otherwise stays, so a stage that is a valid index, counting from the end when negative, stays one |
| Cells.PollutionReduction | ethicalgardeners/worldgrid.py:760-771 | the reduction is one of the flower's values, read with Python indexing so that a negative stage counts from the end; non-negative when the values are; the last value once grown |
| Cells.GrowFixedIffGrown | ethicalgardeners/worldgrid.py:740-758 | growing changes a flower exactly when it is not yet grown |
| Cells.GrowTimesStage | ethicalgardeners/worldgrid.py:740-758 | `n` growths reach `min(stage + n, last)`, and the flower is grown exactly when `stage + n` reaches the last stage |
| Cells.FiveStageFlowerGrowsInFourTicks | tests/test_flower.py:52-72 | a flower with reductions [0,0,0,0,5] is grown after four growths, a fifth growth changes nothing, and it then reduces by 5 |
| Cells.NewCell | ethicalgardeners/worldgrid.py:613-631 | a new cell has no flower and no agent and an increment of 1; ground starts at pollution 50, an obstacle has none |
| Cells.UpdatePollution | ethicalgardeners/worldgrid.py:633-658 | with a flower, pollution drops by the current reduction but not below the minimum; without one it rises by the increment but not above the maximum; no pollution, no change |
| Cells.UpdatePollutionStaysWithin | ethicalgardeners/worldgrid.py:633-658 | pollution within the bounds stays within them |
| Cells.StartOutsideBoundsStaysOutside | ethicalgardeners/worldgrid.py:613-658 | a new ground cell starts at 50 whatever the bounds; with a minimum of 60 an empty cell climbs to 51, and with a maximum of 40 a flower reducing nothing leaves it at 50 |
| Cells.UpdatePollutionScenarios | tests/test_cell.py:23-81 | 50 with a reduction of 5 becomes 45, 0 stays 0, 50 without a flower becomes 51, 100 stays 100 |
| Cells.TickCell | ethicalgardeners/worldgrid.py:503-519 | a cell's share of the tick uses the reduction of the stage before growth, then grows the flower; type, agent and increment are kept |
| Grid.ValidMove | ethicalgardeners/worldgrid.py:543-566 | a valid move is a walkable in-bounds cell; with collisions on an occupied cell is refused; with collisions off occupancy is never looked at |
| Grid.SetCell | ethicalgardeners/worldgrid.py:568-578 | replacing one cell leaves every other cell and field alone |
| Grid.PlaceAgent | ethicalgardeners/worldgrid.py:433-454 | an invalid position is refused; an occupied cell is refused only with collisions off; otherwise the agent is appended and its cell, and only that cell, refers to it |
| Grid.PlaceFlower | ethicalgardeners/worldgrid.py:456-484 | an invalid position, a cell with a flower and an unknown type are refused, in that order; otherwise exactly that cell gets the new flower, with its stage as given, and its position is appended to the type's index |
| Grid.RemoveFlower | ethicalgardeners/worldgrid.py:486-501 | removal succeeds exactly on a cell with a flower, clears that flower only and leaves the index as it was |
| Grid.Tick | ethicalgardeners/worldgrid.py:503-519 | every cell of the grid is updated by the per-cell tick, and nothing but the grid changes |
| Grid.UpdateCell | ethicalgardeners/worldgrid.py:503-519 | the row-by-row sweep updates every cell exactly once, as the per-cell tick says |
| Grid.TickKeepsLayout | ethicalgardeners/worldgrid.py:503-519 | the tick keeps cell types, back-references, agents and the index, and leaves obstacles untouched |
| Grid.CollisionPolarity | ethicalgardeners/worldgrid.py:444-454 | with collisions on an occupied cell is accepted by placement but refused as a move; with collisions off it is the reverse |
| Grid.RemoveFlowerLeavesIndexEntry | ethicalgardeners/worldgrid.py:486-501 | after a removal the position is still listed under its type although the cell has no flower |
| Grid.PlaceThenRemove | ethicalgardeners/worldgrid.py:456-501 | placing then removing a flower restores the world except for one more index entry |
| LegacyCell.NewLegacyCell | ethicalgardeners/WorldGrid.py:45-56 | a new legacy cell has the given type and pollution, no flower and no agent |
| LegacyCell.LegacyUpdatePollution | ethicalgardeners/WorldGrid.py:58-74 | with a flower above the minimum the full reduction is subtracted; without one below the maximum the module increment is added; otherwise nothing changes |
| LegacyCell.LegacyUndershoot | ethicalgardeners/WorldGrid.py:71-72 | one above the minimum, a reduction of 5 lands 4 below it |
| LegacyCell.LegacyOvershoot | ethicalgardeners/WorldGrid.py:73-74 | half a unit below the maximum, the increment lands half a unit above it |
| LegacyCell.LegacyVersusClamped | ethicalgardeners/WorldGrid.py:58-74 | from the same state the current update never goes below the minimum; it agrees with the legacy update whenever that one stays in bounds |
| Constants.DefaultGridConfigConsistent | ethicalgardeners/constants.py:3-27 | the default agents stand inside the grid, off the obstacles, with seeds for every flower type; every type has non-negative reductions; the types are 0 to n-1 |
| Constants.DefaultAgentsPlaced | ethicalgardeners/constants.py:3-27 | the default grid is 10x10 with three obstacles and two agents holding seeds of types 0, 1 and 2 |
| Constants.DefaultFlowersDataShape | ethicalgardeners/constants.py:11-15 | the default flower table has exactly types 0, 1 and 2, each with non-negative reductions |
| Constants.WellbeingPenalty | ethicalgardeners/constants.py:44-56 | the penalty lies in [-1, 0], is 0 with no turns, -1 from `MAX_PENALTY_TURNS` on, and proportional below it |
| Constants.WellbeingPenaltyMonotone | ethicalgardeners/constants.py:44-56 | more turns without income never lessen the penalty |
| Constants.WellbeingPenaltyAtFive | tests/test_rewardfunctions.py:199-218 | five turns without income cost one half |
| Construction.SeedPolicyRange | ethicalgardeners/worldgrid.py:125-130 | for a policy of at least -3: -1 and only -1 disables seeds; under -2 the stored count is the draw, which lies in `[0, 5)`; -3 (a fresh draw per harvest) is stored as -3; every other stored count is non-negative |
| Construction.PlaceAgents | ethicalgardeners/worldgrid.py:134-141 | a successful agent loop appends the agents in order and changes cells' back-references only |
| Construction.PlaceAgentsOutcome | ethicalgardeners/worldgrid.py:134-141 | the loop succeeds only if every agent stands on a valid position; with collisions on that is also enough |
| Construction.PlaceAgentsUntouched | ethicalgardeners/worldgrid.py:134-141 | cells at no agent's position are untouched by the loop |
| Construction.PlaceAgentsReferences | ethicalgardeners/worldgrid.py:134-141 | with distinct positions, every agent's cell refers to that agent after the loop |
| Construction.PlaceAgentsWithoutCollisions | ethicalgardeners/worldgrid.py:134-141 | with collisions off, a successful loop saw distinct, previously free positions |
| Construction.PlaceAgentsExactly | ethicalgardeners/worldgrid.py:134-141 | the agent loop succeeds exactly when every agent stands on a valid position and, with collisions off, the positions are distinct and free at the start |
| Construction.PlaceFlowers | ethicalgardeners/worldgrid.py:145-150 | a successful flower loop changes flowers and index lists only |
| Construction.PlaceFlowersSpec | ethicalgardeners/worldgrid.py:145-150 | after the loop each listed cell holds exactly the flower built from its type, its stage and the stored table; every other cell keeps its flower; each type's index list gains that type's positions in list order |
| Construction.PlaceFlowersFits | ethicalgardeners/worldgrid.py:145-150 | a successful loop saw valid, flowerless, distinct positions, types known to the table and the index, and stages that index their reductions, negative ones from the end |
| Construction.PlaceFlowersOutcome | ethicalgardeners/worldgrid.py:145-150 | conversely, such a list of flowers is always accepted |
| Construction.EmptyIndex | ethicalgardeners/worldgrid.py:143 | the index holds an empty list for each type 0 to n-1 and nothing else |
| Construction.Configured | ethicalgardeners/worldgrid.py:106-143 | the configured world holds the parameters, the seed policy, the given table or an empty one, and an index keyed by the given or the default table |
| Construction.Construct | ethicalgardeners/worldgrid.py:71-150 | a constructed world is the configured one with the given agents in order, the same soil in every cell, and the same index keys |
| Construction.ConstructOutcome | ethicalgardeners/worldgrid.py:132-150 | the constructor succeeds exactly when its agents fit the configured world and its flowers fit it too |
| Construction.ConstructAgents | ethicalgardeners/worldgrid.py:132-141 | in a constructed world, with distinct positions each agent's cell refers to it, and a cell at no agent's position keeps the given grid's reference |
| Construction.ConstructFlowers | ethicalgardeners/worldgrid.py:143-150 | in a constructed world each listed flower stands on its cell, built from its entry and the stored table; other cells keep the given grid's flower; each type's index list is that type's positions in list order |
| Construction.NoTableNoFlowers | ethicalgardeners/worldgrid.py:113-120 | without a flower table the first flower is refused, because the default table is never stored |
| Construction.ConstructNothing | ethicalgardeners/worldgrid.py:132-150 | with no agents and no flowers the configured world is returned as it is |
| Construction.Upper | ethicalgardeners/worldgrid.py:401 | upper-casing works character by character, expanding the long s, the dotless i, the sharp s and the Latin ligatures to ASCII capitals, so the result is never shorter |
| Construction.UpperConcat | ethicalgardeners/worldgrid.py:401 | the upper case of a concatenation is the concatenation of the upper cases |
| Construction.UpperAscii | ethicalgardeners/worldgrid.py:401 | on ASCII text the length is kept, each lower-case letter raised and every other character kept |
| Construction.CellTypeNamed | ethicalgardeners/worldgrid.py:398-401 | a name denotes ground or obstacle exactly when its upper-case form is "GROUND" or "OBSTACLE" |
| Construction.CellTypeNamesAnyCase | ethicalgardeners/worldgrid.py:398-401 | "Obstacle" names the obstacle type |
| Construction.CellTypeNamesUnicode | ethicalgardeners/worldgrid.py:398-401 | spellings with a long s or with the s-t ligature also name the obstacle type, because they upper-case to "OBSTACLE" |
| Construction.PyIndex | ethicalgardeners/worldgrid.py:403 | an index is accepted exactly within `[-n, n)`, and a negative index counts from the end |
| Construction.ApplyCells | ethicalgardeners/worldgrid.py:395-403 | the cells are applied exactly when every entry names a known type at indices within the grid; otherwise the first bad entry decides the error; on success each cell is a fresh cell of the type named by the last entry that hits it, or the old cell when none does |
| Construction.InitFromCode | ethicalgardeners/worldgrid.py:317-431 | a successful build carries each configured scalar or its default and the seed policy; one agent per configured entry at its position, with missing money and seeds from the first default agent and no turns without income; increment 1 in every cell whatever the configured increment |
| Construction.InitFromCodeOutcome | ethicalgardeners/worldgrid.py:317-431 | the build succeeds exactly when every cell entry is accepted, every agent stands on configured ground (on distinct cells with collisions off), and every flower stands on distinct configured ground with a type below the table's size that the table holds and a stage (0 when left out) that indexes its reductions |
| Construction.InitFromCodeCells | ethicalgardeners/worldgrid.py:390-403 | each cell of the built world has the type of the last entry naming it, or ground, and pollution 50 exactly when it is ground |
| Construction.InitFromCodeAgents | ethicalgardeners/worldgrid.py:404-431 | with distinct positions each configured agent's cell refers to it, and no other cell refers to an agent |
| Construction.InitFromCodeFlowers | ethicalgardeners/worldgrid.py:417-431 | each configured flower stands on its cell with its type and its stage or 0; no other cell holds a flower; the index is keyed by the table's types and lists each type's positions in order |
| Construction.EmptyConfigHasNoObstaclesOrAgents | ethicalgardeners/worldgrid.py:360-431 | with no configuration the world is 10x10 ground at pollution 50 with no agent, although the default configuration lists obstacles and agents |
| Construction.AllPositions | ethicalgardeners/worldgrid.py:282-283 | the list of positions has `rows * cols` entries, all inside the grid |
| Construction.AllPositionsDistinct | ethicalgardeners/worldgrid.py:282-283 | no position is listed twice |
| Construction.Remove | ethicalgardeners/worldgrid.py:293-296 | removing a listed element shortens the list by one, keeps distinctness and drops that element |
| Construction.RemoveEach | ethicalgardeners/worldgrid.py:293-296 | removing every drawn position leaves the others, each once |
| Construction.SetObstacles | ethicalgardeners/worldgrid.py:293-295 | exactly the listed positions become obstacle cells |
| Construction.Chosen | ethicalgardeners/worldgrid.py:291 | the chosen list picks the indexed elements in order, distinct when the indices are |
| Construction.ObstacleCount | ethicalgardeners/worldgrid.py:286-288 | the number of obstacles is the ratio times the cell count, truncated toward zero |
| Construction.FreePositions | ethicalgardeners/worldgrid.py:282-296 | the free positions are the distinct in-grid positions that were not drawn as obstacles |
| Construction.FreeCellIsGround | ethicalgardeners/worldgrid.py:278-296 | every free position is a fresh ground cell of the random grid |
| Construction.ChosenCellIsObstacle | ethicalgardeners/worldgrid.py:291-295 | every drawn obstacle position holds an obstacle |
| Construction.DefaultAgentsAt | ethicalgardeners/worldgrid.py:302-311 | one default agent per drawn free position, on distinct positions |
| Construction.RandomAgentsStandValid | ethicalgardeners/worldgrid.py:302-314 | every agent of the random layout stands on a valid position |
| Construction.RandomPlacement | ethicalgardeners/worldgrid.py:302-314 | the constructor always accepts the random layout's agents, which stand on distinct cells that refer to them |
| Construction.InitRandom | ethicalgardeners/worldgrid.py:255-314 | an impossible draw and too few free positions fail, each exactly in its own case, and any draw within the cell count succeeds; a success has the given size, the constructor's defaults and `nb_agent` default agents |
| Construction.InitRandomLayout | ethicalgardeners/worldgrid.py:255-314 | a random world puts its agents on distinct ground cells that refer to them, and an obstacle at every drawn position |
| Text.Strip | ethicalgardeners/worldgrid.py:190 | stripping leaves an infix with only whitespace around it and none at either end, and leaves nothing of an all-whitespace string |
| Text.StripUnique | ethicalgardeners/worldgrid.py:190 | the only infix with whitespace around it that starts and ends with a non-whitespace character is the stripped string |
| Text.SplitWsGaps | ethicalgardeners/worldgrid.py:190 | the string is its split words in order, separated by non-empty whitespace runs, with possibly empty whitespace runs at both ends |
| Text.SplitJoinSpace | ethicalgardeners/worldgrid.py:203 | splitting words joined by spaces gives back the words |
| Text.SplitOn | ethicalgardeners/worldgrid.py:210 | splitting on a separator gives pieces free of it, never an empty list |
| Text.SplitJoinOn | ethicalgardeners/worldgrid.py:225-228 | splitting pieces joined by a separator gives back the pieces |
| Text.JoinSplitOn | ethicalgardeners/worldgrid.py:225-228 | joining the pieces of a split gives back the string |
| Text.ParseIntSyntax | ethicalgardeners/worldgrid.py:191-192 | an integer is read exactly when the string is whitespace, an optional sign and at least one digit, and whitespace, and then with the numeral's signed value |
| Text.ParseShowInt | ethicalgardeners/worldgrid.py:191-192 | reading back a written integer gives the integer |
| Text.ParseDecimalSyntax | ethicalgardeners/worldgrid.py:227 | an unsigned decimal is read only as a run of digits or two runs of digits around one point with at least one digit, and each such form is read with its value |
| Text.ParseFloatShowDecimal | ethicalgardeners/worldgrid.py:227 | a decimal written with an optional minus, a whole part, a point and fraction digits is read back with its signed value |
| Text.ParseIntThenFloat | ethicalgardeners/worldgrid.py:227 | wherever an integer is read, a float is read with the same value |
| GridFile.ParseToken | ethicalgardeners/worldgrid.py:204-218 | `G` and `O` are exactly ground and obstacle; a flower or agent token comes only from a code starting with `F` or `A` |
| GridFile.ParseRender | ethicalgardeners/worldgrid.py:204-218 | every code reads back as the token it renders |
| GridFile.ParseCodesSpec | ethicalgardeners/worldgrid.py:202-218 | a row's codes are read exactly when each one is, and the result holds each code's token |
| GridFile.ParseRow | ethicalgardeners/worldgrid.py:202-218 | a row that is read holds exactly `width` tokens |
| GridFile.ParseRowSpec | ethicalgardeners/worldgrid.py:202-218 | a row is read exactly when it has at least `width` codes, the first `width` are known, and no later code is `G`, `O` or starts with `F` or `A`; the row holds the first `width` codes' tokens |
| GridFile.ParseRenderRowExtra | ethicalgardeners/worldgrid.py:204-218 | words past the width that the reader does not write are passed over: a written row followed by them reads back as the row |
| GridFile.UnknownCodePastWidth | ethicalgardeners/worldgrid.py:204-218 | the line `G G W` of a grid two cells wide reads as two ground cells |
| GridFile.ParseRowsSpec | ethicalgardeners/worldgrid.py:202-218 | the rows are read exactly when each line is, and an error names the first refused line |
| GridFile.CodedPositions | ethicalgardeners/worldgrid.py:202-204 | every code is paired with its own row and column |
| GridFile.Put | ethicalgardeners/worldgrid.py:218 | an existing id keeps its place and takes the new position; a new id goes last |
| GridFile.AgentIds | ethicalgardeners/worldgrid.py:215-218 | every agent id of the grid is listed once with the last position it was seen at |
| GridFile.FlowersOf | ethicalgardeners/worldgrid.py:209-214 | one placement per flower code, in reading order |
| GridFile.CollectSpec | ethicalgardeners/worldgrid.py:222-242 | the definition lines are all read exactly when none is refused, and an error names the first refused one |
| GridFile.ParseAgentLine | ethicalgardeners/worldgrid.py:223-231 | an agent line gives an agent standing where its id was seen, with seed types numbered by position; an unknown id is refused |
| GridFile.ParseFlowerLine | ethicalgardeners/worldgrid.py:236-242 | a flower line gives a type with an integer price and its reductions |
| GridFile.TableOfKeys | ethicalgardeners/worldgrid.py:234-242 | the table holds exactly the listed types |
| GridFile.TableOfLastWins | ethicalgardeners/worldgrid.py:234-242 | a type listed twice keeps the entry of its last line |
| GridFile.ParseGridFile | ethicalgardeners/worldgrid.py:153-252 | an empty file is refused; a world read from a file has the constructor's defaults and enough lines for its grid and agents |
| GridFile.ParseRenderRow | ethicalgardeners/worldgrid.py:202-218 | a written row reads back as its codes |
| GridFile.ParseRenderAgentLine | ethicalgardeners/worldgrid.py:223-231 | a written agent line reads back as the agent it describes |
| GridFile.ParseRenderFlowerLine | ethicalgardeners/worldgrid.py:236-242 | a written flower line reads back as the table entry it describes |
| GridFile.ParseRenderHeader | ethicalgardeners/worldgrid.py:189-192 | the header reads back as the two dimensions |
| GridFile.ParseRenderFile | ethicalgardeners/worldgrid.py:153-252 | every well-formed file reads as the world the constructor builds from its grid, agents, flower table and flowers |
| GridFixture.FixtureReads | tests/test_worldgrid.py:17-25 | the 5x5 test file reads as the constructor applied to its cells, its agent and its flower |
| GridFixture.FixtureWorld | tests/test_worldgrid.py:44-75 | the test file yields a 5x5 world with obstacles where expected, a type-0 flower at stage 2 on (1, 1), and the agent with money 100 and seeds {0:5, 1:10, 2:3} referenced at (2, 3) |
| GridFixture.ConstructOneEach | ethicalgardeners/worldgrid.py:134-150 | one agent on a free ground cell and one flower of a configured type at a valid stage are always accepted |
| GridFixture.WallCodeRefused | ethicalgardeners/worldgrid.py:204-218 | a `W` code is not a known code, so a list of codes containing one is refused; within the width it would leave a placeholder cell |
| ActionHandler.DestinationAgreesWithMove | ethicalgardeners/actionhandler.py:58-69 | the handler's destination is where the agent's own move takes it, and a movement always changes the cell |
| ActionHandler.MoveAgent | ethicalgardeners/actionhandler.py:49-75 | a refused move changes nothing; an accepted one moves the agent, counts one turn, and points the destination at it while the cell left behind is untouched |
| ActionHandler.PlantFlower | ethicalgardeners/actionhandler.py:77-99 | planting succeeds exactly with a seed in hand on a plantable cell; an unknown type and a failure are errors; a success is the planting below |
| ActionHandler.Planting | ethicalgardeners/actionhandler.py:86-99 | one seed is used, one turn is counted, and a stage-0 flower of the type appears in the agent's cell and in the index, nothing else changing |
| ActionHandler.HarvestFlower | ethicalgardeners/actionhandler.py:101-132 | harvesting succeeds exactly on a grown flower; it removes the flower, credits the price, returns seeds as the policy says and changes nothing else |
| ActionHandler.WaitTurn | ethicalgardeners/actionhandler.py:134-141 | waiting counts one turn without income and changes nothing else |
| ActionHandler.HandleAction | ethicalgardeners/actionhandler.py:26-47 | the movements go to the move, PLANT to planting, HARVEST to harvesting, WAIT to waiting; only planting and harvesting can fail |
| ActionHandler.MoveLeavesStaleBackReference | ethicalgardeners/actionhandler.py:69-75 | after a move the cell left behind still refers to the mover |
| ActionHandler.MoveAgentCleared | ethicalgardeners/actionhandler.py:49-75 | the corrected move changes the agents as the move does, clears the cell left behind and points the destination at the mover |
| ActionHandler.VacatedCellStaysBlocked | ethicalgardeners/actionhandler.py:69-75 | with collisions on, the cell left behind by the move is refused to every later move, while the corrected move frees it |
| ActionHandler.CannotStepBack | ethicalgardeners/actionhandler.py:69-75 | on a 1x2 grid an agent that steps right cannot step back left |
| ActionHandler.CountersLeftAlone | ethicalgardeners/actionhandler.py:71-132 | a refused move counts no turn; a harvest neither resets the turns without income nor counts the harvest |
| ActionHandler.PlantFailureUsesNoSeed | ethicalgardeners/actionhandler.py:86-99 | without a seed or a plantable cell the plant fails and nothing is used |
| Runs.WfTickReady | ethicalgardeners/worldgrid.py:503-519 | in a well-formed world every flower can be ticked |
| Runs.Fire | ethicalgardeners/actionhandler.py:26-47 | an event changes only grid, agents and index and keeps the number of agents; a tick always succeeds and keeps agents and index |
| Runs.Run | ethicalgardeners/actionhandler.py:26-47 | every world reached by a run is well-formed and has the same agents count and settings |
| Runs.FirePreservesWf | ethicalgardeners/actionhandler.py:26-141 | every successful event keeps the world well-formed |
| Runs.WaitPreservesWf | ethicalgardeners/actionhandler.py:134-141 | waiting keeps the world well-formed |
| Runs.TickPreservesWf | ethicalgardeners/worldgrid.py:503-519 | a tick keeps ground pollution within the bounds and every stage within its reductions |
| Runs.MovePreservesWf | ethicalgardeners/actionhandler.py:49-75 | a move keeps the world well-formed |
| Runs.PlantPreservesWf | ethicalgardeners/actionhandler.py:77-99 | a planting keeps the world well-formed |
| Runs.HarvestPreservesWf | ethicalgardeners/actionhandler.py:101-132 | a harvest keeps the world well-formed |
| Runs.RunKeepsBounds | ethicalgardeners/worldgrid.py:633-658 | after any run from a well-formed world, ground pollution lies in the bounds, every stage in `[0, num_growth_stage]`, and every seed count is `-1` or non-negative |
| Runs.ReferencedMeansDistinct | ethicalgardeners/worldgrid.py:562-564 | agents that are each referenced by their cell stand on distinct cells |
| Runs.MoveKeepsReferenced | ethicalgardeners/actionhandler.py:69-75 | with collisions on a move keeps every agent referenced by its cell |
| Runs.FireKeepsReferenced | ethicalgardeners/actionhandler.py:26-141 | with collisions on every event keeps every agent referenced by its cell |
| Runs.RunKeepsReferenced | ethicalgardeners/worldgrid.py:562-564 | with collisions on, a run that starts with every agent referenced ends that way, with no two agents on one cell |
| Runs.MoveLeavesStaleReference | ethicalgardeners/actionhandler.py:69-75 | the move leaves a cell referring to an agent not standing on it |
| Runs.MoveClearedKeepsExact | ethicalgardeners/actionhandler.py:69-75 | the corrected move keeps every agent referenced and no reference stale |

## Left out

- Reading the file: `init_from_file` is modelled over the list of lines `readlines` would return. Opening the file is not modelled.
- Randomness is not modelled.
  - The seed-return draw of the constructor, the per-harvest draw and the two samples of `init_random` are parameters.
  - Each sample is a sequence of distinct indices.
  - The draws keep the ranges of numpy's `RandomState.randint`, whose upper bound is exclusive: `[0, 5)` for policy -2 and `[1, 5)` for policy -3.
- The simulation loop, observations, rewards, metrics and rendering are not part of this model.
  - `Runs.Run` stands in for a sequence of `handle_action` calls and `update_cell` ticks.
  - Only the wellbeing penalty formula of `MAX_PENALTY_TURNS` is modelled.
- Runs.Run: an event whose action the program would raise on, or whose preconditions are not met, ends the run with `None`. The model does not continue past an exception.
- GridFile.ParseRow: the program leaves a placeholder cell for an unknown code within the width (a `W` code among them) and for a short row, and later crashes on it. The model refuses such a row with a parse error. Unknown codes past the width are passed over, as in the program (`GridFile.UnknownCodePastWidth`).
  - The grid tests write `W` cells and expect a wall type, which the current `CellType` does not have (`GridFixture.WallCodeRefused`).
  - The fixture is modelled with `O` in their place.
- GridFile.ParseGridFile: negative dimensions in the header are refused. The program would size ranges to zero and slice lines from the end.
- GridFile.ParseGridFile: a row with a code past the width that the reader writes (`G`, `O`, or one starting with `F` or `A`), a missing line and a malformed number are refused with the line's number. The program raises an `IndexError` or `ValueError` there.
- Text.ParseInt: underscores between digits and non-ASCII decimal digits are not accepted. Python's `int` accepts both.
- Text.ParseFloat: exponents, `inf`, `nan`, underscores and non-ASCII decimal digits are not accepted.
- GridFile.ParseRenderFile: the written format uses whole numbers for money and reductions only. Reading accepts any decimal.
- Floating point is modelled as exact reals.
- A Python `KeyError` or `AttributeError` raised halfway through an update is excluded by preconditions rather than modelled. This covers:
  - planting a type missing from the flower table;
  - harvesting a type missing from the agent's seeds;
  - harvesting a flower whose type is missing from the stored flower table: the price lookup raises after `remove_flower` and `add_seed` have run (ethicalgardeners/actionhandler.py:129-130);
  - placing a flower whose type has no index list;
  - the `AttributeError` of a world built without a flower table, whose `flowers_data` is never set: planting or harvesting reads it. See "The default `flowers_data` is never stored" above. `ActionHandler.PlantReady` and `ActionHandler.HarvestReady` exclude it.
- ActionHandler.PlantFlower: `place_flower` cannot fail in that branch. The cell is free ground and the type is configured, so the program's handling of that failure has no counterpart.
- Construction.PlaceFlowers: a growth stage outside `[-n, n)`, where `n` is the number of the type's reductions, is refused with `InvalidGrowthStage`. The program stores such a flower, and the next tick raises an `IndexError` when it reads the reduction. A stage in `[-n, 0)` is accepted as in the program: it is read from the end and grows towards 0.
- Runs.RunKeepsBounds: the whole-run theorems start from a well-formed world (`Runs.WorldWf`). The program does not guarantee any of its conditions, and each one is needed:
  - pollution exactly on ground cells, as `Cell` creates it; the theorems are about ground pollution;
  - ground pollution already in `[min_pollution, max_pollution]`; a new cell starts at 50 whatever the bounds are (ethicalgardeners/worldgrid.py:613-631), and each update clamps only towards the bound it moves to (ethicalgardeners/worldgrid.py:650-658), so pollution outside the bounds may never return (`Cells.StartOutsideBoundsStaysOutside`);
  - non-negative cell increments; a negative increment would push empty cells below the minimum;
  - flower stages from 0 to the last stage, with non-negative reductions; a negative stage is outside `[0, num_growth_stage]` until it has grown, and a negative reduction raises pollution past the maximum;
  - stored flower types with at least one reduction, all non-negative; a flower planted from an empty list cannot be ticked, and a negative one breaks the bound as above;
  - agents standing on the grid, with every seed count `-1` or non-negative and counters for exactly the seed types; a harvest writes to the agent's cell and its counters;
  - a seed-return policy that is `None`, non-negative or -3; the constructor stores any other value, such as -5 (ethicalgardeners/worldgrid.py:129-130), and each harvest then adds that many seeds (ethicalgardeners/actionhandler.py:119-125, ethicalgardeners/agent.py:119-122), which takes a count of 3 to -2 (`Agents.AddSeedNegative`).
- Cells.GrowTimesStage and Cells.GrowFixedIffGrown: stated for stages from 0 to the last. A negative stage also grows by one per tick, which `Cells.Grow` states, but these two lemmas do not cover it.
- Construction.InitFromCode: agents are values. In the program, every configured agent without seeds is handed the very dictionary of the first default agent, and an agent given a dictionary keeps the caller's (ethicalgardeners/agent.py:35, ethicalgardeners/worldgrid.py:411-413). A seed used or added by one of them (ethicalgardeners/agent.py:95, ethicalgardeners/agent.py:122) then changes the counts of every agent sharing the dictionary, and those of `DEFAULT_GRID_CONFIG`. The model gives each agent its own counts.
- ActionHandler.PlantFlower: using a seed changes the planting agent's counts only. With a shared dictionary, as described for `Construction.InitFromCode`, the program changes every sharer's counts too. The same holds for the seeds a harvest returns (`ActionHandler.HarvestFlower`).
- Construction.Upper: characters other than the ASCII letters, the long s, the dotless i, the sharp s and the Latin ligatures U+FB00 to U+FB06 are kept as they are. Python upper-cases many more, but none of them to ASCII capitals only, so none can spell `GROUND` or `OBSTACLE`.
- Flowers in the index are held as their positions rather than as the flower objects themselves.
- Construction.Construct: the grid must have `height` rows of `width` cells. The program's default `grid=None` becomes `[[]]` whatever the width and height (ethicalgardeners/worldgrid.py:132), and a world of that shape is not modelled. Every caller in the program passes a full grid (ethicalgardeners/worldgrid.py:251, :314 and :430).
- ActionHandler.HandleAction: the action type is closed, so the fall-through of an unknown action does not arise.
- `update_action_mask`, observation shapes and the reward functions are not part of this model.
- Agents.MoveSequenceScenario: the agent test passes target positions to `move` rather than directions. Under the program's `move` such a call changes nothing (`Agents.Move` leaves the agent unchanged on a non-direction). The scenario is stated with the directions the test evidently means.

## Findings

| source | as written | input that shows it | evidently intended | confidence | as-written member | corrected member |
|---|---|---|---|---|---|---|
| ethicalgardeners/actionhandler.py:69-75 | after `agent.move`, the cell cleared is `get_cell(agent.position)`, which is already the destination, so the cell the agent left keeps its reference | a 1x2 grid with collisions on and one agent at (0, 0) referenced by its cell: after RIGHT the agent is at (0, 1), and LEFT is then refused because (0, 0) still names the agent | clear the cell the agent left before pointing the destination at it | not executed | ActionHandler.MoveAgent (with ActionHandler.VacatedCellStaysBlocked, ActionHandler.CannotStepBack, Runs.MoveLeavesStaleReference) | ActionHandler.MoveAgentCleared (with Runs.MoveClearedKeepsExact) |

`ActionHandler.HandleAction` and `Runs.Run` keep the move as written, so the whole-run theorems describe the program as it is. `Runs.MoveClearedKeepsExact` proves that the corrected move keeps every agent referenced by its cell and leaves no stale reference.

=== FILE: actionhandler.dfy ===
/** One agent's action applied to the world (ethicalgardeners/actionhandler.py,
    class ActionHandler). Each action is a transition of the whole world that
    either succeeds with a new world or fails, in which case the caller keeps
    the world it had: nothing is mutated before the source raises. */
module ActionHandler {
  import opened Common
  import opened Cells
  import opened Agents
  import opened Actions
  import opened Grid

  /** The cell a movement aims at, computed by the handler itself
      (independently of `Agent.move`); any other action aims at the agent's
      own cell. */
  function Destination(p: Pos, d: Action): Pos {
    match d
    case Up => Pos(p.row - 1, p.col)
    case Down => Pos(p.row + 1, p.col)
    case Left => Pos(p.row, p.col - 1)
    case Right => Pos(p.row, p.col + 1)
    case _ => p
  }

  /** The handler's destination and the agent's own `move` agree, and a
      movement always aims at a different cell. */
  lemma DestinationAgreesWithMove(a: Agent, d: Action)
    ensures Move(a, d).position == Destination(a.position, d)
    ensures d.IsMove() ==> Destination(a.position, d) != a.position
  {
  }

  /** The agent `i` exists and stands on a cell of the grid. */
  predicate AgentOnGrid(w: World, i: nat) {
    && Rectangular(w)
    && i < |w.agents|
    && InBounds(w, w.agents[i].position)
  }

  /** `move_agent`: if `valid_move` accepts the destination, the agent moves
      there, the destination cell refers to it and one more turn without
      income is counted; otherwise nothing happens (no turn is counted).
      The cell the agent left is not touched: the source clears the
      destination, not the origin, before pointing it at the agent. */
  function MoveAgent(w: World, i: nat, d: Action): (v: World)
    requires Rectangular(w) && i < |w.agents|
    ensures Rectangular(v) && |v.agents| == |w.agents|
    ensures !ValidMove(w, Destination(w.agents[i].position, d)) ==> v == w
    ensures ValidMove(w, Destination(w.agents[i].position, d)) ==>
              var dest, a := Destination(w.agents[i].position, d), w.agents[i];
              && v == w.(grid := v.grid, agents := v.agents)
              && v.agents[i] == a.(position := dest, turnsWithoutIncome := a.turnsWithoutIncome + 1)
              && (forall k :: 0 <= k < |w.agents| && k != i ==> v.agents[k] == w.agents[k])
              && GetCell(v, dest) == GetCell(w, dest).(agent := Some(i))
              && (forall q :: InBounds(w, q) && q != dest ==> GetCell(v, q) == GetCell(w, q))
  {
    var a := w.agents[i];
    var dest := Destination(a.position, d);
    if ValidMove(w, dest) then
      var moved := Move(a, d);
      DestinationAgreesWithMove(a, d);
      var w1 := SetCell(w, moved.position, GetCell(w, moved.position).(agent := None));
      var w2 := SetCell(w1, dest, GetCell(w1, dest).(agent := Some(i)));
      w2.(agents := w.agents[i := moved.(turnsWithoutIncome := moved.turnsWithoutIncome + 1)])
    else
      w
  }

  /** What planting type `t` needs from the world so that the source would
      not raise half-way, after the seed is already used: a configured type
      with an index list. */
  predicate PlantableType(w: World, t: int) {
    t in w.flowersData && t in w.flowers
  }

  /** The agent stands on the grid with its counters set up; when it is
      about to plant, the type is one the world can build and index. */
  predicate PlantReady(w: World, i: nat, ft: Option<int>) {
    && AgentOnGrid(w, i)
    && CountersCover(w.agents[i])
    && ((ft.Some? && ft.value in w.agents[i].seeds && CanPlant(w.agents[i], ft.value) &&
         CanPlantOn(GetCell(w, w.agents[i].position))) ==> PlantableType(w, ft.value))
  }

  /** The world `v` after agent `i` planted a seed of type `t` where it
      stands: one seed used and one more turn without income, a new flower
      at stage 0 in that cell and in the index, nothing else changed. */
  ghost predicate Planted(w: World, i: nat, t: int, v: World)
    requires PlantReady(w, i, Some(t)) && t in w.agents[i].seeds && PlantableType(w, t)
  {
    var a := w.agents[i];
    var p := a.position;
    && Rectangular(v)
    && v == w.(grid := v.grid, agents := v.agents, flowers := v.flowers)
    && |v.agents| == |w.agents|
    && v.agents[i] == UseSeed(a, t).agent.(turnsWithoutIncome := a.turnsWithoutIncome + 1)
    && (forall k :: 0 <= k < |w.agents| && k != i ==> v.agents[k] == w.agents[k])
    && GetCell(v, p) == GetCell(w, p).(flower := Some(NewFlower(p, t, w.flowersData, 0)))
    && (forall q :: InBounds(w, q) && q != p ==> GetCell(v, q) == GetCell(w, q))
    && v.flowers == w.flowers[t := w.flowers[t] + [p]]
  }

  /** `plant_flower`: with a seed of type `t` in hand and a plantable cell
      underfoot, one seed is used, a stage-0 flower of type `t` is placed
      where the agent stands and one more turn without income is counted.
      Otherwise the source raises before changing anything. */
  function PlantFlower(w: World, i: nat, ft: Option<int>): (r: Result<World>)
    requires PlantReady(w, i, ft)
    ensures ft.None? || ft.value !in w.agents[i].seeds ==> r == Err(UnknownFlowerType)
    ensures ft.Some? && ft.value in w.agents[i].seeds ==>
              (r.Ok? <==> CanPlant(w.agents[i], ft.value) && CanPlantOn(GetCell(w, w.agents[i].position)))
    ensures r.Err? && ft.Some? && ft.value in w.agents[i].seeds ==> r.error == CannotPlant
    ensures r.Ok? ==> ft.Some? && ft.value in w.agents[i].seeds && Planted(w, i, ft.value, r.value)
  {
    if ft.None? || ft.value !in w.agents[i].seeds then Err(UnknownFlowerType)
    else
      var a, t := w.agents[i], ft.value;
      if CanPlant(a, t) && CanPlantOn(GetCell(w, a.position)) then Ok(Planting(w, i, t))
      else Err(CannotPlant)
  }

  /** The successful branch of `plant_flower`: the seed is used, then the
      flower is placed in the agent's cell (which cannot fail there: the
      cell is free ground and the type is configured), then the turn
      counter is bumped. */
  function Planting(w: World, i: nat, t: int): (v: World)
    requires PlantReady(w, i, Some(t)) && t in w.agents[i].seeds
    requires CanPlant(w.agents[i], t) && CanPlantOn(GetCell(w, w.agents[i].position))
    ensures Planted(w, i, t, v)
  {
    var a := w.agents[i];
    var a1 := UseSeed(a, t).agent;
    var w1 := w.(agents := w.agents[i := a1]);
    assert GetCell(w1, a.position) == GetCell(w, a.position);
    var v := PlaceFlower(w1, a.position, t, 0).value;
    v.(agents := v.agents[i := a1.(turnsWithoutIncome := a1.turnsWithoutIncome + 1)])
  }

  /** The number of seeds a harvest returns under the world's policy:
      none when seeds are disabled, the drawn count under the per-harvest
      random policy (-3), the configured count otherwise. */
  function SeedsReturned(w: World, draw: int): Option<int> {
    match w.numSeedsReturned
    case None => None
    case Some(n) => Some(if n == -3 then draw else n)
  }

  predicate HarvestReady(w: World, i: nat, draw: int) {
    && AgentOnGrid(w, i)
    && (w.numSeedsReturned == Some(-3) ==> 1 <= draw < 5)
    && var cell := GetCell(w, w.agents[i].position);
       (cell.flower.Some? && IsGrown(cell.flower.value) ==>
          && cell.flower.value.flowerType in w.flowersData
          && (w.numSeedsReturned.Some? ==> cell.flower.value.flowerType in w.agents[i].seeds))
  }

  /** `harvest_flower`: a fully grown flower under the agent is removed, its
      type's price is credited and seeds are returned as the policy says.
      Neither `turns_without_income` nor `flowers_harvested` is touched.
      With no flower, or one not yet grown, the source raises. */
  function HarvestFlower(w: World, i: nat, draw: int): (r: Result<World>)
    requires HarvestReady(w, i, draw)
    ensures r.Ok? <==> var c := GetCell(w, w.agents[i].position); c.flower.Some? && IsGrown(c.flower.value)
    ensures r.Err? ==> r.error == CannotHarvest
    ensures r.Ok? ==>
              var v, a := r.value, w.agents[i];
              var p := a.position;
              var f := GetCell(w, p).flower.value;
              && Rectangular(v)
              && v == w.(grid := v.grid, agents := v.agents)
              && |v.agents| == |w.agents|
              && v.agents[i].money == a.money + w.flowersData[f.flowerType].price
              && v.agents[i].(money := a.money, seeds := a.seeds) == a
              && (SeedsReturned(w, draw).None? ==> v.agents[i].seeds == a.seeds)
              && (SeedsReturned(w, draw).Some? ==>
                    v.agents[i].seeds == AddSeed(a, f.flowerType, SeedsReturned(w, draw).value).seeds)
              && (forall k :: 0 <= k < |w.agents| && k != i ==> v.agents[k] == w.agents[k])
              && GetCell(v, p) == GetCell(w, p).(flower := None)
              && (forall q :: InBounds(w, q) && q != p ==> GetCell(v, q) == GetCell(w, q))
  {
    var a := w.agents[i];
    var cell := GetCell(w, a.position);
    if cell.flower.Some? && IsGrown(cell.flower.value) then
      var f := cell.flower.value;
      var w1 := RemoveFlower(w, a.position).value;
      var a1 := match SeedsReturned(w, draw)
                case None => a
                case Some(n) => AddSeed(a, f.flowerType, n);
      Ok(w1.(agents := w.agents[i := AddMoney(a1, w.flowersData[f.flowerType].price)]))
    else
      Err(CannotHarvest)
  }

  /** `wait`: one more turn without income, nothing else. */
  function WaitTurn(w: World, i: nat): (v: World)
    requires i < |w.agents|
    ensures |v.agents| == |w.agents|
    ensures v.agents[i].turnsWithoutIncome == w.agents[i].turnsWithoutIncome + 1
    ensures v.agents[i].(turnsWithoutIncome := w.agents[i].turnsWithoutIncome) == w.agents[i]
    ensures v == w.(agents := v.agents)
    ensures forall k :: 0 <= k < |w.agents| && k != i ==> v.agents[k] == w.agents[k]
  {
    var a := w.agents[i];
    w.(agents := w.agents[i := a.(turnsWithoutIncome := a.turnsWithoutIncome + 1)])
  }

  /** What `handle_action` needs for the action at hand. */
  predicate ActionReady(w: World, i: nat, action: Action, ft: Option<int>, draw: int) {
    && Rectangular(w)
    && i < |w.agents|
    && (action == Plant ==> PlantReady(w, i, ft))
    && (action == Harvest ==> HarvestReady(w, i, draw))
  }

  /** `handle_action`: the four movements go to `move_agent`, PLANT to
      `plant_flower` with the given type, HARVEST to `harvest_flower`, WAIT
      to `wait`. The action type is closed, so the source's fall-through
      case (an unknown action does nothing) has no counterpart. */
  function HandleAction(w: World, i: nat, action: Action, ft: Option<int>, draw: int): (r: Result<World>)
    requires ActionReady(w, i, action, ft, draw)
    ensures action.IsMove() ==> r == Ok(MoveAgent(w, i, action))
    ensures action == Plant ==> r == PlantFlower(w, i, ft)
    ensures action == Harvest ==> r == HarvestFlower(w, i, draw)
    ensures action == Wait ==> r == Ok(WaitTurn(w, i))
    ensures r.Err? ==> action == Plant || action == Harvest
  {
    match action
    case Up => Ok(MoveAgent(w, i, action))
    case Down => Ok(MoveAgent(w, i, action))
    case Left => Ok(MoveAgent(w, i, action))
    case Right => Ok(MoveAgent(w, i, action))
    case Plant => PlantFlower(w, i, ft)
    case Harvest => HarvestFlower(w, i, draw)
    case Wait => Ok(WaitTurn(w, i))
  }

  /** Stale back-reference: after a successful move the cell the agent left
      still holds exactly the back-reference it held before. */
  lemma MoveLeavesStaleBackReference(w: World, i: nat, d: Action)
    requires AgentOnGrid(w, i) && d.IsMove()
    requires ValidMove(w, Destination(w.agents[i].position, d))
    ensures var p := w.agents[i].position;
            GetCell(MoveAgent(w, i, d), p).agent == GetCell(w, p).agent
    ensures GetCell(w, w.agents[i].position).agent == Some(i) ==>
              GetCell(MoveAgent(w, i, d), w.agents[i].position).agent == Some(i)
  {
    DestinationAgreesWithMove(w.agents[i], d);
  }

  /** The move the source evidently intends: the same destination and
      agent update, but the cell the agent leaves is cleared. */
  function MoveAgentCleared(w: World, i: nat, d: Action): (v: World)
    requires AgentOnGrid(w, i) && d.IsMove()
    ensures Rectangular(v) && |v.agents| == |w.agents|
    ensures v.agents == MoveAgent(w, i, d).agents
    ensures !ValidMove(w, Destination(w.agents[i].position, d)) ==> v == w
    ensures ValidMove(w, Destination(w.agents[i].position, d)) ==>
              var p, dest := w.agents[i].position, Destination(w.agents[i].position, d);
              && v == w.(grid := v.grid, agents := v.agents)
              && GetCell(v, p) == GetCell(w, p).(agent := None)
              && GetCell(v, dest) == GetCell(w, dest).(agent := Some(i))
              && (forall q :: InBounds(w, q) && q != p && q != dest ==> GetCell(v, q) == GetCell(w, q))
  {
    var a := w.agents[i];
    var dest := Destination(a.position, d);
    DestinationAgreesWithMove(a, d);
    if ValidMove(w, dest) then
      var w1 := SetCell(w, a.position, GetCell(w, a.position).(agent := None));
      var w2 := SetCell(w1, dest, GetCell(w1, dest).(agent := Some(i)));
      w2.(agents := w.agents[i := a.(position := dest, turnsWithoutIncome := a.turnsWithoutIncome + 1)])
    else
      w
  }

  /** The discrepancy: with collisions on, once agent `i` has moved off a
      cell that referred to it, the source's move leaves that cell blocked
      for every later move (the mover's way back included), while the
      intended move frees it whenever the agent stood on ground. */
  lemma VacatedCellStaysBlocked(w: World, i: nat, d: Action)
    requires AgentOnGrid(w, i) && d.IsMove() && w.collisionsOn
    requires GetCell(w, w.agents[i].position).agent == Some(i)
    requires ValidMove(w, Destination(w.agents[i].position, d))
    ensures !ValidMove(MoveAgent(w, i, d), w.agents[i].position)
    ensures ValidPosition(w, w.agents[i].position) ==> ValidMove(MoveAgentCleared(w, i, d), w.agents[i].position)
  {
    var v := MoveAgentCleared(w, i, d);
    var p := w.agents[i].position;
    DestinationAgreesWithMove(w.agents[i], d);
    assert GetCell(v, p).cellType == GetCell(w, p).cellType;
  }

  /** The smallest case: on a one-row, two-cell grid with collisions on, an
      agent that steps right cannot step back left. */
  lemma CannotStepBack()
    ensures var a := NewAgent(Pos(0, 0), 0.0, None);
            var row := [NewCell(Ground).(agent := Some(0)), NewCell(Ground)];
            var w := World(2, 1, 0.0, 100.0, 1.0, Some(1), true, map[], [row], [a], map[]);
            var v := MoveAgent(w, 0, Right);
            && v.agents[0].position == Pos(0, 1)
            && MoveAgent(v, 0, Left) == v
  {
    var a := NewAgent(Pos(0, 0), 0.0, None);
    var row := [NewCell(Ground).(agent := Some(0)), NewCell(Ground)];
    var w := World(2, 1, 0.0, 100.0, 1.0, Some(1), true, map[], [row], [a], map[]);
    assert GetCell(w, Pos(0, 1)) == row[1];
    VacatedCellStaysBlocked(w, 0, Right);
  }

  /** Counters not touched: a refused move counts no turn, and a harvest
      neither resets `turns_without_income` nor counts the harvest. */
  lemma CountersLeftAlone(w: World, i: nat, d: Action, draw: int)
    requires HarvestReady(w, i, draw)
    ensures !ValidMove(w, Destination(w.agents[i].position, d)) ==>
              MoveAgent(w, i, d).agents[i].turnsWithoutIncome == w.agents[i].turnsWithoutIncome
    ensures HarvestFlower(w, i, draw).Ok? ==>
              && HarvestFlower(w, i, draw).value.agents[i].turnsWithoutIncome == w.agents[i].turnsWithoutIncome
              && HarvestFlower(w, i, draw).value.agents[i].flowersHarvested == w.agents[i].flowersHarvested
  {
  }

  /** A plant that fails leaves the seed unused and the grid without a new
      flower: the failure is the only outcome. */
  lemma PlantFailureUsesNoSeed(w: World, i: nat, t: int)
    requires PlantReady(w, i, Some(t)) && t in w.agents[i].seeds
    requires !CanPlant(w.agents[i], t) || !CanPlantOn(GetCell(w, w.agents[i].position))
    ensures PlantFlower(w, i, Some(t)) == Err(CannotPlant)
  {
  }
}

=== FILE: actions.dfy ===
/** The closed set of actions a gardener can take (ethicalgardeners/action.py). */
module Actions {

  datatype Action = Up | Down | Left | Right | Plant | Harvest | Wait {
    /** The four one-step movements. */
    predicate IsMove() {
      Up? || Down? || Left? || Right?
    }
  }
}

=== FILE: agent.dfy ===
/** A gardener's state (ethicalgardeners/agent.py): position, money, seed
    inventory with `-1` standing for an infinite supply, per-type counters
    and the number of turns since the last income. */
module Agents {
  import opened Common
  import opened Actions

  /** The seed count that stands for an unlimited supply. */
  const Infinite: int := -1

  datatype Agent = Agent(
    position: Pos,
    money: real,
    seeds: map<int, int>,
    flowersPlanted: map<int, int>,
    flowersHarvested: map<int, int>,
    turnsWithoutIncome: int)

  /** The inventory a new agent receives when none is given. */
  const DefaultSeeds: map<int, int> := map[0 := 10, 1 := 10, 2 := 10]

  /** Every seed count is the infinite sentinel or a genuine count. */
  predicate SeedsOk(a: Agent) {
    forall t :: t in a.seeds ==> a.seeds[t] == Infinite || a.seeds[t] >= 0
  }

  /** The counters are kept for exactly the seed types, as the constructor sets up. */
  predicate CountersCover(a: Agent) {
    a.flowersPlanted.Keys == a.seeds.Keys && a.flowersHarvested.Keys == a.seeds.Keys
  }

  predicate AgentOk(a: Agent) {
    SeedsOk(a) && CountersCover(a)
  }

  /** `Agent(position, money, seeds)`: `seeds` defaults to ten of each of the
      three types; both counters start at zero for exactly the seed types. */
  function NewAgent(position: Pos, money: real, seeds: Option<map<int, int>>): (a: Agent)
    ensures a.position == position && a.money == money && a.turnsWithoutIncome == 0
    ensures seeds.None? ==> a.seeds == DefaultSeeds
    ensures seeds.Some? ==> a.seeds == seeds.value
    ensures CountersCover(a)
    ensures forall t :: t in a.seeds ==> a.flowersPlanted[t] == 0 && a.flowersHarvested[t] == 0
  {
    var s := seeds.GetOr(DefaultSeeds);
    Agent(position, money, s, map t | t in s :: 0, map t | t in s :: 0, 0)
  }

  /** A default agent holds ten seeds of each type and every count is zero. */
  lemma NewDefaultAgent(p: Pos)
    ensures var a := NewAgent(p, 0.0, None);
            && a.seeds.Keys == {0, 1, 2} && AgentOk(a)
            && (forall t :: t in a.seeds ==> a.seeds[t] == 10 && a.flowersPlanted[t] == 0 && a.flowersHarvested[t] == 0)
  {
  }

  /** `move(direction)`: a unit step with no bounds check; actions that are
      not movements leave the position alone. */
  function Move(a: Agent, d: Action): (b: Agent)
    ensures b.(position := a.position) == a
    ensures d == Up ==> b.position == Pos(a.position.row - 1, a.position.col)
    ensures d == Down ==> b.position == Pos(a.position.row + 1, a.position.col)
    ensures d == Left ==> b.position == Pos(a.position.row, a.position.col - 1)
    ensures d == Right ==> b.position == Pos(a.position.row, a.position.col + 1)
    ensures !d.IsMove() ==> b == a
  {
    match d
    case Up => a.(position := Pos(a.position.row - 1, a.position.col))
    case Down => a.(position := Pos(a.position.row + 1, a.position.col))
    case Left => a.(position := Pos(a.position.row, a.position.col - 1))
    case Right => a.(position := Pos(a.position.row, a.position.col + 1))
    case _ => a
  }

  /** The opposite movement of each direction. */
  function Opposite(d: Action): Action {
    match d
    case Up => Down
    case Down => Up
    case Left => Right
    case Right => Left
    case other => other
  }

  /** A movement followed by its opposite returns the agent where it was. */
  lemma MoveThenOpposite(a: Agent, d: Action)
    ensures Move(Move(a, d), Opposite(d)) == a
  {
  }

  /** Scenario from the movement tests: UP, RIGHT, RIGHT, DOWN from (5, 5)
      ends at (5, 7). */
  lemma MoveSequenceScenario()
    ensures Move(Move(Move(Move(NewAgent(Pos(5, 5), 0.0, None), Up), Right), Right), Down).position == Pos(5, 7)
  {
  }

  /** `can_plant(t)`: the supply is infinite or at least one seed is left. */
  predicate CanPlant(a: Agent, t: int)
    requires t in a.seeds
  {
    a.seeds[t] == Infinite || a.seeds[t] > 0
  }

  /** The outcome of `use_seed`: the boolean it returns and the updated agent. */
  datatype SeedUse = SeedUse(used: bool, agent: Agent)

  /** `use_seed(t)`: when a seed is available, one is consumed (none for an
      infinite supply) and one more planting of `t` is counted; otherwise
      nothing changes and `false` is returned. */
  function UseSeed(a: Agent, t: int): (r: SeedUse)
    requires CountersCover(a) && t in a.seeds
    ensures r.used <==> (a.seeds[t] == Infinite || a.seeds[t] > 0)
    ensures !r.used ==> r.agent == a
    ensures r.agent.(seeds := a.seeds, flowersPlanted := a.flowersPlanted) == a
    ensures r.agent.seeds.Keys == a.seeds.Keys && r.agent.flowersPlanted.Keys == a.flowersPlanted.Keys
    ensures forall u :: u in a.seeds && u != t ==>
              r.agent.seeds[u] == a.seeds[u] && r.agent.flowersPlanted[u] == a.flowersPlanted[u]
    ensures r.agent.flowersPlanted[t] == a.flowersPlanted[t] + (if r.used then 1 else 0)
    ensures a.seeds[t] == Infinite ==> r.agent.seeds[t] == Infinite
    ensures a.seeds[t] != Infinite ==>
              r.agent.seeds[t] + r.agent.flowersPlanted[t] == a.seeds[t] + a.flowersPlanted[t]
  {
    if CanPlant(a, t) then
      var s := if a.seeds[t] != Infinite then a.seeds[t := a.seeds[t] - 1] else a.seeds;
      SeedUse(true, a.(seeds := s, flowersPlanted := a.flowersPlanted[t := a.flowersPlanted[t] + 1]))
    else
      SeedUse(false, a)
  }

  /** Scenario from the agent tests: three seeds become two and one planting
      is counted; with no seed left nothing happens. */
  lemma UseSeedScenario(p: Pos)
    ensures var r := UseSeed(NewAgent(p, 0.0, Some(map[0 := 3])), 0);
            r.used && r.agent.seeds[0] == 2 && r.agent.flowersPlanted[0] == 1
    ensures var a := NewAgent(p, 0.0, Some(map[0 := 0]));
            UseSeed(a, 0) == SeedUse(false, a)
  {
  }

  /** `add_money(amount)`: the money grows by exactly `amount`. */
  function AddMoney(a: Agent, amount: real): (b: Agent)
    ensures b.money - a.money == amount
    ensures b.(money := a.money) == a
  {
    a.(money := a.money + amount)
  }

  /** `add_seed(t, n)`: `n` more seeds of type `t`, unless the supply is infinite. */
  function AddSeed(a: Agent, t: int, n: int): (b: Agent)
    requires t in a.seeds
    ensures b.(seeds := a.seeds) == a
    ensures b.seeds.Keys == a.seeds.Keys
    ensures forall u :: u in a.seeds && u != t ==> b.seeds[u] == a.seeds[u]
    ensures a.seeds[t] == Infinite ==> b == a
    ensures a.seeds[t] != Infinite ==> b.seeds[t] - a.seeds[t] == n
  {
    if a.seeds[t] == Infinite then a else a.(seeds := a.seeds[t := a.seeds[t] + n])
  }

  /** A negative addition is applied as it comes: with a policy of -5 a
      count of 3 becomes -2, and a count of 4 becomes the infinite
      sentinel. */
  lemma AddSeedNegative(a: Agent, t: int)
    requires t in a.seeds
    ensures a.seeds[t] == 3 ==> AddSeed(a, t, -5).seeds[t] == -2
    ensures a.seeds[t] == 4 ==> AddSeed(a, t, -5).seeds[t] == Infinite
  {
  }

  /** Consuming a seed, and adding a non-negative number of seeds, keep every
      count at the sentinel or non-negative and keep the counters aligned. */
  lemma SeedOpsPreserveAgentOk(a: Agent, t: int, n: int)
    requires AgentOk(a) && t in a.seeds && n >= 0
    ensures AgentOk(UseSeed(a, t).agent)
    ensures AgentOk(AddSeed(a, t, n))
  {
  }
}

=== FILE: common.dfy ===
/** Shared vocabulary of the gardening grid world: optional values, results,
    the errors the simulation signals, and grid positions. */
module Common {

  /** A value that may be absent (Python's `None`). */
  datatype Option<+T> = None | Some(value: T) {
    function GetOr(default: T): T {
      match this
      case Some(v) => v
      case None => default
    }
  }

  /** Every condition under which the simulation core raises instead of
      returning a new state. Each failure leaves the state unchanged. */
  datatype Error =
    | InvalidPosition        // position out of bounds or not walkable
    | OccupiedCell           // agent or flower placed on an occupied cell
    | NoFlower               // remove_flower on a flowerless cell
    | CannotPlant            // no seed left, or the cell cannot take a flower
    | CannotHarvest          // no flower here, or it is not fully grown
    | UnknownFlowerType      // a type missing from flowers_data or the seed inventory
    | UnknownCellType        // a cell type name that is neither GROUND nor OBSTACLE
    | InvalidGrowthStage     // a growth stage outside [0, num_growth_stage]
    | IndexOutOfRange        // a list index outside the list
    | BadSample              // a random draw without replacement that cannot exist
    | NotEnoughPositions     // fewer free cells than requested agents
    | ParseError(line: int)  // malformed grid-file line (0-based)

  datatype Result<+T> = Ok(value: T) | Err(error: Error) {
    predicate IsFailure() { Err? }
    function PropagateFailure<U>(): Result<U>
      requires Err?
    {
      Err(error)
    }
    function Extract(): T
      requires Ok?
    {
      value
    }
  }

  /** A grid position `(row, col)`, row-major as everywhere in the source. */
  datatype Pos = Pos(row: int, col: int)

  /** Python's `range(n)` has length `n` for `n >= 0` and is empty otherwise. */
  function RangeLen(n: int): nat {
    if n < 0 then 0 else n
  }
}

=== FILE: constants.dfy ===
/** Constants of the simulation (ethicalgardeners/constants.py): the default
    grid configuration and the wellbeing penalty normalised by
    `MAX_PENALTY_TURNS`. */
module Constants {
  import opened Common
  import opened Cells

  /** A non-ground cell of a configuration; the type is named by a string. */
  datatype CellPlacement = CellPlacement(position: Pos, typeName: string)

  /** An agent of the default configuration, every field given. */
  datatype AgentPlacement = AgentPlacement(position: Pos, money: real, seeds: map<int, int>)

  /** A flower of a configuration: position, type and growth stage. */
  datatype FlowerPlacement = FlowerPlacement(position: Pos, flowerType: int, growthStage: int)

  /** The shape of `DEFAULT_GRID_CONFIG`, where every key is present. */
  datatype GridDefaults = GridDefaults(
    width: int,
    height: int,
    minPollution: real,
    maxPollution: real,
    pollutionIncrement: real,
    numSeedsReturned: int,
    collisionsOn: bool,
    flowersData: map<int, FlowerSpec>,
    cells: seq<CellPlacement>,
    agents: seq<AgentPlacement>,
    flowers: seq<FlowerPlacement>)

  /** The three default flower types: prices 10, 5 and 2. The grid
      constructor keeps an identical table for its own default. */
  const DefaultFlowersData: map<int, FlowerSpec> := map[
    0 := FlowerSpec(10.0, [0.0, 0.0, 0.0, 0.0, 5.0]),
    1 := FlowerSpec(5.0, [0.0, 0.0, 1.0, 3.0]),
    2 := FlowerSpec(2.0, [1.0])]

  const DefaultAgentSeeds: map<int, int> := map[0 := 10, 1 := 10, 2 := 10]

  /** `DEFAULT_GRID_CONFIG`. */
  const DefaultGridConfig: GridDefaults := GridDefaults(
    10, 10, 0.0, 100.0, 1.0, 1, true,
    DefaultFlowersData,
    [CellPlacement(Pos(4, 4), "OBSTACLE"), CellPlacement(Pos(5, 5), "OBSTACLE"), CellPlacement(Pos(6, 6), "OBSTACLE")],
    [AgentPlacement(Pos(1, 1), 0.0, DefaultAgentSeeds), AgentPlacement(Pos(9, 9), 0.0, DefaultAgentSeeds)],
    [])

  /** The default agents stand inside the 10x10 grid on cells that are not
      obstacles, each holds seeds for every configured flower type, and every
      flower type has at least one (non-negative) reduction value. */
  lemma DefaultGridConfigConsistent()
    ensures var d := DefaultGridConfig;
            && |d.agents| == 2
            && (forall k :: 0 <= k < |d.agents| ==>
                  && 0 <= d.agents[k].position.row < d.height
                  && 0 <= d.agents[k].position.col < d.width
                  && (forall j :: 0 <= j < |d.cells| ==> d.cells[j].position != d.agents[k].position)
                  && d.flowersData.Keys <= d.agents[k].seeds.Keys)
            && (forall t :: t in d.flowersData ==>
                  |d.flowersData[t].pollutionReduction| > 0 && NonNegative(d.flowersData[t].pollutionReduction))
            && (forall t :: t in d.flowersData <==> 0 <= t < |d.flowersData|)
            && d.minPollution <= d.maxPollution
  {
    DefaultFlowersDataShape();
    DefaultAgentsPlaced();
    var d := DefaultGridConfig;
    hide DefaultGridConfig;
    assert |d.flowersData| == 3;
  }

  /** Both default agents stand inside the grid, off the obstacles, with
      seeds of types 0, 1 and 2. */
  lemma DefaultAgentsPlaced()
    ensures var d := DefaultGridConfig;
            && |d.agents| == 2 && d.height == 10 && d.width == 10 && |d.cells| == 3
            && d.flowersData == DefaultFlowersData && d.minPollution <= d.maxPollution
            && (forall k :: 0 <= k < 2 ==>
                  && 0 <= d.agents[k].position.row < 10
                  && 0 <= d.agents[k].position.col < 10
                  && (forall j :: 0 <= j < 3 ==> d.cells[j].position != d.agents[k].position)
                  && d.agents[k].seeds.Keys == {0, 1, 2})
  {
    assert DefaultAgentSeeds.Keys == {0, 1, 2};
  }

  /** The default table lists types 0, 1 and 2, each with reductions. */
  lemma DefaultFlowersDataShape()
    ensures DefaultFlowersData.Keys == {0, 1, 2} && |DefaultFlowersData| == 3
    ensures forall t :: t in DefaultFlowersData <==> 0 <= t < 3
    ensures forall t :: t in DefaultFlowersData ==>
              |DefaultFlowersData[t].pollutionReduction| > 0 && NonNegative(DefaultFlowersData[t].pollutionReduction)
  {
    DefaultFlowersKeys();
    forall t | t in DefaultFlowersData
      ensures |DefaultFlowersData[t].pollutionReduction| > 0 && NonNegative(DefaultFlowersData[t].pollutionReduction)
    {
      var r := DefaultFlowersData[t].pollutionReduction;
      assert r == [0.0, 0.0, 0.0, 0.0, 5.0] || r == [0.0, 0.0, 1.0, 3.0] || r == [1.0];
    }
  }

  lemma DefaultFlowersKeys()
    ensures DefaultFlowersData.Keys == {0, 1, 2} && |DefaultFlowersData| == 3
    ensures forall t :: t in DefaultFlowersData <==> 0 <= t < 3
  {
    var keys := DefaultFlowersData.Keys;
    assert keys == {0, 1, 2};
    forall t | t in DefaultFlowersData ensures 0 <= t < 3 {
      assert t in keys;
    }
  }

  /** `MAX_PENALTY_TURNS`. */
  const MaxPenaltyTurns: int := 10

  /** The wellbeing penalty for a non-harvesting action,
      `-min(turns_without_income / MAX_PENALTY_TURNS, 1.0)`. */
  function WellbeingPenalty(turns: int): (r: real)
    ensures turns >= 0 ==> -1.0 <= r <= 0.0
    ensures turns == 0 ==> r == 0.0
    ensures turns >= MaxPenaltyTurns ==> r == -1.0
    ensures turns <= MaxPenaltyTurns ==> r * (MaxPenaltyTurns as real) == -(turns as real)
  {
    var ratio := turns as real / MaxPenaltyTurns as real;
    -(if ratio < 1.0 then ratio else 1.0)
  }

  /** More turns without income never lessen the penalty. */
  lemma WellbeingPenaltyMonotone(t1: int, t2: int)
    requires t1 <= t2
    ensures WellbeingPenalty(t2) <= WellbeingPenalty(t1)
  {
  }

  /** Scenario of the reward tests: five turns without income cost one half. */
  lemma WellbeingPenaltyAtFive()
    ensures WellbeingPenalty(5) == -0.5
  {
  }
}

=== FILE: construction.dfy ===
/** Building a world (ethicalgardeners/worldgrid.py): the constructor's
    placement loops, `init_from_code` with its defaults, and `init_random`
    with its random selections passed in as index sequences. */
module Construction {
  import opened Common
  import opened Cells
  import opened Agents
  import opened Grid
  import opened Constants

  /** The scalar constructor parameters. */
  datatype Params = Params(
    width: int,
    height: int,
    minPollution: real,
    maxPollution: real,
    pollutionIncrement: real,
    numSeedsReturned: int,
    collisionsOn: bool)

  /** The constructor's keyword defaults. */
  const ConstructorDefaults: Params := Params(10, 10, 0.0, 100.0, 1.0, 1, true)

  /** The stored seed-return policy: -1 disables seeds, -2 draws a count
      once (the draw is passed in), any other value is kept as given. */
  function SeedPolicy(n: int, draw: int): (r: Option<int>)
    ensures n == -1 <==> r.None?
    ensures n == -2 ==> r == Some(draw)
    ensures n != -1 && n != -2 ==> r == Some(n)
  {
    if n == -1 then None else if n == -2 then Some(draw) else Some(n)
  }

  /** For the policies the constructor documents (-1 to -3 and the
      non-negative counts), the stored policy is what a harvest can use:
      disabled exactly for -1, otherwise a non-negative count or the
      per-harvest marker -3, and a once-drawn count lies in [0, 5). */
  lemma SeedPolicyRange(n: int, draw: int)
    requires n >= -3 && (n == -2 ==> 0 <= draw < 5)
    ensures SeedPolicy(n, draw).None? <==> n == -1
    ensures SeedPolicy(n, draw).Some? ==> SeedPolicy(n, draw).value >= 0 || SeedPolicy(n, draw).value == -3
    ensures n == -2 ==> 0 <= SeedPolicy(n, draw).value < 5
    ensures n == -3 ==> SeedPolicy(n, draw) == Some(-3)
  {
  }

  /** Two cells that differ at most in their agent back-reference. */
  predicate SameButAgent(a: Cell, b: Cell) {
    a.(agent := b.agent) == b
  }

  predicate DistinctPositions(agents: seq<Agent>) {
    forall j, k :: 0 <= j < k < |agents| ==> agents[j].position != agents[k].position
  }

  /** Dropping the first agent keeps the positions distinct, and none of
      the others stands where the first does. */
  lemma DistinctTail(agents: seq<Agent>)
    requires |agents| > 0 && DistinctPositions(agents)
    ensures DistinctPositions(agents[1..])
    ensures forall j :: 0 <= j < |agents| - 1 ==> agents[1..][j].position != agents[0].position
  {
    var rest := agents[1..];
    forall i, j | 0 <= i < j < |rest| ensures rest[i].position != rest[j].position {
      assert rest[i] == agents[i + 1] && rest[j] == agents[j + 1];
    }
    forall j | 0 <= j < |rest| ensures rest[j].position != agents[0].position {
      assert rest[j] == agents[j + 1];
    }
  }

  /** The constructor's agent loop: each agent's position must be valid
      (checked once by the loop and again by `place_agent`), then the agent is
      placed. The first refusal aborts the construction. */
  function PlaceAgents(w: World, agents: seq<Agent>): (r: Result<World>)
    requires Rectangular(w)
    ensures r.Ok? ==>
              && Rectangular(r.value)
              && r.value == w.(grid := r.value.grid, agents := r.value.agents)
              && r.value.agents == w.agents + agents
              && forall p :: InBounds(w, p) ==> SameButAgent(GetCell(r.value, p), GetCell(w, p))
    decreases |agents|
  {
    if |agents| == 0 then Ok(w)
    else if !ValidPosition(w, agents[0].position) then Err(InvalidPosition)
    else
      match PlaceAgent(w, agents[0])
      case Err(e) => Err(e)
      case Ok(w1) =>
        var r := PlaceAgents(w1, agents[1..]);
        if r.Ok? then
          assert w.agents + agents == w1.agents + agents[1..];
          r
        else
          r
  }

  /** Placing agents never changes which positions are valid. */
  lemma PlaceAgentsKeepValid(w: World, agents: seq<Agent>)
    requires Rectangular(w) && PlaceAgents(w, agents).Ok?
    ensures forall p :: ValidPosition(w, p) <==> ValidPosition(PlaceAgents(w, agents).value, p)
  {
    var v := PlaceAgents(w, agents).value;
    forall p ensures ValidPosition(w, p) <==> ValidPosition(v, p) {
      if InBounds(w, p) {
        assert SameButAgent(GetCell(v, p), GetCell(w, p));
      }
    }
  }

  /** The first placement step, as the agent loop takes it. */
  lemma PlaceAgentsStep(w: World, agents: seq<Agent>)
    requires Rectangular(w) && |agents| > 0 && ValidPosition(w, agents[0].position)
    requires PlaceAgent(w, agents[0]).Ok?
    ensures PlaceAgents(w, agents) == PlaceAgents(PlaceAgent(w, agents[0]).value, agents[1..])
    ensures forall p :: ValidPosition(w, p) <==> ValidPosition(PlaceAgent(w, agents[0]).value, p)
    ensures forall k :: 1 <= k < |agents| ==> agents[1..][k - 1] == agents[k]
  {
    var w1 := PlaceAgent(w, agents[0]).value;
    forall p ensures ValidPosition(w, p) <==> ValidPosition(w1, p) {
      if InBounds(w, p) && p != agents[0].position {
        assert GetCell(w1, p) == GetCell(w, p);
      }
    }
  }

  /** The agent loop succeeds only if every agent stood on a valid
      position; with collisions on, that is also enough. */
  lemma {:induction false} PlaceAgentsOutcome(w: World, agents: seq<Agent>)
    requires Rectangular(w)
    ensures PlaceAgents(w, agents).Ok? ==> forall k :: 0 <= k < |agents| ==> ValidPosition(w, agents[k].position)
    ensures w.collisionsOn && (forall k :: 0 <= k < |agents| ==> ValidPosition(w, agents[k].position))
            ==> PlaceAgents(w, agents).Ok?
    decreases |agents|
  {
    if |agents| > 0 && ValidPosition(w, agents[0].position) && PlaceAgent(w, agents[0]).Ok? {
      PlaceAgentsStep(w, agents);
      PlaceAgentsOutcome(PlaceAgent(w, agents[0]).value, agents[1..]);
    }
  }

  /** A successful agent loop leaves the cells at no agent's position alone. */
  lemma {:induction false} PlaceAgentsUntouched(w: World, agents: seq<Agent>)
    requires Rectangular(w) && PlaceAgents(w, agents).Ok?
    ensures var v := PlaceAgents(w, agents).value;
            forall p :: InBounds(w, p) && (forall k :: 0 <= k < |agents| ==> agents[k].position != p)
              ==> GetCell(v, p) == GetCell(w, p)
    decreases |agents|
  {
    if |agents| > 0 {
      hide PlaceAgent, PlaceAgents, SetCell;
      var a := agents[0];
      PlaceAgentsStep(w, agents);
      var w1 := PlaceAgent(w, a).value;
      var rest := agents[1..];
      PlaceAgentsUntouched(w1, rest);
      var v := PlaceAgents(w, agents).value;
      assert v == PlaceAgents(w1, rest).value;
      forall p | InBounds(w, p) && (forall k :: 0 <= k < |agents| ==> agents[k].position != p)
        ensures GetCell(v, p) == GetCell(w, p)
      {
        assert agents[0].position != p;
        forall k | 0 <= k < |rest| ensures rest[k].position != p {
          assert rest[k] == agents[k + 1];
        }
      }
    }
  }

  /** When the positions are pairwise distinct, a successful agent loop
      makes every agent's cell point back at it. */
  lemma {:induction false} PlaceAgentsReferences(w: World, agents: seq<Agent>)
    requires Rectangular(w) && PlaceAgents(w, agents).Ok?
    ensures var v := PlaceAgents(w, agents).value;
            DistinctPositions(agents) ==>
              forall k :: 0 <= k < |agents| ==>
                InBounds(w, agents[k].position) && GetCell(v, agents[k].position).agent == Some(|w.agents| + k)
    decreases |agents|
  {
    if |agents| > 0 && DistinctPositions(agents) {
      hide PlaceAgent, PlaceAgents, SetCell;
      var a := agents[0];
      PlaceAgentsStep(w, agents);
      var w1 := PlaceAgent(w, a).value;
      var rest := agents[1..];
      var v := PlaceAgents(w, agents).value;
      assert v == PlaceAgents(w1, rest).value;
      DistinctTail(agents);
      PlaceAgentsReferences(w1, rest);
      PlaceAgentsUntouched(w1, rest);
      assert GetCell(v, a.position) == GetCell(w1, a.position);
      forall k | 1 <= k < |agents|
        ensures InBounds(w, agents[k].position) && GetCell(v, agents[k].position).agent == Some(|w.agents| + k)
      {
        assert agents[k] == rest[k - 1];
      }
    }
  }

  /** With collisions off a successful agent loop saw pairwise distinct
      positions, none of them occupied beforehand. */
  lemma {:induction false} PlaceAgentsWithoutCollisions(w: World, agents: seq<Agent>)
    requires Rectangular(w) && !w.collisionsOn && PlaceAgents(w, agents).Ok?
    ensures DistinctPositions(agents)
    ensures forall k :: 0 <= k < |agents| ==> InBounds(w, agents[k].position) && !HasAgent(GetCell(w, agents[k].position))
    decreases |agents|
  {
    if |agents| > 0 {
      hide PlaceAgent, PlaceAgents, SetCell;
      var a := agents[0];
      PlaceAgentsStep(w, agents);
      var w1 := PlaceAgent(w, a).value;
      var rest := agents[1..];
      PlaceAgentsWithoutCollisions(w1, rest);
      forall k | 1 <= k < |agents|
        ensures agents[k].position != a.position
        ensures !HasAgent(GetCell(w, agents[k].position))
      {
        assert !HasAgent(GetCell(w1, rest[k - 1].position));
      }
    }
  }

  /** A list of agents the loop accepts in `w`: every agent on a valid
      position and, with collisions off, on pairwise distinct cells that
      held no agent before. */
  ghost predicate AgentsFit(w: World, agents: seq<Agent>)
    requires Rectangular(w)
  {
    && (forall k :: 0 <= k < |agents| ==> ValidPosition(w, agents[k].position))
    && (!w.collisionsOn ==>
          && DistinctPositions(agents)
          && forall k :: 0 <= k < |agents| ==> !HasAgent(GetCell(w, agents[k].position)))
  }

  /** The agent loop succeeds exactly when the list fits the world. */
  lemma {:induction false} PlaceAgentsExactly(w: World, agents: seq<Agent>)
    requires Rectangular(w)
    ensures PlaceAgents(w, agents).Ok? <==> AgentsFit(w, agents)
    decreases |agents|
  {
    PlaceAgentsOutcome(w, agents);
    if !w.collisionsOn && PlaceAgents(w, agents).Ok? {
      PlaceAgentsWithoutCollisions(w, agents);
    }
    if |agents| > 0 && AgentsFit(w, agents) && !w.collisionsOn {
      var a := agents[0];
      assert ValidPosition(w, a.position) && !HasAgent(GetCell(w, a.position));
      PlaceAgentsStep(w, agents);
      var w1 := PlaceAgent(w, a).value;
      var rest := agents[1..];
      hide PlaceAgent, PlaceAgents;
      DistinctTail(agents);
      forall k | 0 <= k < |rest|
        ensures ValidPosition(w1, rest[k].position) && !HasAgent(GetCell(w1, rest[k].position))
      {
        assert rest[k] == agents[k + 1];
        assert GetCell(w1, rest[k].position) == GetCell(w, rest[k].position);
      }
      PlaceAgentsExactly(w1, rest);
    }
  }

  /** The constructor's flower loop: each flower is placed in turn, and the
      first refusal aborts the construction. The refusals come in
      `place_flower`'s order: an invalid position, a cell that already has a
      flower, then a type the stored table or the index lacks (the source
      raises a `KeyError` there, after attaching the flower in the second
      case). Beyond the source, a growth stage that does not index the
      type's reductions is refused last. */
  function PlaceFlowers(w: World, flowers: seq<FlowerPlacement>): (r: Result<World>)
    requires Rectangular(w)
    ensures r.Ok? ==>
              var v := r.value;
              && Rectangular(v)
              && v == w.(grid := v.grid, flowers := v.flowers)
              && (forall p :: InBounds(w, p) ==> GetCell(v, p).(flower := GetCell(w, p).flower) == GetCell(w, p))
              && v.flowers.Keys == w.flowers.Keys
    decreases |flowers|
  {
    if |flowers| == 0 then Ok(w)
    else
      var f := flowers[0];
      if !ValidPosition(w, f.position) then Err(InvalidPosition)
      else if HasFlower(GetCell(w, f.position)) then Err(OccupiedCell)
      else if f.flowerType !in w.flowersData || f.flowerType !in w.flowers then Err(UnknownFlowerType)
      else if !StageFits(w, f.flowerType, f.growthStage) then Err(InvalidGrowthStage)
      else
        hide PlaceFlower, SetCell;
        match PlaceFlower(w, f.position, f.flowerType, f.growthStage)
        case Err(e) => Err(e)
        case Ok(w1) =>
          var r := PlaceFlowers(w1, flowers[1..]);
          assert r.Ok? ==> forall p :: InBounds(w, p) ==> GetCell(r.value, p).(flower := GetCell(w, p).flower) == GetCell(w, p) by {
            if r.Ok? {
              forall p | InBounds(w, p) ensures GetCell(r.value, p).(flower := GetCell(w, p).flower) == GetCell(w, p) {
                assert InBounds(w1, p);
                if p != f.position {
                  assert GetCell(w1, p) == GetCell(w, p);
                }
              }
            }
          }
          r
  }

  /** A list of flowers the loop accepts in `w`: each on a valid, flowerless
      cell, of a type the table and the index both know, at a stage that
      indexes the type's reductions, and no two on the same cell. */
  ghost predicate FlowersFit(w: World, flowers: seq<FlowerPlacement>)
    requires Rectangular(w)
  {
    && (forall k :: 0 <= k < |flowers| ==>
          && ValidPosition(w, flowers[k].position)
          && !HasFlower(GetCell(w, flowers[k].position))
          && flowers[k].flowerType in w.flowersData
          && flowers[k].flowerType in w.flowers
          && StageFits(w, flowers[k].flowerType, flowers[k].growthStage))
    && (forall j, k :: 0 <= j < k < |flowers| ==> flowers[j].position != flowers[k].position)
  }

  /** One entry of a fitting list lies on a valid cell of a stored type. */
  lemma FlowersFitAt(w: World, flowers: seq<FlowerPlacement>, k: nat)
    requires Rectangular(w) && FlowersFit(w, flowers) && k < |flowers|
    ensures ValidPosition(w, flowers[k].position) && flowers[k].flowerType in w.flowersData
  {
  }

  /** No later entry of a fitting list shares the first entry's cell. */
  lemma FlowersFitHead(w: World, flowers: seq<FlowerPlacement>)
    requires Rectangular(w) && FlowersFit(w, flowers) && |flowers| > 0
    ensures forall k :: 0 <= k < |flowers| - 1 ==> flowers[1..][k].position != flowers[0].position
  {
    assert forall k :: 0 <= k < |flowers| - 1 ==> flowers[1..][k] == flowers[k + 1];
  }

  /** The positions of the listed flowers of type `t`, in list order. */
  function TypedPositions(flowers: seq<FlowerPlacement>, t: int): (ps: seq<Pos>)
    ensures |ps| <= |flowers|
  {
    if |flowers| == 0 then []
    else (if flowers[0].flowerType == t then [flowers[0].position] else []) + TypedPositions(flowers[1..], t)
  }

  /** An empty list places nothing. */
  lemma PlaceFlowersNone(w: World)
    requires Rectangular(w)
    ensures PlaceFlowers(w, []) == Ok(w)
  {
  }

  /** A first entry that passes every test is placed, and the loop goes on
      from there. */
  lemma PlaceFlowersStep(w: World, flowers: seq<FlowerPlacement>)
    requires Rectangular(w) && |flowers| > 0
    requires var f := flowers[0];
             && ValidPosition(w, f.position) && !HasFlower(GetCell(w, f.position))
             && f.flowerType in w.flowersData && f.flowerType in w.flowers
             && StageFits(w, f.flowerType, f.growthStage)
    ensures var f := flowers[0];
            && PlaceFlower(w, f.position, f.flowerType, f.growthStage).Ok?
            && PlaceFlowers(w, flowers)
               == PlaceFlowers(PlaceFlower(w, f.position, f.flowerType, f.growthStage).value, flowers[1..])
  {
  }

  /** A successful loop passed every test on its first entry and continued
      from the world with that flower placed. */
  lemma PlaceFlowersHead(w: World, flowers: seq<FlowerPlacement>)
    requires Rectangular(w) && |flowers| > 0 && PlaceFlowers(w, flowers).Ok?
    ensures var f := flowers[0];
            && ValidPosition(w, f.position) && !HasFlower(GetCell(w, f.position))
            && f.flowerType in w.flowersData && f.flowerType in w.flowers
            && StageFits(w, f.flowerType, f.growthStage)
            && PlaceFlower(w, f.position, f.flowerType, f.growthStage).Ok?
            && PlaceFlowers(PlaceFlower(w, f.position, f.flowerType, f.growthStage).value, flowers[1..])
               == PlaceFlowers(w, flowers)
  {
  }

  /** A list the loop accepts fitted the world it started from. */
  lemma {:induction false} PlaceFlowersFits(w: World, flowers: seq<FlowerPlacement>)
    requires Rectangular(w)
    ensures PlaceFlowers(w, flowers).Ok? ==> FlowersFit(w, flowers)
    decreases |flowers|
  {
    hide PlaceFlower, PlaceFlowers, SetCell, NewFlower;
    if |flowers| > 0 && PlaceFlowers(w, flowers).Ok? {
      PlaceFlowersHead(w, flowers);
      var f := flowers[0];
      var rest := flowers[1..];
      var w1 := PlaceFlower(w, f.position, f.flowerType, f.growthStage).value;
      PlaceFlowersFits(w1, rest);
      assert forall k :: 1 <= k < |flowers| ==> rest[k - 1] == flowers[k];
      forall k | 1 <= k < |flowers|
        ensures flowers[k].position != f.position
        ensures ValidPosition(w, flowers[k].position) && !HasFlower(GetCell(w, flowers[k].position))
      {
        assert ValidPosition(w1, rest[k - 1].position) && !HasFlower(GetCell(w1, rest[k - 1].position));
        assert GetCell(w1, flowers[k].position) == GetCell(w, flowers[k].position);
      }
      forall j, k | 0 <= j < k < |flowers| ensures flowers[j].position != flowers[k].position {
        if j > 0 {
          assert rest[j - 1].position != rest[k - 1].position;
        }
      }
    }
  }

  /** After a successful loop every listed cell holds exactly the flower
      built from its entry, and every other cell is untouched. */
  lemma {:induction false} PlaceFlowersCells(w: World, flowers: seq<FlowerPlacement>)
    requires Rectangular(w)
    ensures PlaceFlowers(w, flowers).Ok? ==>
              var v := PlaceFlowers(w, flowers).value;
              && FlowersFit(w, flowers)
              && (forall k :: 0 <= k < |flowers| ==>
                    GetCell(v, flowers[k].position).flower
                    == Some(NewFlower(flowers[k].position, flowers[k].flowerType, w.flowersData, flowers[k].growthStage)))
              && (forall p :: InBounds(w, p) && (forall k :: 0 <= k < |flowers| ==> flowers[k].position != p)
                    ==> GetCell(v, p) == GetCell(w, p))
    decreases |flowers|
  {
    hide PlaceFlower, PlaceFlowers, FlowersFit, SetCell, NewFlower;
    PlaceFlowersNone(w);
    PlaceFlowersFits(w, flowers);
    if |flowers| > 0 && PlaceFlowers(w, flowers).Ok? {
      PlaceFlowersHead(w, flowers);
      var f := flowers[0];
      var rest := flowers[1..];
      var w1 := PlaceFlower(w, f.position, f.flowerType, f.growthStage).value;
      var v := PlaceFlowers(w, flowers).value;
      PlaceFlowersCells(w1, rest);
      FlowersFitHead(w, flowers);
      assert forall k :: 1 <= k < |flowers| ==> rest[k - 1] == flowers[k];
      assert GetCell(v, f.position) == GetCell(w1, f.position);
      forall p | InBounds(w, p) && (forall k :: 0 <= k < |flowers| ==> flowers[k].position != p)
        ensures GetCell(v, p) == GetCell(w, p)
      {
        assert forall k :: 0 <= k < |rest| ==> rest[k].position != p;
        assert InBounds(w1, p) && p != f.position;
      }
    }
  }

  /** After a successful loop each type's index list has grown by the
      positions of that type's entries, in list order. */
  lemma {:induction false} PlaceFlowersIndex(w: World, flowers: seq<FlowerPlacement>)
    requires Rectangular(w)
    ensures PlaceFlowers(w, flowers).Ok? ==>
              forall t :: t in w.flowers ==>
                PlaceFlowers(w, flowers).value.flowers[t] == w.flowers[t] + TypedPositions(flowers, t)
    decreases |flowers|
  {
    hide PlaceFlower, PlaceFlowers, SetCell, NewFlower, GetCell;
    PlaceFlowersNone(w);
    if |flowers| > 0 && PlaceFlowers(w, flowers).Ok? {
      PlaceFlowersHead(w, flowers);
      var f := flowers[0];
      var rest := flowers[1..];
      var w1 := PlaceFlower(w, f.position, f.flowerType, f.growthStage).value;
      var v := PlaceFlowers(w, flowers).value;
      PlaceFlowersIndex(w1, rest);
      forall t | t in w.flowers ensures v.flowers[t] == w.flowers[t] + TypedPositions(flowers, t) {
        var head := if f.flowerType == t then [f.position] else [];
        assert TypedPositions(flowers, t) == head + TypedPositions(rest, t);
        assert w1.flowers[t] == w.flowers[t] + head;
        assert v.flowers[t] == w1.flowers[t] + TypedPositions(rest, t);
        assert (w.flowers[t] + head) + TypedPositions(rest, t) == w.flowers[t] + (head + TypedPositions(rest, t));
      }
    }
  }

  /** The loop's whole effect: the list fitted the world; every listed cell
      holds exactly the flower built from its entry; every other cell is
      untouched; each type's index list grows by that type's positions. */
  lemma PlaceFlowersSpec(w: World, flowers: seq<FlowerPlacement>)
    requires Rectangular(w)
    ensures PlaceFlowers(w, flowers).Ok? ==>
              var v := PlaceFlowers(w, flowers).value;
              && FlowersFit(w, flowers)
              && (forall k :: 0 <= k < |flowers| ==>
                    GetCell(v, flowers[k].position).flower
                    == Some(NewFlower(flowers[k].position, flowers[k].flowerType, w.flowersData, flowers[k].growthStage)))
              && (forall p :: InBounds(w, p) && (forall k :: 0 <= k < |flowers| ==> flowers[k].position != p)
                    ==> GetCell(v, p) == GetCell(w, p))
              && (forall t :: t in w.flowers ==> v.flowers[t] == w.flowers[t] + TypedPositions(flowers, t))
  {
    PlaceFlowersCells(w, flowers);
    PlaceFlowersIndex(w, flowers);
  }

  /** A list that fits the world is always accepted by the loop. */
  lemma {:induction false} PlaceFlowersOutcome(w: World, flowers: seq<FlowerPlacement>)
    requires Rectangular(w) && FlowersFit(w, flowers)
    ensures PlaceFlowers(w, flowers).Ok?
    decreases |flowers|
  {
    hide PlaceFlower, PlaceFlowers, SetCell, NewFlower;
    PlaceFlowersNone(w);
    if |flowers| > 0 {
      var f := flowers[0];
      var rest := flowers[1..];
      assert ValidPosition(w, f.position) && !HasFlower(GetCell(w, f.position));
      assert f.flowerType in w.flowersData && f.flowerType in w.flowers && StageFits(w, f.flowerType, f.growthStage);
      PlaceFlowersStep(w, flowers);
      var w1 := PlaceFlower(w, f.position, f.flowerType, f.growthStage).value;
      assert forall k :: 0 <= k < |rest| ==> rest[k] == flowers[k + 1];
      forall k | 0 <= k < |rest|
        ensures GetCell(w1, rest[k].position) == GetCell(w, rest[k].position)
      {
        assert flowers[0].position != flowers[k + 1].position;
      }
      assert FlowersFit(w1, rest) by {
        forall j, k | 0 <= j < k < |rest| ensures rest[j].position != rest[k].position {
          assert flowers[j + 1].position != flowers[k + 1].position;
        }
      }
      PlaceFlowersOutcome(w1, rest);
    }
  }

  /** `{i: [] for i in range(n)}`: the flower index before any flower. */
  function EmptyIndex(n: nat): (m: map<int, seq<Pos>>)
    ensures forall t :: t in m <==> 0 <= t < n
    ensures forall t :: t in m ==> m[t] == []
    decreases n
  {
    if n == 0 then map[] else EmptyIndex(n - 1)[n - 1 := []]
  }

  /** The world the constructor has set up before placing anything: the
      parameters, the seed policy, the stored flower table and an empty index
      list for each type of the table in use. When no table is given the
      source fills a local default and never stores it: the stored table is
      then empty while the index still has the three default keys. */
  function Configured(p: Params, flowersData: Option<map<int, FlowerSpec>>, seedDraw: int,
                      grid: seq<seq<Cell>>): (w: World)
    requires |grid| == RangeLen(p.height)
    requires forall i :: 0 <= i < |grid| ==> |grid[i]| == RangeLen(p.width)
    ensures Rectangular(w)
    ensures w.width == p.width && w.height == p.height
    ensures w.minPollution == p.minPollution && w.maxPollution == p.maxPollution
    ensures w.pollutionIncrement == p.pollutionIncrement && w.collisionsOn == p.collisionsOn
    ensures w.numSeedsReturned == SeedPolicy(p.numSeedsReturned, seedDraw)
    ensures w.flowersData == (if flowersData.Some? then flowersData.value else map[])
    ensures forall t :: t in w.flowers <==> 0 <= t < |flowersData.GetOr(DefaultFlowersData)|
    ensures forall t :: t in w.flowers ==> w.flowers[t] == []
    ensures w.grid == grid && w.agents == []
  {
    World(p.width, p.height, p.minPollution, p.maxPollution, p.pollutionIncrement,
          SeedPolicy(p.numSeedsReturned, seedDraw), p.collisionsOn,
          if flowersData.Some? then flowersData.value else map[],
          grid, [], EmptyIndex(|flowersData.GetOr(DefaultFlowersData)|))
  }

  /** `WorldGrid(...)`: the configured world with the agents placed, then
      the flowers. Placement changes cells' back-references and flowers
      only, and the world keeps the given agents in order. */
  function Construct(p: Params, flowersData: Option<map<int, FlowerSpec>>, seedDraw: int,
                     grid: seq<seq<Cell>>, agents: seq<Agent>, flowers: seq<FlowerPlacement>): (r: Result<World>)
    requires |grid| == RangeLen(p.height)
    requires forall i :: 0 <= i < |grid| ==> |grid[i]| == RangeLen(p.width)
    ensures r.Ok? ==>
              var w0, v := Configured(p, flowersData, seedDraw, grid), r.value;
              && Rectangular(v)
              && v == w0.(grid := v.grid, agents := agents, flowers := v.flowers)
              && v.flowers.Keys == w0.flowers.Keys
              && forall q :: InBounds(v, q) ==> SameSoil(GetCell(v, q), grid[q.row][q.col])
  {
    var w0 := Configured(p, flowersData, seedDraw, grid);
    match PlaceAgents(w0, agents)
    case Err(e) => Err(e)
    case Ok(w1) =>
      match PlaceFlowers(w1, flowers)
      case Err(e) => Err(e)
      case Ok(w2) =>
        assert forall q :: InBounds(w2, q) ==> SameSoil(GetCell(w2, q), grid[q.row][q.col]) by {
          forall q | InBounds(w2, q) ensures SameSoil(GetCell(w2, q), grid[q.row][q.col]) {
            assert SameButAgent(GetCell(w1, q), GetCell(w0, q));
            assert GetCell(w2, q).(flower := GetCell(w1, q).flower) == GetCell(w1, q);
          }
        }
        Ok(w2)
  }

  /** Two cells of the same type, pollution and increment. */
  predicate SameSoil(a: Cell, b: Cell) {
    a.cellType == b.cellType && a.pollution == b.pollution && a.increment == b.increment
  }

  /** Whether a list of flowers fits depends only on the cells' types and
      flowers, the stored table and the index, not on the agents. */
  lemma FlowersFitIgnoresAgents(w: World, v: World, flowers: seq<FlowerPlacement>)
    requires Rectangular(w) && Rectangular(v)
    requires v == w.(grid := v.grid, agents := v.agents)
    requires forall p :: InBounds(w, p) ==> SameButAgent(GetCell(v, p), GetCell(w, p))
    ensures FlowersFit(w, flowers) <==> FlowersFit(v, flowers)
  {
  }

  /** The constructor succeeds exactly when the agents fit the configured
      world and the flowers fit it too. */
  lemma ConstructOutcome(p: Params, flowersData: Option<map<int, FlowerSpec>>, seedDraw: int,
                         grid: seq<seq<Cell>>, agents: seq<Agent>, flowers: seq<FlowerPlacement>)
    requires |grid| == RangeLen(p.height)
    requires forall i :: 0 <= i < |grid| ==> |grid[i]| == RangeLen(p.width)
    ensures var w0 := Configured(p, flowersData, seedDraw, grid);
            Construct(p, flowersData, seedDraw, grid, agents, flowers).Ok?
            <==> AgentsFit(w0, agents) && FlowersFit(w0, flowers)
  {
    var w0 := Configured(p, flowersData, seedDraw, grid);
    PlaceAgentsExactly(w0, agents);
    if AgentsFit(w0, agents) {
      var w1 := PlaceAgents(w0, agents).value;
      FlowersFitIgnoresAgents(w0, w1, flowers);
      PlaceFlowersSpec(w1, flowers);
      if FlowersFit(w1, flowers) {
        PlaceFlowersOutcome(w1, flowers);
      }
    }
  }

  /** A successful constructor placed the agents, then the flowers. */
  lemma ConstructSteps(p: Params, flowersData: Option<map<int, FlowerSpec>>, seedDraw: int,
                       grid: seq<seq<Cell>>, agents: seq<Agent>, flowers: seq<FlowerPlacement>)
    requires |grid| == RangeLen(p.height)
    requires forall i :: 0 <= i < |grid| ==> |grid[i]| == RangeLen(p.width)
    requires Construct(p, flowersData, seedDraw, grid, agents, flowers).Ok?
    ensures var w0 := Configured(p, flowersData, seedDraw, grid);
            && PlaceAgents(w0, agents).Ok?
            && PlaceFlowers(PlaceAgents(w0, agents).value, flowers)
               == Construct(p, flowersData, seedDraw, grid, agents, flowers)
  {
  }

  /** The flowers a successful constructor places: each listed flower
      stands on its cell, built from its entry and the stored table; cells
      no entry names keep the given grid's flower; and each type's index
      list holds that type's flower positions in list order. */
  lemma ConstructFlowers(p: Params, flowersData: Option<map<int, FlowerSpec>>, seedDraw: int,
                         grid: seq<seq<Cell>>, agents: seq<Agent>, flowers: seq<FlowerPlacement>)
    requires |grid| == RangeLen(p.height)
    requires forall i :: 0 <= i < |grid| ==> |grid[i]| == RangeLen(p.width)
    requires Construct(p, flowersData, seedDraw, grid, agents, flowers).Ok?
    ensures var v := Construct(p, flowersData, seedDraw, grid, agents, flowers).value;
            && (forall k :: 0 <= k < |flowers| ==>
                  && InBounds(v, flowers[k].position)
                  && flowers[k].flowerType in v.flowersData
                  && GetCell(v, flowers[k].position).flower
                     == Some(NewFlower(flowers[k].position, flowers[k].flowerType, v.flowersData, flowers[k].growthStage)))
            && (forall q :: InBounds(v, q) && (forall k :: 0 <= k < |flowers| ==> flowers[k].position != q)
                  ==> GetCell(v, q).flower == grid[q.row][q.col].flower)
            && (forall t :: t in v.flowers ==> v.flowers[t] == TypedPositions(flowers, t))
  {
    ConstructFlowerCells(p, flowersData, seedDraw, grid, agents, flowers);
    ConstructFlowerIndex(p, flowersData, seedDraw, grid, agents, flowers);
  }

  lemma ConstructFlowerCells(p: Params, flowersData: Option<map<int, FlowerSpec>>, seedDraw: int,
                             grid: seq<seq<Cell>>, agents: seq<Agent>, flowers: seq<FlowerPlacement>)
    requires |grid| == RangeLen(p.height)
    requires forall i :: 0 <= i < |grid| ==> |grid[i]| == RangeLen(p.width)
    requires Construct(p, flowersData, seedDraw, grid, agents, flowers).Ok?
    ensures var v := Construct(p, flowersData, seedDraw, grid, agents, flowers).value;
            && (forall k :: 0 <= k < |flowers| ==>
                  && InBounds(v, flowers[k].position)
                  && flowers[k].flowerType in v.flowersData
                  && GetCell(v, flowers[k].position).flower
                     == Some(NewFlower(flowers[k].position, flowers[k].flowerType, v.flowersData, flowers[k].growthStage)))
            && (forall q :: InBounds(v, q) && (forall k :: 0 <= k < |flowers| ==> flowers[k].position != q)
                  ==> GetCell(v, q).flower == grid[q.row][q.col].flower)
  {
    hide PlaceAgents, PlaceFlowers, Construct, Configured, EmptyIndex, PlaceAgent, PlaceFlower, SetCell, FlowersFit, AgentsFit, NewFlower;
    ConstructSteps(p, flowersData, seedDraw, grid, agents, flowers);
    var w0 := Configured(p, flowersData, seedDraw, grid);
    var w1 := PlaceAgents(w0, agents).value;
    var v := Construct(p, flowersData, seedDraw, grid, agents, flowers).value;
    PlaceFlowersCells(w1, flowers);
    assert w1.flowersData == v.flowersData;
    forall k | 0 <= k < |flowers|
      ensures InBounds(v, flowers[k].position) && flowers[k].flowerType in v.flowersData
    {
      FlowersFitAt(w1, flowers, k);
    }
    forall q | InBounds(v, q) && (forall k :: 0 <= k < |flowers| ==> flowers[k].position != q)
      ensures GetCell(v, q).flower == grid[q.row][q.col].flower
    {
      assert GetCell(v, q) == GetCell(w1, q);
      assert SameButAgent(GetCell(w1, q), GetCell(w0, q));
    }
  }

  lemma ConstructFlowerIndex(p: Params, flowersData: Option<map<int, FlowerSpec>>, seedDraw: int,
                             grid: seq<seq<Cell>>, agents: seq<Agent>, flowers: seq<FlowerPlacement>)
    requires |grid| == RangeLen(p.height)
    requires forall i :: 0 <= i < |grid| ==> |grid[i]| == RangeLen(p.width)
    requires Construct(p, flowersData, seedDraw, grid, agents, flowers).Ok?
    ensures var v := Construct(p, flowersData, seedDraw, grid, agents, flowers).value;
            forall t :: t in v.flowers ==> v.flowers[t] == TypedPositions(flowers, t)
  {
    hide PlaceAgents, PlaceFlowers, Construct, Configured, EmptyIndex, PlaceAgent, PlaceFlower, SetCell, FlowersFit, AgentsFit, NewFlower;
    ConstructSteps(p, flowersData, seedDraw, grid, agents, flowers);
    var w0 := Configured(p, flowersData, seedDraw, grid);
    var w1 := PlaceAgents(w0, agents).value;
    var v := Construct(p, flowersData, seedDraw, grid, agents, flowers).value;
    PlaceFlowersIndex(w1, flowers);
    assert w1.flowers == w0.flowers && v.flowers.Keys == w1.flowers.Keys;
    forall t | t in v.flowers ensures v.flowers[t] == TypedPositions(flowers, t) {
      assert w1.flowers[t] == [];
      assert v.flowers[t] == [] + TypedPositions(flowers, t);
    }
  }

  /** The agents a successful constructor places: with distinct positions
      each agent's cell points back at it, and cells at no agent's position
      keep the given grid's back-reference. */
  lemma ConstructAgents(p: Params, flowersData: Option<map<int, FlowerSpec>>, seedDraw: int,
                        grid: seq<seq<Cell>>, agents: seq<Agent>, flowers: seq<FlowerPlacement>)
    requires |grid| == RangeLen(p.height)
    requires forall i :: 0 <= i < |grid| ==> |grid[i]| == RangeLen(p.width)
    requires Construct(p, flowersData, seedDraw, grid, agents, flowers).Ok?
    ensures var v := Construct(p, flowersData, seedDraw, grid, agents, flowers).value;
            && (DistinctPositions(agents) ==>
                  forall k :: 0 <= k < |agents| ==>
                    InBounds(v, agents[k].position) && GetCell(v, agents[k].position).agent == Some(k))
            && (forall q :: InBounds(v, q) && (forall k :: 0 <= k < |agents| ==> agents[k].position != q)
                  ==> GetCell(v, q).agent == grid[q.row][q.col].agent)
  {
    hide PlaceAgents, PlaceFlowers, Construct, Configured, EmptyIndex, PlaceAgent, PlaceFlower, SetCell, FlowersFit, AgentsFit, NewFlower;
    ConstructSteps(p, flowersData, seedDraw, grid, agents, flowers);
    var w0 := Configured(p, flowersData, seedDraw, grid);
    var w1 := PlaceAgents(w0, agents).value;
    var v := Construct(p, flowersData, seedDraw, grid, agents, flowers).value;
    PlaceAgentsReferences(w0, agents);
    PlaceAgentsUntouched(w0, agents);
    assert |w0.agents| == 0;
    forall q | InBounds(v, q) ensures GetCell(v, q).agent == GetCell(w1, q).agent {
      assert GetCell(v, q).(flower := GetCell(w1, q).flower) == GetCell(w1, q);
    }
  }

  /** Without a flower table no flower can be placed: the stored table is
      empty, so the first flower is refused. */
  lemma NoTableNoFlowers(p: Params, seedDraw: int, grid: seq<seq<Cell>>, agents: seq<Agent>, flowers: seq<FlowerPlacement>)
    requires |grid| == RangeLen(p.height)
    requires forall i :: 0 <= i < |grid| ==> |grid[i]| == RangeLen(p.width)
    requires |flowers| > 0
    ensures Construct(p, None, seedDraw, grid, agents, flowers).Err?
  {
    var w0 := Configured(p, None, seedDraw, grid);
    var r1 := PlaceAgents(w0, agents);
    if r1.Ok? {
      assert r1.value.flowersData == map[];
    }
  }

  // ---------------------------------------------------------------------
  // init_from_code

  /** An agent entry of a configuration; money and seeds may be left out. */
  datatype AgentConfig = AgentConfig(position: Pos, money: Option<real>, seeds: Option<map<int, int>>)

  /** A flower entry of a configuration; the growth stage may be left out. */
  datatype FlowerConfig = FlowerConfig(position: Pos, flowerType: int, growthStage: Option<int>)

  /** The configuration dictionary of `init_from_code`: every key optional. */
  datatype GridConfig = GridConfig(
    width: Option<int>,
    height: Option<int>,
    cells: Option<seq<CellPlacement>>,
    minPollution: Option<real>,
    maxPollution: Option<real>,
    pollutionIncrement: Option<real>,
    numSeedsReturned: Option<int>,
    collisionsOn: Option<bool>,
    flowersData: Option<map<int, FlowerSpec>>,
    agents: Option<seq<AgentConfig>>,
    flowers: Option<seq<FlowerConfig>>)

  /** `init_from_code()` with no configuration at all. */
  const EmptyConfig: GridConfig := GridConfig(None, None, None, None, None, None, None, None, None, None, None)

  /** The upper case of one character as far as it can matter for a type
      name: an ASCII letter is raised, and the characters whose Unicode
      upper case is made of ASCII capitals only (long s, dotless i, sharp s
      and the Latin ligatures U+FB00 to U+FB06) become those capitals.
      Every other character is kept. */
  function UpperChar(c: char): (u: string)
    ensures 1 <= |u| <= 3
    ensures 'a' <= c <= 'z' ==> u == [(c as int - 32) as char]
    ensures (c as int) < 128 && !('a' <= c <= 'z') ==> u == [c]
  {
    if 'a' <= c <= 'z' then [(c as int - 32) as char]
    else if c == '\U{17F}' then "S"
    else if c == '\U{131}' then "I"
    else if c == '\U{DF}' then "SS"
    else if c == '\U{FB00}' then "FF"
    else if c == '\U{FB01}' then "FI"
    else if c == '\U{FB02}' then "FL"
    else if c == '\U{FB03}' then "FFI"
    else if c == '\U{FB04}' then "FFL"
    else if c == '\U{FB05}' || c == '\U{FB06}' then "ST"
    else [c]
  }

  /** `str.upper()`: each character's upper case, in order. */
  function Upper(s: string): (u: string)
    ensures |s| <= |u| <= 3 * |s|
    decreases |s|
  {
    if |s| == 0 then "" else UpperChar(s[0]) + Upper(s[1..])
  }

  predicate Ascii(s: string) {
    forall k :: 0 <= k < |s| ==> (s[k] as int) < 128
  }

  /** Upper-casing works character by character: the upper case of a
      concatenation is the concatenation of the upper cases. */
  lemma {:induction false} UpperConcat(a: string, b: string)
    ensures Upper(a + b) == Upper(a) + Upper(b)
    decreases |a|
  {
    if |a| == 0 {
      assert a + b == b;
    } else {
      assert (a + b)[0] == a[0] && (a + b)[1..] == a[1..] + b;
      UpperConcat(a[1..], b);
    }
  }

  /** On ASCII text upper-casing keeps the length, raises each lower-case
      letter and keeps every other character. */
  lemma {:induction false} UpperAscii(s: string)
    requires Ascii(s)
    ensures |Upper(s)| == |s|
    ensures forall k :: 0 <= k < |s| ==>
              Upper(s)[k] == if 'a' <= s[k] <= 'z' then (s[k] as int - 32) as char else s[k]
    decreases |s|
  {
    if |s| > 0 {
      UpperAscii(s[1..]);
      assert forall k :: 1 <= k < |s| ==> s[1..][k - 1] == s[k];
    }
  }

  /** `CellType[name.upper()]`. */
  function CellTypeNamed(name: string): (r: Option<CellType>)
    ensures Upper(name) == "GROUND" <==> r == Some(Ground)
    ensures Upper(name) == "OBSTACLE" <==> r == Some(Obstacle)
  {
    var u := Upper(name);
    if u == "GROUND" then Some(Ground)
    else if u == "OBSTACLE" then Some(Obstacle)
    else None
  }

  /** A type's name in any letter case names it. */
  lemma CellTypeNamesAnyCase()
    ensures CellTypeNamed("Obstacle") == Some(Obstacle)
  {
    hide Upper, UpperChar, CellTypeNamed;
    var name := "Obstacle";
    UpperAscii(name);
    var u := Upper(name);
    forall k | 0 <= k < 8 ensures u[k] == "OBSTACLE"[k] {
    }
    assert u == "OBSTACLE";
  }

  /** Spellings whose upper case only becomes "OBSTACLE" through Unicode
      name a type too: with a long s, or with the s-t ligature. */
  lemma CellTypeNamesUnicode()
    ensures CellTypeNamed("ob\U{17F}tacle") == Some(Obstacle)
    ensures CellTypeNamed("ob\U{FB06}acle") == Some(Obstacle)
  {
    hide Upper, CellTypeNamed;
    UpperSpliced("ob", '\U{17F}', "tacle");
    UpperSpliced("ob", '\U{FB06}', "acle");
    assert "ob" + ['\U{17F}'] + "tacle" == "ob\U{17F}tacle";
    assert "ob" + ['\U{FB06}'] + "acle" == "ob\U{FB06}acle";
    assert UpperChar('\U{17F}') == "S" && UpperChar('\U{FB06}') == "ST";
    UpperAscii("ob");
    UpperAscii("tacle");
    UpperAscii("acle");
    var ua, ub, uc := Upper("ob"), Upper("tacle"), Upper("acle");
    assert ua == "OB" && ub == "TACLE" && uc == "ACLE";
    assert ua + "S" + ub == "OBSTACLE" && ua + "ST" + uc == "OBSTACLE";
  }

  /** Upper-casing a string with one character spliced in. */
  lemma {:induction false} UpperSpliced(a: string, c: char, b: string)
    ensures Upper(a + [c] + b) == Upper(a) + UpperChar(c) + Upper(b)
  {
    UpperSingle(c);
    hide Upper, UpperChar;
    UpperConcat(a + [c], b);
    UpperConcat(a, [c]);
  }

  /** A one-character string upper-cases to that character's mapping. */
  lemma UpperSingle(c: char)
    ensures Upper([c]) == UpperChar(c)
  {
    assert [c][1..] == "";
  }

  /** Python list indexing: negative indices count from the end. */
  function PyIndex(i: int, n: nat): (r: Option<nat>)
    ensures r.Some? <==> -(n as int) <= i < n
    ensures r.Some? ==> r.value < n && (r.value == i || r.value == i + n)
  {
    if 0 <= i < n then Some(i) else if -(n as int) <= i < 0 then Some(i + n) else None
  }

  /** A `rows` x `cols` grid of fresh ground cells. */
  function GroundGrid(rows: nat, cols: nat): (g: seq<seq<Cell>>)
    ensures |g| == rows && forall i :: 0 <= i < rows ==> g[i] == seq(cols, _ => NewCell(Ground))
  {
    seq(rows, _ => seq(cols, _ => NewCell(Ground)))
  }

  /** A cell entry whose type is known and whose indices fit the grid. */
  predicate PlacementOk(c: CellPlacement, rows: nat, cols: nat) {
    CellTypeNamed(c.typeName).Some? && PyIndex(c.position.row, rows).Some? && PyIndex(c.position.col, cols).Some?
  }

  /** The position of the first entry that is not `PlacementOk`, or
      `|cells|` when there is none. */
  function FirstBadCell(cells: seq<CellPlacement>, rows: nat, cols: nat): (k: nat)
    ensures k <= |cells|
    ensures forall j :: 0 <= j < k ==> PlacementOk(cells[j], rows, cols)
    ensures k < |cells| ==> !PlacementOk(cells[k], rows, cols)
  {
    if |cells| == 0 then 0
    else if !PlacementOk(cells[0], rows, cols) then 0
    else
      var k := FirstBadCell(cells[1..], rows, cols);
      assert forall j :: 1 <= j < 1 + k ==> cells[j] == cells[1..][j - 1];
      1 + k
  }

  /** The type written at grid cell (i, j) by the last entry whose indices,
      read the Python way, name that cell; None when no entry names it. */
  function LastAt(cells: seq<CellPlacement>, rows: nat, cols: nat, i: nat, j: nat): (r: Option<CellType>)
  {
    if |cells| == 0 then None
    else
      var later := LastAt(cells[1..], rows, cols, i, j);
      if later.Some? then later
      else if PyIndex(cells[0].position.row, rows) == Some(i) && PyIndex(cells[0].position.col, cols) == Some(j)
      then CellTypeNamed(cells[0].typeName)
      else None
  }

  /** The configuration's special cells, written one after the other into
      the grid with `grid[row][col] = Cell(type)`: the first bad entry
      decides the error, and on success each cell holds a fresh cell of the
      type its last entry names, or is left as it was. */
  function ApplyCells(grid: seq<seq<Cell>>, cols: nat, cells: seq<CellPlacement>): (r: Result<seq<seq<Cell>>>)
    requires forall i :: 0 <= i < |grid| ==> |grid[i]| == cols
    ensures r.Ok? <==> forall k :: 0 <= k < |cells| ==> PlacementOk(cells[k], |grid|, cols)
    ensures r.Err? ==>
              var k := FirstBadCell(cells, |grid|, cols);
              && k < |cells|
              && r.error == (if CellTypeNamed(cells[k].typeName).None? then UnknownCellType else IndexOutOfRange)
    ensures r.Ok? ==> |r.value| == |grid| && forall i :: 0 <= i < |grid| ==> |r.value[i]| == cols
    ensures r.Ok? ==> forall i, j :: 0 <= i < |grid| && 0 <= j < cols ==>
              r.value[i][j] == match LastAt(cells, |grid|, cols, i, j)
                               case Some(t) => NewCell(t)
                               case None => grid[i][j]
    decreases |cells|
  {
    hide Upper, UpperChar, CellTypeNamed, NewCell, LastAt;
    if |cells| == 0 then Ok(grid)
    else
      var c := cells[0];
      match CellTypeNamed(c.typeName)
      case None => Err(UnknownCellType)
      case Some(t) =>
        match PyIndex(c.position.row, |grid|)
        case None => Err(IndexOutOfRange)
        case Some(i) =>
          match PyIndex(c.position.col, cols)
          case None => Err(IndexOutOfRange)
          case Some(j) =>
            assert forall k :: 1 <= k < |cells| ==> cells[1..][k - 1] == cells[k];
            LastAtHead(cells, |grid|, cols, i, j, t);
            ApplyCells(grid[i := grid[i][j := NewCell(t)]], cols, cells[1..])
  }

  /** The entries after the first decide a cell unless none names it; then
      the first entry decides it when it names that cell. */
  lemma LastAtHead(cells: seq<CellPlacement>, rows: nat, cols: nat, i0: nat, j0: nat, t: CellType)
    requires |cells| > 0 && CellTypeNamed(cells[0].typeName) == Some(t)
    requires PyIndex(cells[0].position.row, rows) == Some(i0) && PyIndex(cells[0].position.col, cols) == Some(j0)
    ensures forall i: nat, j: nat :: LastAt(cells, rows, cols, i, j) ==
              if LastAt(cells[1..], rows, cols, i, j).Some? then LastAt(cells[1..], rows, cols, i, j)
              else if i == i0 && j == j0 then Some(t) else None
  {
    hide Upper, UpperChar, CellTypeNamed;
  }

  /** An agent built from a configuration entry, missing money and seeds
      taken from the first default agent. */
  function ConfiguredAgent(a: AgentConfig): (b: Agent)
    ensures b.position == a.position && b.turnsWithoutIncome == 0
    ensures b.money == a.money.GetOr(DefaultGridConfig.agents[0].money)
    ensures b.seeds == a.seeds.GetOr(DefaultGridConfig.agents[0].seeds)
  {
    NewAgent(a.position, a.money.GetOr(DefaultGridConfig.agents[0].money),
             Some(a.seeds.GetOr(DefaultGridConfig.agents[0].seeds)))
  }

  /** The scalar keys of a configuration, each falling back to
      `DEFAULT_GRID_CONFIG`. */
  function ConfigParams(cfg: GridConfig): (p: Params)
    ensures var d := DefaultGridConfig;
            && p.width == cfg.width.GetOr(d.width) && p.height == cfg.height.GetOr(d.height)
            && p.minPollution == cfg.minPollution.GetOr(d.minPollution)
            && p.maxPollution == cfg.maxPollution.GetOr(d.maxPollution)
            && p.pollutionIncrement == cfg.pollutionIncrement.GetOr(d.pollutionIncrement)
            && p.numSeedsReturned == cfg.numSeedsReturned.GetOr(d.numSeedsReturned)
            && p.collisionsOn == cfg.collisionsOn.GetOr(d.collisionsOn)
  {
    var d := DefaultGridConfig;
    Params(cfg.width.GetOr(d.width), cfg.height.GetOr(d.height),
           cfg.minPollution.GetOr(d.minPollution), cfg.maxPollution.GetOr(d.maxPollution),
           cfg.pollutionIncrement.GetOr(d.pollutionIncrement),
           cfg.numSeedsReturned.GetOr(d.numSeedsReturned), cfg.collisionsOn.GetOr(d.collisionsOn))
  }

  /** The configuration's agents, or none when the key is missing. */
  function ConfigAgents(cfg: GridConfig): (agents: seq<Agent>)
    ensures |agents| == |cfg.agents.GetOr([])|
    ensures forall k :: 0 <= k < |agents| ==> agents[k] == ConfiguredAgent(cfg.agents.GetOr([])[k])
  {
    var cs := cfg.agents.GetOr([]);
    seq(|cs|, k requires 0 <= k < |cs| => ConfiguredAgent(cs[k]))
  }

  /** The configuration's flowers, a missing growth stage read as 0, or
      none when the key is missing. */
  function ConfigFlowers(cfg: GridConfig): (flowers: seq<FlowerPlacement>)
    ensures |flowers| == |cfg.flowers.GetOr([])|
    ensures forall k :: 0 <= k < |flowers| ==>
              var f := cfg.flowers.GetOr([])[k];
              flowers[k] == FlowerPlacement(f.position, f.flowerType, f.growthStage.GetOr(0))
  {
    var fs := cfg.flowers.GetOr([]);
    seq(|fs|, k requires 0 <= k < |fs| => FlowerPlacement(fs[k].position, fs[k].flowerType, fs[k].growthStage.GetOr(0)))
  }

  /** `init_from_code(grid_config)`: each scalar key falls back to
      `DEFAULT_GRID_CONFIG`, but the lists of cells, agents and flowers fall
      back to empty lists, not to the default configuration's lists. An
      agent entry without money or seeds takes those of the default
      configuration's first agent. */
  function InitFromCode(cfg: GridConfig, seedDraw: int): (r: Result<World>)
    requires cfg.numSeedsReturned.GetOr(DefaultGridConfig.numSeedsReturned) == -2 ==> 0 <= seedDraw < 5
    ensures r.Ok? ==>
              var v, d := r.value, DefaultGridConfig;
              && v.width == cfg.width.GetOr(d.width) && v.height == cfg.height.GetOr(d.height)
              && v.minPollution == cfg.minPollution.GetOr(d.minPollution)
              && v.maxPollution == cfg.maxPollution.GetOr(d.maxPollution)
              && v.pollutionIncrement == cfg.pollutionIncrement.GetOr(d.pollutionIncrement)
              && v.collisionsOn == cfg.collisionsOn.GetOr(d.collisionsOn)
              && v.numSeedsReturned == SeedPolicy(cfg.numSeedsReturned.GetOr(d.numSeedsReturned), seedDraw)
              && v.flowersData == cfg.flowersData.GetOr(d.flowersData)
              && |v.agents| == |cfg.agents.GetOr([])|
              && (forall k :: 0 <= k < |v.agents| ==>
                    var a, c := v.agents[k], cfg.agents.GetOr([])[k];
                    && a.position == c.position
                    && a.money == c.money.GetOr(d.agents[0].money)
                    && a.seeds == c.seeds.GetOr(d.agents[0].seeds)
                    && a.turnsWithoutIncome == 0
                    && CountersCover(a))
              && Rectangular(v)
              && (forall q :: InBounds(v, q) ==> GetCell(v, q).increment == 1.0)
  {
    hide ApplyCells, GroundGrid, ConfigAgents, ConfigFlowers, ConfigParams, PlaceAgents, PlaceFlowers, Construct, Configured, EmptyIndex, SeedPolicy, ConfiguredAgent;
    var p := ConfigParams(cfg);
    match ApplyCells(GroundGrid(RangeLen(p.height), RangeLen(p.width)), RangeLen(p.width), cfg.cells.GetOr([]))
    case Err(e) => Err(e)
    case Ok(grid) =>
      AppliedIncrement(RangeLen(p.height), RangeLen(p.width), cfg.cells.GetOr([]));
      Construct(p, Some(cfg.flowersData.GetOr(DefaultGridConfig.flowersData)), seedDraw, grid, ConfigAgents(cfg), ConfigFlowers(cfg))
  }

  /** Every cell of a ground grid with the configured cells applied has the
      fresh increment of 1. */
  lemma AppliedIncrement(rows: nat, cols: nat, cells: seq<CellPlacement>)
    requires ApplyCells(GroundGrid(rows, cols), cols, cells).Ok?
    ensures var g := ApplyCells(GroundGrid(rows, cols), cols, cells).value;
            forall i, j :: 0 <= i < rows && 0 <= j < cols ==> g[i][j].increment == 1.0
  {
    hide ApplyCells;
    var g0 := GroundGrid(rows, cols);
    var g: seq<seq<Cell>> := ApplyCells(g0, cols, cells).value;
    forall i: int, j: int | 0 <= i < rows && 0 <= j < cols ensures g[i][j].increment == 1.0 {
      assert g0[i][j] == NewCell(Ground);
    }
  }

  /** The number of rows and of columns of a configuration's grid. */
  function ConfigRows(cfg: GridConfig): nat {
    RangeLen(cfg.height.GetOr(DefaultGridConfig.height))
  }

  function ConfigCols(cfg: GridConfig): nat {
    RangeLen(cfg.width.GetOr(DefaultGridConfig.width))
  }

  /** The type a configuration gives grid cell `q`: that of the last cell
      entry naming it, ground when no entry does. */
  function ConfiguredType(cfg: GridConfig, q: Pos): CellType
    requires q.row >= 0 && q.col >= 0
  {
    match LastAt(cfg.cells.GetOr([]), ConfigRows(cfg), ConfigCols(cfg), q.row, q.col)
    case Some(t) => t
    case None => Ground
  }

  /** A position inside the configured grid whose configured type is ground. */
  predicate OnConfiguredGround(cfg: GridConfig, q: Pos) {
    && 0 <= q.row < cfg.height.GetOr(DefaultGridConfig.height)
    && 0 <= q.col < cfg.width.GetOr(DefaultGridConfig.width)
    && ConfiguredType(cfg, q) == Ground
  }

  /** A configuration `init_from_code` accepts: its cell, agent and flower
      entries are all acceptable. */
  ghost predicate ConfigAccepted(cfg: GridConfig) {
    ConfigCellsOk(cfg) && ConfigAgentsOk(cfg) && ConfigFlowersOk(cfg)
  }

  /** Every cell entry names a known type and fits the grid. */
  predicate ConfigCellsOk(cfg: GridConfig) {
    var cells := cfg.cells.GetOr([]);
    forall k :: 0 <= k < |cells| ==> PlacementOk(cells[k], ConfigRows(cfg), ConfigCols(cfg))
  }

  /** Every agent stands on configured ground, on distinct cells when
      collisions are off. */
  predicate ConfigAgentsOk(cfg: GridConfig) {
    var agents := cfg.agents.GetOr([]);
    && (forall k :: 0 <= k < |agents| ==> OnConfiguredGround(cfg, agents[k].position))
    && (!cfg.collisionsOn.GetOr(DefaultGridConfig.collisionsOn) ==>
          forall j, k :: 0 <= j < k < |agents| ==> agents[j].position != agents[k].position)
  }

  /** Every flower stands on configured ground, on distinct cells, with a
      type the table and the index know and a growth stage (0 when left out)
      that indexes the type's reductions. */
  predicate ConfigFlowersOk(cfg: GridConfig) {
    var flowers, table := cfg.flowers.GetOr([]), cfg.flowersData.GetOr(DefaultGridConfig.flowersData);
    && (forall k :: 0 <= k < |flowers| ==>
          && OnConfiguredGround(cfg, flowers[k].position)
          && flowers[k].flowerType in table
          && 0 <= flowers[k].flowerType < |table|
          && -|table[flowers[k].flowerType].pollutionReduction| <= flowers[k].growthStage.GetOr(0)
          && flowers[k].growthStage.GetOr(0) < |table[flowers[k].flowerType].pollutionReduction|)
    && (forall j, k :: 0 <= j < k < |flowers| ==> flowers[j].position != flowers[k].position)
  }

  /** A successful `init_from_code` built its grid from the cell entries
      and then ran the constructor on it. */
  lemma InitFromCodeSteps(cfg: GridConfig, seedDraw: int)
    requires cfg.numSeedsReturned.GetOr(DefaultGridConfig.numSeedsReturned) == -2 ==> 0 <= seedDraw < 5
    ensures var p := ConfigParams(cfg);
            var cells := ApplyCells(GroundGrid(ConfigRows(cfg), ConfigCols(cfg)), ConfigCols(cfg), cfg.cells.GetOr([]));
            && (cells.Err? ==> InitFromCode(cfg, seedDraw) == Err(cells.error))
            && (cells.Ok? ==>
                  && |cells.value| == RangeLen(p.height)
                  && (forall i :: 0 <= i < |cells.value| ==> |cells.value[i]| == RangeLen(p.width))
                  && InitFromCode(cfg, seedDraw)
                     == Construct(p, Some(cfg.flowersData.GetOr(DefaultGridConfig.flowersData)), seedDraw,
                                  cells.value, ConfigAgents(cfg), ConfigFlowers(cfg)))
  {
  }

  /** The grid the cell entries build holds, at every position, a fresh
      cell of the position's configured type. */
  lemma ConfiguredGrid(cfg: GridConfig)
    requires ApplyCells(GroundGrid(ConfigRows(cfg), ConfigCols(cfg)), ConfigCols(cfg), cfg.cells.GetOr([])).Ok?
    ensures var g := ApplyCells(GroundGrid(ConfigRows(cfg), ConfigCols(cfg)), ConfigCols(cfg), cfg.cells.GetOr([])).value;
            forall i, j :: 0 <= i < ConfigRows(cfg) && 0 <= j < ConfigCols(cfg) ==>
              g[i][j] == NewCell(ConfiguredType(cfg, Pos(i, j)))
  {
  }

  /** In the world configured from a successful grid, a position is valid
      exactly when it lies on configured ground, and its cell is fresh. */
  lemma ConfiguredCells(cfg: GridConfig, seedDraw: int)
    requires ApplyCells(GroundGrid(ConfigRows(cfg), ConfigCols(cfg)), ConfigCols(cfg), cfg.cells.GetOr([])).Ok?
    ensures var g := ApplyCells(GroundGrid(ConfigRows(cfg), ConfigCols(cfg)), ConfigCols(cfg), cfg.cells.GetOr([])).value;
            var w0 := Configured(ConfigParams(cfg), Some(cfg.flowersData.GetOr(DefaultGridConfig.flowersData)), seedDraw, g);
            && (forall q :: ValidPosition(w0, q) <==> OnConfiguredGround(cfg, q))
            && (forall q :: InBounds(w0, q) ==> GetCell(w0, q) == NewCell(ConfiguredType(cfg, q)))
  {
    ConfiguredGrid(cfg);
  }

  /** The configured agents fit the configured world exactly when the
      agent entries are acceptable. */
  lemma ConfigAgentsFit(cfg: GridConfig, seedDraw: int)
    requires ApplyCells(GroundGrid(ConfigRows(cfg), ConfigCols(cfg)), ConfigCols(cfg), cfg.cells.GetOr([])).Ok?
    ensures var g := ApplyCells(GroundGrid(ConfigRows(cfg), ConfigCols(cfg)), ConfigCols(cfg), cfg.cells.GetOr([])).value;
            var w0 := Configured(ConfigParams(cfg), Some(cfg.flowersData.GetOr(DefaultGridConfig.flowersData)), seedDraw, g);
            AgentsFit(w0, ConfigAgents(cfg)) <==> ConfigAgentsOk(cfg)
  {
    ConfiguredCells(cfg, seedDraw);
    hide ApplyCells;
    var agents := ConfigAgents(cfg);
    assert forall k :: 0 <= k < |agents| ==> agents[k].position == cfg.agents.GetOr([])[k].position;
  }

  /** The configured flowers fit the configured world exactly when the
      flower entries are acceptable. */
  lemma ConfigFlowersFit(cfg: GridConfig, seedDraw: int)
    requires ApplyCells(GroundGrid(ConfigRows(cfg), ConfigCols(cfg)), ConfigCols(cfg), cfg.cells.GetOr([])).Ok?
    ensures var g := ApplyCells(GroundGrid(ConfigRows(cfg), ConfigCols(cfg)), ConfigCols(cfg), cfg.cells.GetOr([])).value;
            var w0 := Configured(ConfigParams(cfg), Some(cfg.flowersData.GetOr(DefaultGridConfig.flowersData)), seedDraw, g);
            FlowersFit(w0, ConfigFlowers(cfg)) <==> ConfigFlowersOk(cfg)
  {
    ConfigFlowersFitOnly(cfg, seedDraw);
    ConfigFlowersFitIf(cfg, seedDraw);
  }

  /** The fitting direction of `ConfigFlowersFit`. */
  lemma ConfigFlowersFitOnly(cfg: GridConfig, seedDraw: int)
    requires ApplyCells(GroundGrid(ConfigRows(cfg), ConfigCols(cfg)), ConfigCols(cfg), cfg.cells.GetOr([])).Ok?
    ensures var g := ApplyCells(GroundGrid(ConfigRows(cfg), ConfigCols(cfg)), ConfigCols(cfg), cfg.cells.GetOr([])).value;
            var w0 := Configured(ConfigParams(cfg), Some(cfg.flowersData.GetOr(DefaultGridConfig.flowersData)), seedDraw, g);
            FlowersFit(w0, ConfigFlowers(cfg)) ==> ConfigFlowersOk(cfg)
  {
    ConfiguredCells(cfg, seedDraw);
    hide ApplyCells;
    var flowers := ConfigFlowers(cfg);
    assert forall k :: 0 <= k < |flowers| ==> flowers[k].position == cfg.flowers.GetOr([])[k].position;
  }

  /** The accepting direction of `ConfigFlowersFit`. */
  lemma ConfigFlowersFitIf(cfg: GridConfig, seedDraw: int)
    requires ApplyCells(GroundGrid(ConfigRows(cfg), ConfigCols(cfg)), ConfigCols(cfg), cfg.cells.GetOr([])).Ok?
    ensures var g := ApplyCells(GroundGrid(ConfigRows(cfg), ConfigCols(cfg)), ConfigCols(cfg), cfg.cells.GetOr([])).value;
            var w0 := Configured(ConfigParams(cfg), Some(cfg.flowersData.GetOr(DefaultGridConfig.flowersData)), seedDraw, g);
            ConfigFlowersOk(cfg) ==> FlowersFit(w0, ConfigFlowers(cfg))
  {
    ConfiguredCells(cfg, seedDraw);
    hide ApplyCells;
    var flowers := ConfigFlowers(cfg);
    assert forall k :: 0 <= k < |flowers| ==> flowers[k].position == cfg.flowers.GetOr([])[k].position;
  }

  /** `init_from_code` succeeds exactly on the configurations it accepts. */
  lemma InitFromCodeOutcome(cfg: GridConfig, seedDraw: int)
    requires cfg.numSeedsReturned.GetOr(DefaultGridConfig.numSeedsReturned) == -2 ==> 0 <= seedDraw < 5
    ensures InitFromCode(cfg, seedDraw).Ok? <==> ConfigAccepted(cfg)
  {
    InitFromCodeSteps(cfg, seedDraw);
    var p := ConfigParams(cfg);
    var cells := ApplyCells(GroundGrid(ConfigRows(cfg), ConfigCols(cfg)), ConfigCols(cfg), cfg.cells.GetOr([]));
    if cells.Ok? {
      var table := cfg.flowersData.GetOr(DefaultGridConfig.flowersData);
      ConstructOutcome(p, Some(table), seedDraw, cells.value, ConfigAgents(cfg), ConfigFlowers(cfg));
      ConfigAgentsFit(cfg, seedDraw);
      ConfigFlowersFit(cfg, seedDraw);
    }
  }

  /** Every cell of a world built by `init_from_code` has its configured
      type, with the initial pollution of 50 exactly when it is ground. */
  lemma InitFromCodeCells(cfg: GridConfig, seedDraw: int)
    requires cfg.numSeedsReturned.GetOr(DefaultGridConfig.numSeedsReturned) == -2 ==> 0 <= seedDraw < 5
    requires InitFromCode(cfg, seedDraw).Ok?
    ensures var v := InitFromCode(cfg, seedDraw).value;
            forall q :: InBounds(v, q) ==>
              && GetCell(v, q).cellType == ConfiguredType(cfg, q)
              && GetCell(v, q).pollution == (if ConfiguredType(cfg, q) == Ground then Some(50.0) else None)
  {
    InitFromCodeSteps(cfg, seedDraw);
    ConfiguredGrid(cfg);
  }

  /** The agents of a world built by `init_from_code`: with distinct
      positions each configured agent's cell points back at it, and no other
      cell holds an agent. */
  lemma InitFromCodeAgents(cfg: GridConfig, seedDraw: int)
    requires cfg.numSeedsReturned.GetOr(DefaultGridConfig.numSeedsReturned) == -2 ==> 0 <= seedDraw < 5
    requires InitFromCode(cfg, seedDraw).Ok?
    ensures var v, agents := InitFromCode(cfg, seedDraw).value, cfg.agents.GetOr([]);
            && ((forall j, k :: 0 <= j < k < |agents| ==> agents[j].position != agents[k].position) ==>
                  forall k :: 0 <= k < |agents| ==>
                    InBounds(v, agents[k].position) && GetCell(v, agents[k].position).agent == Some(k))
            && (forall q :: InBounds(v, q) && (forall k :: 0 <= k < |agents| ==> agents[k].position != q)
                  ==> GetCell(v, q).agent.None?)
  {
    hide InitFromCode, ApplyCells, Construct, Configured, PlaceAgents, PlaceFlowers, GroundGrid, ConfigParams;
    InitFromCodeSteps(cfg, seedDraw);
    ConfiguredGrid(cfg);
    var p := ConfigParams(cfg);
    var grid := ApplyCells(GroundGrid(ConfigRows(cfg), ConfigCols(cfg)), ConfigCols(cfg), cfg.cells.GetOr([])).value;
    var table := cfg.flowersData.GetOr(DefaultGridConfig.flowersData);
    var agents := ConfigAgents(cfg);
    ConstructAgents(p, Some(table), seedDraw, grid, agents, ConfigFlowers(cfg));
    assert forall k :: 0 <= k < |agents| ==> agents[k].position == cfg.agents.GetOr([])[k].position;
  }

  /** The flowers of a world built by `init_from_code`: each configured
      flower stands on its cell, built from its type, the table and its
      growth stage (0 when left out); no other cell holds a flower; the
      index has one list per type of the table, holding that type's flower
      positions in configuration order. */
  lemma InitFromCodeFlowers(cfg: GridConfig, seedDraw: int)
    requires cfg.numSeedsReturned.GetOr(DefaultGridConfig.numSeedsReturned) == -2 ==> 0 <= seedDraw < 5
    requires InitFromCode(cfg, seedDraw).Ok?
    ensures var v, flowers := InitFromCode(cfg, seedDraw).value, cfg.flowers.GetOr([]);
            && (forall k :: 0 <= k < |flowers| ==>
                  && InBounds(v, flowers[k].position)
                  && flowers[k].flowerType in v.flowersData
                  && GetCell(v, flowers[k].position).flower
                     == Some(NewFlower(flowers[k].position, flowers[k].flowerType, v.flowersData,
                                       flowers[k].growthStage.GetOr(0))))
            && (forall q :: InBounds(v, q) && (forall k :: 0 <= k < |flowers| ==> flowers[k].position != q)
                  ==> GetCell(v, q).flower.None?)
            && (forall t :: t in v.flowers <==> 0 <= t < |v.flowersData|)
            && (forall t :: t in v.flowers ==> v.flowers[t] == TypedPositions(ConfigFlowers(cfg), t))
  {
    hide InitFromCode, ApplyCells, Construct, Configured, PlaceAgents, PlaceFlowers, GroundGrid, ConfigParams;
    InitFromCodeSteps(cfg, seedDraw);
    ConfiguredGrid(cfg);
    var p := ConfigParams(cfg);
    var grid := ApplyCells(GroundGrid(ConfigRows(cfg), ConfigCols(cfg)), ConfigCols(cfg), cfg.cells.GetOr([])).value;
    var table := cfg.flowersData.GetOr(DefaultGridConfig.flowersData);
    var flowers := ConfigFlowers(cfg);
    ConstructFlowers(p, Some(table), seedDraw, grid, ConfigAgents(cfg), flowers);
    assert forall k :: 0 <= k < |flowers| ==>
             flowers[k].position == cfg.flowers.GetOr([])[k].position
             && flowers[k].flowerType == cfg.flowers.GetOr([])[k].flowerType
             && flowers[k].growthStage == cfg.flowers.GetOr([])[k].growthStage.GetOr(0);
  }

  /** With no configuration the grid is 10x10 ground with no agent and no
      obstacle: the default configuration's cells and agents are not used. */
  lemma EmptyConfigHasNoObstaclesOrAgents(seedDraw: int)
    ensures InitFromCode(EmptyConfig, seedDraw).Ok?
    ensures var v := InitFromCode(EmptyConfig, seedDraw).value;
            && v.width == 10 && v.height == 10 && |v.agents| == 0
            && v.flowersData == DefaultFlowersData
            && (forall q :: InBounds(v, q) ==> GetCell(v, q).cellType == Ground && GetCell(v, q).pollution == Some(50.0))
  {
    var p := ConfigParams(EmptyConfig);
    assert p == Params(10, 10, 0.0, 100.0, 1.0, 1, true);
    var grid := GroundGrid(10, 10);
    assert ApplyCells(grid, 10, []) == Ok(grid);
    ConstructNothing(p, Some(DefaultFlowersData), seedDraw, grid);
    hide Construct, ApplyCells, ConfigParams, PlaceAgents, PlaceFlowers;
    var v := InitFromCode(EmptyConfig, seedDraw).value;
    assert v == Configured(p, Some(DefaultFlowersData), seedDraw, grid);
    forall q | InBounds(v, q) ensures GetCell(v, q).cellType == Ground && GetCell(v, q).pollution == Some(50.0) {
      assert GetCell(v, q) == grid[q.row][q.col];
    }
  }

  /** With no agents and no flowers the constructor returns the configured
      world untouched. */
  lemma ConstructNothing(p: Params, flowersData: Option<map<int, FlowerSpec>>, seedDraw: int, grid: seq<seq<Cell>>)
    requires |grid| == RangeLen(p.height)
    requires forall i :: 0 <= i < |grid| ==> |grid[i]| == RangeLen(p.width)
    ensures Construct(p, flowersData, seedDraw, grid, [], []) == Ok(Configured(p, flowersData, seedDraw, grid))
  {
    var w0 := Configured(p, flowersData, seedDraw, grid);
    assert PlaceAgents(w0, []) == Ok(w0);
    assert PlaceFlowers(w0, []) == Ok(w0);
  }

  // ---------------------------------------------------------------------
  // init_random

  /** `[(i, j) for i in range(rows) for j in range(cols)]`. */
  function AllPositions(rows: nat, cols: nat): (s: seq<Pos>)
    ensures |s| == rows * cols
    ensures forall k :: 0 <= k < |s| ==> 0 <= s[k].row < rows && 0 <= s[k].col < cols
    decreases rows
  {
    if rows == 0 then []
    else
      var prefix := AllPositions(rows - 1, cols);
      assert |prefix| + cols == rows * cols by {
        assert (rows - 1) * cols + cols == rows * cols;
      }
      prefix + seq(cols, j => Pos(rows - 1, j))
  }

  ghost predicate Distinct<T>(s: seq<T>) {
    forall j, k :: 0 <= j < k < |s| ==> s[j] != s[k]
  }

  lemma {:induction false} AllPositionsDistinct(rows: nat, cols: nat)
    ensures Distinct(AllPositions(rows, cols))
    decreases rows
  {
    if rows > 0 {
      AllPositionsDistinct(rows - 1, cols);
    }
  }

  /** `list.remove(x)`: drops the first occurrence of `x`. */
  function Remove<T(==)>(s: seq<T>, x: T): (r: seq<T>)
    ensures x in s ==> |r| == |s| - 1
    ensures x !in s ==> r == s
    ensures forall y :: y in r ==> y in s
    ensures Distinct(s) ==> Distinct(r) && x !in r
  {
    if |s| == 0 then []
    else if s[0] == x then s[1..]
    else
      var rest := Remove(s[1..], x);
      assert forall y :: y in rest ==> y in s[1..];
      assert Distinct(s) ==> Distinct(s[1..]) && s[0] !in s[1..];
      [s[0]] + rest
  }

  /** Removing each of `xs` in turn. */
  function RemoveEach<T(==)>(s: seq<T>, xs: seq<T>): (r: seq<T>)
    requires Distinct(s) && Distinct(xs)
    requires forall k :: 0 <= k < |xs| ==> xs[k] in s
    ensures |r| == |s| - |xs|
    ensures Distinct(r)
    ensures forall y :: y in r ==> y in s
    ensures forall k :: 0 <= k < |xs| ==> xs[k] !in r
    decreases |xs|
  {
    if |xs| == 0 then s
    else
      var s1 := Remove(s, xs[0]);
      assert forall k :: 1 <= k < |xs| ==> xs[k] in s1 by {
        forall k | 1 <= k < |xs| ensures xs[k] in s1 {
          var m :| 0 <= m < |s| && s[m] == xs[k];
          assert xs[k] != xs[0];
          RemoveKeeps(s, xs[0], xs[k]);
        }
      }
      assert Distinct(xs[1..]);
      RemoveEach(s1, xs[1..])
  }

  /** An element other than the one removed survives the removal. */
  lemma RemoveKeeps<T>(s: seq<T>, x: T, y: T)
    requires y in s && y != x
    ensures y in Remove(s, x)
  {
    if s[0] != x && s[0] != y {
      RemoveKeeps(s[1..], x, y);
    }
  }

  /** A draw without replacement: `n` distinct indices below `size`. */
  ghost predicate IsSample(sel: seq<nat>, n: nat, size: nat) {
    && |sel| == n
    && (forall k :: 0 <= k < |sel| ==> sel[k] < size)
    && Distinct(sel)
  }

  /** The grid with every listed position turned into an obstacle. */
  function SetObstacles(grid: seq<seq<Cell>>, ps: seq<Pos>): (g: seq<seq<Cell>>)
    requires forall k :: 0 <= k < |ps| ==> 0 <= ps[k].row < |grid| && 0 <= ps[k].col < |grid[ps[k].row]|
    ensures |g| == |grid| && forall i :: 0 <= i < |grid| ==> |g[i]| == |grid[i]|
    ensures forall i, j :: 0 <= i < |grid| && 0 <= j < |grid[i]| ==>
              g[i][j] == (if Pos(i, j) in ps then NewCell(Obstacle) else grid[i][j])
    decreases |ps|
  {
    if |ps| == 0 then grid
    else
      var p := ps[|ps| - 1];
      var g := SetObstacles(grid, ps[..|ps| - 1]);
      assert forall q :: q in ps <==> q in ps[..|ps| - 1] || q == p;
      g[p.row := g[p.row][p.col := NewCell(Obstacle)]]
  }

  /** `[s[i] for i in sel]`. */
  function Chosen<T>(s: seq<T>, sel: seq<nat>): (c: seq<T>)
    requires forall k :: 0 <= k < |sel| ==> sel[k] < |s|
    ensures |c| == |sel| && forall k :: 0 <= k < |sel| ==> c[k] == s[sel[k]]
    ensures Distinct(s) && Distinct(sel) ==> Distinct(c)
  {
    var c := seq(|sel|, k requires 0 <= k < |sel| => s[sel[k]]);
    assert Distinct(s) && Distinct(sel) ==> Distinct(c) by {
      if Distinct(s) && Distinct(sel) {
        forall j, k | 0 <= j < k < |c| ensures c[j] != c[k] {
          assert sel[j] != sel[k];
        }
      }
    }
    c
  }

  /** `int(obstacles_ratio * width * height)`: truncation toward zero. */
  function ObstacleCount(ratio: real, width: int, height: int): (n: int)
    ensures var x := ratio * width as real * height as real;
            && (x >= 0.0 ==> n as real <= x < n as real + 1.0)
            && (x < 0.0 ==> n as real - 1.0 < x <= n as real)
  {
    var x := ratio * width as real * height as real;
    if x >= 0.0 then x.Floor else -((-x).Floor)
  }

  /** The cells left free for agents once the obstacles are removed from
      the row-major list of positions, in their original order. */
  function FreePositions(rows: nat, cols: nat, obstacleSel: seq<nat>): (free: seq<Pos>)
    requires IsSample(obstacleSel, |obstacleSel|, rows * cols)
    ensures |free| == rows * cols - |obstacleSel|
    ensures Distinct(free)
    ensures forall q :: q in free ==> 0 <= q.row < rows && 0 <= q.col < cols && q !in Chosen(AllPositions(rows, cols), obstacleSel)
  {
    var all := AllPositions(rows, cols);
    AllPositionsDistinct(rows, cols);
    var obstacles := Chosen(all, obstacleSel);
    var free := RemoveEach(all, obstacles);
    assert forall q :: q in free ==> q in all;
    free
  }

  /** The ground grid with the drawn obstacles. */
  function RandomGrid(rows: nat, cols: nat, obstacleSel: seq<nat>): (g: seq<seq<Cell>>)
    requires IsSample(obstacleSel, |obstacleSel|, rows * cols)
    ensures |g| == rows && forall i :: 0 <= i < rows ==> |g[i]| == cols
  {
    SetObstacles(GroundGrid(rows, cols), Chosen(AllPositions(rows, cols), obstacleSel))
  }

  /** Every free position is a fresh ground cell of the random grid. */
  lemma FreeCellIsGround(rows: nat, cols: nat, obstacleSel: seq<nat>, q: Pos)
    requires IsSample(obstacleSel, |obstacleSel|, rows * cols)
    requires q in FreePositions(rows, cols, obstacleSel)
    ensures 0 <= q.row < rows && 0 <= q.col < cols
    ensures RandomGrid(rows, cols, obstacleSel)[q.row][q.col] == NewCell(Ground)
  {
    var obstacles := Chosen(AllPositions(rows, cols), obstacleSel);
    assert q !in obstacles;
    assert q == Pos(q.row, q.col);
  }

  /** A drawn obstacle position holds an obstacle cell. */
  lemma ChosenCellIsObstacle(rows: nat, cols: nat, obstacleSel: seq<nat>, k: nat)
    requires IsSample(obstacleSel, |obstacleSel|, rows * cols)
    requires k < |obstacleSel|
    ensures var q := AllPositions(rows, cols)[obstacleSel[k]];
            && 0 <= q.row < rows && 0 <= q.col < cols
            && RandomGrid(rows, cols, obstacleSel)[q.row][q.col] == NewCell(Obstacle)
  {
    var obstacles := Chosen(AllPositions(rows, cols), obstacleSel);
    var q := AllPositions(rows, cols)[obstacleSel[k]];
    assert obstacles[k] == q;
    assert Pos(q.row, q.col) in obstacles;
  }

  /** The scalar parameters `init_random` leaves at the constructor's defaults. */
  function RandomParams(width: int, height: int): (p: Params)
    ensures p == ConstructorDefaults.(width := width, height := height)
  {
    Params(width, height, 0.0, 100.0, 1.0, 1, true)
  }

  /** `[Agent(free[i]) for i in sel]`: default agents on the chosen cells. */
  function DefaultAgentsAt(free: seq<Pos>, sel: seq<nat>): (agents: seq<Agent>)
    requires forall k :: 0 <= k < |sel| ==> sel[k] < |free|
    ensures |agents| == |sel|
    ensures forall k :: 0 <= k < |sel| ==> agents[k] == NewAgent(free[sel[k]], 0.0, None)
    ensures Distinct(free) && Distinct(sel) ==> DistinctPositions(agents)
  {
    var agents := seq(|sel|, k requires 0 <= k < |sel| => NewAgent(free[sel[k]], 0.0, None));
    assert Distinct(free) && Distinct(sel) ==> DistinctPositions(agents) by {
      if Distinct(free) && Distinct(sel) {
        forall j, k | 0 <= j < k < |sel| ensures agents[j].position != agents[k].position {
          assert sel[j] != sel[k];
        }
      }
    }
    agents
  }

  /** Each default agent of `init_random` stands on a valid position of the
      configured world. */
  lemma RandomAgentsStandValid(width: int, height: int, obstacleSel: seq<nat>, agentSel: seq<nat>)
    requires IsSample(obstacleSel, |obstacleSel|, RangeLen(height) * RangeLen(width))
    requires |obstacleSel| <= RangeLen(height) * RangeLen(width)
    requires IsSample(agentSel, |agentSel|, RangeLen(height) * RangeLen(width) - |obstacleSel|)
    ensures var rows, cols := RangeLen(height), RangeLen(width);
            var agents := DefaultAgentsAt(FreePositions(rows, cols, obstacleSel), agentSel);
            var w0 := Configured(RandomParams(width, height), None, 0, RandomGrid(rows, cols, obstacleSel));
            forall k :: 0 <= k < |agents| ==> ValidPosition(w0, agents[k].position)
  {
    hide FreePositions, RandomGrid, SetObstacles, GroundGrid, AllPositions, Chosen, RemoveEach;
    var rows, cols := RangeLen(height), RangeLen(width);
    var free := FreePositions(rows, cols, obstacleSel);
    var agents := DefaultAgentsAt(free, agentSel);
    var w0 := Configured(RandomParams(width, height), None, 0, RandomGrid(rows, cols, obstacleSel));
    forall k | 0 <= k < |agents| ensures ValidPosition(w0, agents[k].position) {
      assert agents[k].position == free[agentSel[k]];
      FreeCellIsGround(rows, cols, obstacleSel, agents[k].position);
    }
  }

  /** The random layout always admits its agents: every free position is a
      ground cell of the random grid, so the constructor accepts the agents,
      which stand on pairwise distinct cells that point back at them. */
  lemma RandomPlacement(width: int, height: int, obstacleSel: seq<nat>, agentSel: seq<nat>)
    requires IsSample(obstacleSel, |obstacleSel|, RangeLen(height) * RangeLen(width))
    requires |obstacleSel| <= RangeLen(height) * RangeLen(width)
    requires IsSample(agentSel, |agentSel|, RangeLen(height) * RangeLen(width) - |obstacleSel|)
    ensures var rows, cols := RangeLen(height), RangeLen(width);
            var agents := DefaultAgentsAt(FreePositions(rows, cols, obstacleSel), agentSel);
            var c := Construct(RandomParams(width, height), None, 0, RandomGrid(rows, cols, obstacleSel), agents, []);
            && c.Ok?
            && DistinctPositions(agents)
            && forall k :: 0 <= k < |agents| ==>
                 && ValidPosition(c.value, agents[k].position)
                 && GetCell(c.value, agents[k].position).agent == Some(k)
  {
    hide FreePositions, RandomGrid, SetObstacles, GroundGrid, AllPositions, Chosen, RemoveEach;
    hide Construct, PlaceAgents, PlaceFlowers, Configured, DefaultAgentsAt;
    var rows, cols := RangeLen(height), RangeLen(width);
    var grid := RandomGrid(rows, cols, obstacleSel);
    var free := FreePositions(rows, cols, obstacleSel);
    var agents := DefaultAgentsAt(free, agentSel);
    var p := RandomParams(width, height);
    var w0 := Configured(p, None, 0, grid);
    RandomAgentsStandValid(width, height, obstacleSel, agentSel);
    ConstructOutcome(p, None, 0, grid, agents, []);
    ConstructAgents(p, None, 0, grid, agents, []);
    var v := Construct(p, None, 0, grid, agents, []).value;
    forall k | 0 <= k < |agents| ensures ValidPosition(v, agents[k].position) {
      assert SameSoil(GetCell(v, agents[k].position), GetCell(w0, agents[k].position));
    }
  }

  /** The number of cells of a `width` x `height` grid. */
  function CellCount(width: int, height: int): (n: nat)
    ensures n == RangeLen(height) * RangeLen(width)
  {
    RangeLen(height) * RangeLen(width)
  }

  /** `init_random(width, height, ratio, nb_agent)`. The two draws without
      replacement are passed in: `obstacleSel` indexes the row-major list of
      all positions, `agentSel` indexes the positions left free. A draw of a
      negative size or of more items than there are fails. */
  function InitRandom(width: int, height: int, ratio: real, nbAgent: int,
                      obstacleSel: seq<nat>, agentSel: seq<nat>): (r: Result<World>)
    requires var n := ObstacleCount(ratio, width, height);
             0 <= n <= CellCount(width, height) ==> IsSample(obstacleSel, n, CellCount(width, height))
    requires var n := ObstacleCount(ratio, width, height);
             0 <= n <= CellCount(width, height) && 0 <= nbAgent <= CellCount(width, height) - n
             ==> IsSample(agentSel, nbAgent, CellCount(width, height) - n)
    ensures var cells, n := CellCount(width, height), ObstacleCount(ratio, width, height);
            && (r == Err(BadSample) <==> n < 0 || cells < n || (n <= cells - nbAgent && nbAgent < 0))
            && (r == Err(NotEnoughPositions) <==> 0 <= n <= cells && cells - n < nbAgent)
            && (0 <= n <= cells && 0 <= nbAgent <= cells - n ==> r.Ok?)
    ensures r.Ok? ==>
              var v := r.value;
              && Rectangular(v) && v.width == width && v.height == height
              && v.collisionsOn && v.flowersData == map[] && v.numSeedsReturned == Some(1)
              && |v.agents| == nbAgent
              && forall k :: 0 <= k < nbAgent ==> v.agents[k] == NewAgent(v.agents[k].position, 0.0, None)
  {
    var rows, cols := RangeLen(height), RangeLen(width);
    var n := ObstacleCount(ratio, width, height);
    if n < 0 || CellCount(width, height) < n then Err(BadSample)
    else
      var free := FreePositions(rows, cols, obstacleSel);
      if |free| < nbAgent then Err(NotEnoughPositions)
      else if nbAgent < 0 then Err(BadSample)
      else
        RandomPlacement(width, height, obstacleSel, agentSel);
        Construct(RandomParams(width, height), None, 0, RandomGrid(rows, cols, obstacleSel), DefaultAgentsAt(free, agentSel), [])
  }

  /** Whatever the draws, a successful `init_random` puts its agents on
      distinct ground cells, each cell pointing back at its agent, and puts
      an obstacle at every drawn obstacle position. */
  lemma InitRandomLayout(width: int, height: int, ratio: real, nbAgent: int,
                         obstacleSel: seq<nat>, agentSel: seq<nat>)
    requires var n := ObstacleCount(ratio, width, height);
             0 <= n <= CellCount(width, height) ==> IsSample(obstacleSel, n, CellCount(width, height))
    requires var n := ObstacleCount(ratio, width, height);
             0 <= n <= CellCount(width, height) && 0 <= nbAgent <= CellCount(width, height) - n
             ==> IsSample(agentSel, nbAgent, CellCount(width, height) - n)
    requires InitRandom(width, height, ratio, nbAgent, obstacleSel, agentSel).Ok?
    ensures var v := InitRandom(width, height, ratio, nbAgent, obstacleSel, agentSel).value;
            && DistinctPositions(v.agents)
            && (forall k :: 0 <= k < |v.agents| ==>
                  ValidPosition(v, v.agents[k].position) && GetCell(v, v.agents[k].position).agent == Some(k))
            && (forall k :: 0 <= k < |obstacleSel| ==>
                  var q := AllPositions(RangeLen(height), RangeLen(width))[obstacleSel[k]];
                  InBounds(v, q) && GetCell(v, q).cellType == Obstacle)
  {
    hide FreePositions, RandomGrid, SetObstacles, GroundGrid, AllPositions, Chosen, RemoveEach;
    hide Construct, PlaceAgents, PlaceFlowers, Configured, DefaultAgentsAt;
    var rows, cols := RangeLen(height), RangeLen(width);
    RandomPlacement(width, height, obstacleSel, agentSel);
    var grid := RandomGrid(rows, cols, obstacleSel);
    var agents := DefaultAgentsAt(FreePositions(rows, cols, obstacleSel), agentSel);
    var v := InitRandom(width, height, ratio, nbAgent, obstacleSel, agentSel).value;
    assert v == Construct(RandomParams(width, height), None, 0, grid, agents, []).value;
    hide InitRandom;
    forall k | 0 <= k < |obstacleSel|
      ensures var q := AllPositions(rows, cols)[obstacleSel[k]]; InBounds(v, q) && GetCell(v, q).cellType == Obstacle
    {
      ChosenCellIsObstacle(rows, cols, obstacleSel, k);
      var q := AllPositions(rows, cols)[obstacleSel[k]];
      assert SameSoil(GetCell(v, q), grid[q.row][q.col]);
    }
  }
}

=== FILE: fixture.dfy ===
/** The five-by-five file of the repository's reader test
    (tests/test_worldgrid.py), with its wall codes written as obstacle codes,
    read through `init_from_file`: one agent with id 0, one flower code, one
    agent line and one flower line. */
module GridFixture {
  import opened Common
  import opened Cells
  import opened Agents
  import opened Grid
  import opened Constants
  import opened Construction
  import opened GridFile

  const G: Token := GroundTok
  const O: Token := ObstacleTok

  const FixtureRows: seq<seq<Token>> := [
    [G, G, G, O, O],
    [G, FlowerTok(0, 2), G, G, O],
    [G, O, G, AgentTok(0), O],
    [G, G, G, G, O],
    [O, O, O, O, O]]

  const FixtureAgentLines: seq<AgentLine> := [AgentLine(0, 100, [5, 10, 3])]

  const FixtureFlowerLines: seq<FlowerLine> := [FlowerLine(0, 2, [1, 2, 3])]

  /** The file: header `5 5`, the five rows, `0,100,5|10|3`, `0,2,1|2|3`. */
  function FixtureFile(): (lines: seq<string>)
    ensures |lines| == 8
  {
    RenderFile(5, FixtureRows, FixtureAgentLines, FixtureFlowerLines)
  }

  /** The agent the test expects: at row 2, column 3, with 100 money and
      seed counts 5, 10 and 3. */
  function FixtureAgent(): (a: Agent)
    ensures a.position == Pos(2, 3) && a.money == 100.0 && a.seeds == map[0 := 5, 1 := 10, 2 := 3]
  {
    NewAgent(Pos(2, 3), 100.0, Some(map[0 := 5, 1 := 10, 2 := 3]))
  }

  /** The codes in reading order: the only agent code is `A0` at (2, 3) and
      the only flower code is `F0_2` at (1, 1). */
  lemma FixtureCodes()
    ensures AgentIds(Coded(FixtureRows)) == [(0, Pos(2, 3))]
    ensures FlowersOf(Coded(FixtureRows)) == [FlowerPlacement(Pos(1, 1), 0, 2)]
  {
    var r := FixtureRows;
    FixtureTopCodes();
    var c3 := Coded(r[..3]);
    var c4 := Coded(r[..4]);
    assert r[..4][..3] == r[..3];
    assert c4 == c3 + [(Pos(3, 0), G), (Pos(3, 1), G), (Pos(3, 2), G), (Pos(3, 3), G), (Pos(3, 4), O)];
    assert r[..5] == r;
    var cs := Coded(r);
    assert cs == c4 + [(Pos(4, 0), O), (Pos(4, 1), O), (Pos(4, 2), O), (Pos(4, 3), O), (Pos(4, 4), O)];
    hide Coded;
    OneAgentCode(cs, 13, (0, Pos(2, 3)));
    OneFlowerCode(cs, 6, FlowerPlacement(Pos(1, 1), 0, 2));
  }

  /** The codes of the first three rows, in reading order. */
  lemma FixtureTopCodes()
    ensures Coded(FixtureRows[..3])
            == [(Pos(0, 0), G), (Pos(0, 1), G), (Pos(0, 2), G), (Pos(0, 3), O), (Pos(0, 4), O),
                (Pos(1, 0), G), (Pos(1, 1), FlowerTok(0, 2)), (Pos(1, 2), G), (Pos(1, 3), G), (Pos(1, 4), O),
                (Pos(2, 0), G), (Pos(2, 1), O), (Pos(2, 2), G), (Pos(2, 3), AgentTok(0)), (Pos(2, 4), O)]
  {
    var r := FixtureRows;
    assert Coded(r[..0]) == [];
    var c1 := Coded(r[..1]);
    assert r[..1][..0] == r[..0];
    assert c1 == [(Pos(0, 0), G), (Pos(0, 1), G), (Pos(0, 2), G), (Pos(0, 3), O), (Pos(0, 4), O)];
    var c2 := Coded(r[..2]);
    assert r[..2][..1] == r[..1];
    assert c2 == c1 + [(Pos(1, 0), G), (Pos(1, 1), FlowerTok(0, 2)), (Pos(1, 2), G), (Pos(1, 3), G), (Pos(1, 4), O)];
    assert r[..3][..2] == r[..2];
    assert Coded(r[..3]) == c2 + [(Pos(2, 0), G), (Pos(2, 1), O), (Pos(2, 2), G), (Pos(2, 3), AgentTok(0)), (Pos(2, 4), O)];
  }

  /** A code list whose only agent code is at index `k` records just that
      id and position. */
  lemma {:induction false} OneAgentCode(cs: seq<(Pos, Token)>, k: nat, e: (int, Pos))
    requires k < |cs| && cs[k] == (e.1, AgentTok(e.0))
    requires forall j :: 0 <= j < |cs| && j != k ==> !cs[j].1.AgentTok?
    ensures AgentIds(cs) == [e]
    decreases |cs|
  {
    var n := |cs| - 1;
    assert forall j :: 0 <= j < n ==> cs[..n][j] == cs[j];
    if n == k {
      NoAgentCode(cs[..n]);
    } else {
      OneAgentCode(cs[..n], k, e);
    }
  }

  lemma {:induction false} NoAgentCode(cs: seq<(Pos, Token)>)
    requires forall j :: 0 <= j < |cs| ==> !cs[j].1.AgentTok?
    ensures AgentIds(cs) == []
    decreases |cs|
  {
    if |cs| > 0 {
      var n := |cs| - 1;
      assert forall j :: 0 <= j < n ==> cs[..n][j] == cs[j];
      NoAgentCode(cs[..n]);
    }
  }

  /** A code list whose only flower code is at index `k` yields just that
      placement. */
  lemma {:induction false} OneFlowerCode(cs: seq<(Pos, Token)>, k: nat, f: FlowerPlacement)
    requires k < |cs| && cs[k] == (f.position, FlowerTok(f.flowerType, f.growthStage))
    requires forall j :: 0 <= j < |cs| && j != k ==> !cs[j].1.FlowerTok?
    ensures FlowersOf(cs) == [f]
    decreases |cs|
  {
    var n := |cs| - 1;
    assert forall j :: 0 <= j < n ==> cs[..n][j] == cs[j];
    if n == k {
      NoFlowerCode(cs[..n]);
    } else {
      OneFlowerCode(cs[..n], k, f);
    }
  }

  lemma {:induction false} NoFlowerCode(cs: seq<(Pos, Token)>)
    requires forall j :: 0 <= j < |cs| ==> !cs[j].1.FlowerTok?
    ensures FlowersOf(cs) == []
    decreases |cs|
  {
    if |cs| > 0 {
      var n := |cs| - 1;
      assert forall j :: 0 <= j < n ==> cs[..n][j] == cs[j];
      NoFlowerCode(cs[..n]);
    }
  }

  /** Reading the file gives what the constructor builds from the fixture
      grid, the agent of the agent line and the one-type table of the
      flower line. */
  lemma FixtureReads()
    ensures ParseGridFile(FixtureFile())
            == Construct(ConstructorDefaults.(width := 5, height := 5), Some(FixtureTable()), 0,
                         CellsOf(FixtureRows), [FixtureAgent()], [FlowerPlacement(Pos(1, 1), 0, 2)])
  {
    hide AgentIds, Coded, FlowersOf, AgentsOf, EntriesOf, TableOf, CellsOf, Construct, RenderFile, ParseGridFile;
    FixtureCodes();
    FixtureDefinitions();
    var at := AgentIds(Coded(FixtureRows));
    assert forall i :: 0 <= i < |FixtureRows| ==> |FixtureRows[i]| == 5;
    ParseRenderFile(5, FixtureRows, FixtureAgentLines, FixtureFlowerLines);
  }

  /** The flower line's table: type 0 priced 2 with reductions 1, 2, 3. */
  function FixtureTable(): (m: map<int, FlowerSpec>)
    ensures m.Keys == {0} && m[0].price == 2.0 && m[0].pollutionReduction == [1.0, 2.0, 3.0]
  {
    map[0 := FlowerSpec(2.0, [1.0, 2.0, 3.0])]
  }

  /** The agent line describes the expected agent and the flower line the
      expected table. */
  lemma FixtureDefinitions()
    ensures Lookup([(0, Pos(2, 3))], 0) == Some(Pos(2, 3))
    ensures AgentsOf(FixtureAgentLines, [(0, Pos(2, 3))]) == [FixtureAgent()]
    ensures TableOf(EntriesOf(FixtureFlowerLines)) == FixtureTable()
  {
    assert Enumerate([5, 10, 3]) == map[0 := 5, 1 := 10, 2 := 3];
    assert Reals([1, 2, 3]) == [1.0, 2.0, 3.0];
    assert EntriesOf(FixtureFlowerLines) == [(0, FlowerSpec(2.0, [1.0, 2.0, 3.0]))];
  }

  /** What the test checks of the world read from the file: a five-by-five
      grid with obstacles where the walls were and ground elsewhere, a type-0
      flower at stage 2 on (1, 1), and the one agent at (2, 3), referenced
      by its cell, with 100 money and seed counts 5, 10 and 3. */
  lemma FixtureWorld()
    ensures ParseGridFile(FixtureFile()).Ok?
    ensures var v := ParseGridFile(FixtureFile()).value;
            && Rectangular(v) && v.width == 5 && v.height == 5
            && GetCell(v, Pos(0, 3)).cellType == Obstacle
            && GetCell(v, Pos(2, 1)).cellType == Obstacle
            && GetCell(v, Pos(1, 0)).cellType == Ground
            && HasFlower(GetCell(v, Pos(1, 1)))
            && GetCell(v, Pos(1, 1)).flower.value.flowerType == 0
            && GetCell(v, Pos(1, 1)).flower.value.stage == 2
            && GetCell(v, Pos(2, 3)).agent == Some(0)
            && v.agents == [FixtureAgent()]
  {
    FixtureReads();
    FixtureGrid();
    var p := ConstructorDefaults.(width := 5, height := 5);
    var grid := CellsOf(FixtureRows);
    hide CellsOf, ParseGridFile, FixtureFile, Construct;
    ConstructOneEach(p, FixtureTable(), grid, FixtureAgent(), FlowerPlacement(Pos(1, 1), 0, 2));
  }

  /** The cells the fixture rows describe, at the places the test looks. */
  lemma FixtureGrid()
    ensures var grid := CellsOf(FixtureRows);
            && |grid| == 5 && (forall i :: 0 <= i < 5 ==> |grid[i]| == 5)
            && grid[0][3].cellType == Obstacle && grid[2][1].cellType == Obstacle && grid[1][0].cellType == Ground
            && grid[2][3].cellType == Ground && !HasAgent(grid[2][3]) && CanPlantOn(grid[1][1])
  {
    var grid := CellsOf(FixtureRows);
    assert grid[2][3] == TokenCell(AgentTok(0)) && grid[1][1] == TokenCell(FlowerTok(0, 2));
    assert grid[0][3] == TokenCell(O) && grid[2][1] == TokenCell(O) && grid[1][0] == TokenCell(G);
  }

  /** The constructor with one agent on ground and one flower of a listed
      type on bare ground succeeds: the agent's cell references it, the
      flower is built from the table, and every cell keeps its type. */
  lemma ConstructOneEach(p: Params, table: map<int, FlowerSpec>, grid: seq<seq<Cell>>, a: Agent, f: FlowerPlacement)
    requires |grid| == RangeLen(p.height) && forall i :: 0 <= i < |grid| ==> |grid[i]| == RangeLen(p.width)
    requires 0 <= a.position.row < |grid| && 0 <= a.position.col < |grid[a.position.row]|
    requires grid[a.position.row][a.position.col].cellType == Ground && !HasAgent(grid[a.position.row][a.position.col])
    requires 0 <= f.position.row < |grid| && 0 <= f.position.col < |grid[f.position.row]|
    requires CanPlantOn(grid[f.position.row][f.position.col])
    requires f.flowerType in table && 0 <= f.flowerType < |table|
    requires 0 <= f.growthStage < |table[f.flowerType].pollutionReduction|
    ensures Construct(p, Some(table), 0, grid, [a], [f]).Ok?
    ensures var v := Construct(p, Some(table), 0, grid, [a], [f]).value;
            && Rectangular(v) && v.width == p.width && v.height == p.height && v.agents == [a]
            && GetCell(v, a.position).agent == Some(0)
            && GetCell(v, f.position).flower == Some(NewFlower(f.position, f.flowerType, table, f.growthStage))
            && forall q :: InBounds(v, q) ==> GetCell(v, q).cellType == grid[q.row][q.col].cellType
  {
    var w0 := Configured(p, Some(table), 0, grid);
    assert ValidPosition(w0, a.position);
    var w1 := PlaceAgent(w0, a).value;
    PlaceAgentsStep(w0, [a]);
    assert PlaceAgents(w0, [a]) == Ok(w1);
    assert GetCell(w1, f.position).(agent := None) == GetCell(w0, f.position).(agent := None);
    var w2 := PlaceFlower(w1, f.position, f.flowerType, f.growthStage).value;
    assert PlaceFlowers(w1, [f]) == PlaceFlowers(w2, []);
    assert GetCell(w2, a.position).agent == Some(0);
    hide PlaceAgents, PlaceFlowers, PlaceAgent, PlaceFlower, Configured;
    assert Construct(p, Some(table), 0, grid, [a], [f]) == Ok(w2);
  }

  /** The test's own file writes its walls as `W`, a code the reader has
      no branch for: codes holding it are refused, so a row with a `W`
      within its width is refused. */
  lemma WallCodeRefused(codes: seq<string>)
    requires "W" in codes
    ensures ParseToken("W") == None
    ensures ParseCodes(codes) == None
  {
    assert "W"[0] == 'W';
    ParseCodesSpec(codes);
  }
}

=== FILE: flowercell.dfy ===
/** Cells and flowers of the current grid world (ethicalgardeners/worldgrid.py,
    classes CellType, Cell and Flower). Pollution is a real number; a cell
    holds its flower by value and its agent as an index into the world's
    agent list. */
module Cells {
  import opened Common

  /** The two cell types; only GROUND is walkable and plantable. */
  datatype CellType = Ground | Obstacle

  /** One entry of `flowers_data`: the sale price and the pollution
      reduction achieved at each growth stage. */
  datatype FlowerSpec = FlowerSpec(price: real, pollutionReduction: seq<real>)

  /** A planted flower. `stage` is the current growth stage; the source
      never range-checks it, so it is an `int`: `StageIndexed` says when the
      source can index the reductions with it, and `ValidStage` when it is
      one of the stages growth runs through. */
  datatype Flower = Flower(
    position: Pos,
    flowerType: int,
    price: real,
    pollutionReduction: seq<real>,
    stage: int)

  /** A cell of the grid. `pollution` is `None` for obstacles; `increment`
      is the cell's own per-tick increase; `agent` is a back-reference. */
  datatype Cell = Cell(
    cellType: CellType,
    pollution: Option<real>,
    increment: real,
    flower: Option<Flower>,
    agent: Option<nat>)

  // ---------------------------------------------------------------------
  // Flower

  /** The last growth stage: one less than the number of reduction values. */
  function NumGrowthStage(f: Flower): int {
    |f.pollutionReduction| - 1
  }

  predicate ValidStage(f: Flower) {
    0 <= f.stage <= NumGrowthStage(f)
  }

  /** The stage is a Python index into the reductions: a negative stage
      counts from the end, as far back as the first value. */
  predicate StageIndexed(f: Flower) {
    -|f.pollutionReduction| <= f.stage < |f.pollutionReduction|
  }

  predicate NonNegative(xs: seq<real>) {
    forall k :: 0 <= k < |xs| ==> xs[k] >= 0.0
  }

  /** A flower whose stage indexes its reductions, all of them non-negative. */
  predicate FlowerOk(f: Flower) {
    ValidStage(f) && NonNegative(f.pollutionReduction)
  }

  /** `Flower(position, flower_type, flowers_data, growth_stage)`: price and
      reductions are copied from the type's entry; the stage is taken as is. */
  function NewFlower(position: Pos, flowerType: int, flowersData: map<int, FlowerSpec>, stage: int): (f: Flower)
    requires flowerType in flowersData
    ensures f.position == position && f.flowerType == flowerType && f.stage == stage
    ensures f.price == flowersData[flowerType].price
    ensures NumGrowthStage(f) + 1 == |flowersData[flowerType].pollutionReduction|
    ensures NonNegative(flowersData[flowerType].pollutionReduction) && 0 <= stage < |flowersData[flowerType].pollutionReduction|
            ==> FlowerOk(f)
  {
    var spec := flowersData[flowerType];
    Flower(position, flowerType, spec.price, spec.pollutionReduction, stage)
  }

  /** `grow`: one more stage, but never past the last one. */
  function Grow(f: Flower): (g: Flower)
    ensures g.(stage := f.stage) == f
    ensures f.stage < NumGrowthStage(f) ==> g.stage == f.stage + 1
    ensures f.stage >= NumGrowthStage(f) ==> g == f
    ensures ValidStage(f) ==> ValidStage(g)
    ensures StageIndexed(f) ==> StageIndexed(g)
    ensures FlowerOk(f) ==> FlowerOk(g)
  {
    if f.stage < NumGrowthStage(f) then f.(stage := f.stage + 1) else f
  }

  /** `is_grown`: the flower sits at its last stage. */
  predicate IsGrown(f: Flower) {
    f.stage == NumGrowthStage(f)
  }

  /** `get_pollution_reduction`: the reduction of the current stage, read
      with Python's indexing, so a negative stage counts from the end. */
  function PollutionReduction(f: Flower): (r: real)
    requires StageIndexed(f)
    ensures r in f.pollutionReduction
    ensures NonNegative(f.pollutionReduction) ==> r >= 0.0
    ensures IsGrown(f) ==> r == f.pollutionReduction[|f.pollutionReduction| - 1]
    ensures ValidStage(f) ==> r == f.pollutionReduction[f.stage]
    ensures f.stage < 0 ==> r == f.pollutionReduction[|f.pollutionReduction| + f.stage]
  {
    var k := if f.stage < 0 then |f.pollutionReduction| + f.stage else f.stage;
    f.pollutionReduction[k]
  }

  /** Growing a well-staged flower changes it exactly when it is not yet grown:
      `grow` is idempotent at, and only at, the final stage. */
  lemma GrowFixedIffGrown(f: Flower)
    requires ValidStage(f)
    ensures Grow(f) == f <==> IsGrown(f)
    ensures IsGrown(Grow(f)) <==> f.stage >= NumGrowthStage(f) - 1
  {
  }

  /** `n` successive ticks of growth. */
  function GrowTimes(f: Flower, n: nat): Flower
    decreases n
  {
    if n == 0 then f else GrowTimes(Grow(f), n - 1)
  }

  /** From a valid stage, `n` growths reach `min(stage + n, last)`; in
      particular the flower is grown after `last - stage` growths and stays so. */
  lemma {:induction false} GrowTimesStage(f: Flower, n: nat)
    requires ValidStage(f)
    ensures GrowTimes(f, n).stage
            == if f.stage + n <= NumGrowthStage(f) then f.stage + n else NumGrowthStage(f)
    ensures GrowTimes(f, n).(stage := f.stage) == f
    ensures IsGrown(GrowTimes(f, n)) <==> f.stage + n >= NumGrowthStage(f)
    decreases n
  {
    if n > 0 {
      GrowTimesStage(Grow(f), n - 1);
    }
  }

  /** Scenario from the flower tests: with reductions [0,0,0,0,5] a new flower
      is grown after four growths and a fifth growth leaves it at stage 4. */
  lemma FiveStageFlowerGrowsInFourTicks(p: Pos)
    ensures var f := Flower(p, 0, 10.0, [0.0, 0.0, 0.0, 0.0, 5.0], 0);
            && GrowTimes(f, 4).stage == 4 && IsGrown(GrowTimes(f, 4))
            && Grow(GrowTimes(f, 4)) == GrowTimes(f, 4)
            && PollutionReduction(GrowTimes(f, 4)) == 5.0
  {
    var f := Flower(p, 0, 10.0, [0.0, 0.0, 0.0, 0.0, 5.0], 0);
    GrowTimesStage(f, 4);
  }

  // ---------------------------------------------------------------------
  // Cell

  /** `Cell(cell_type)` with the default pollution 50 and increment 1:
      a ground cell starts at 50, an obstacle has no pollution value. */
  function NewCell(t: CellType): (c: Cell)
    ensures c.cellType == t && c.flower.None? && c.agent.None?
    ensures c.pollution.Some? <==> t == Ground
    ensures c.pollution.Some? ==> c.pollution.value == 50.0
    ensures c.increment == 1.0
  {
    Cell(t, if t == Ground then Some(50.0) else None, 1.0, None, None)
  }

  predicate HasFlower(c: Cell) { c.flower.Some? }

  predicate HasAgent(c: Cell) { c.agent.Some? }

  predicate CanWalkOn(c: Cell) { c.cellType == Ground }

  predicate CanPlantOn(c: Cell) { c.cellType == Ground && !HasFlower(c) }

  /** The pollution of `c` lies in `[lo, hi]`, or `c` has none. */
  predicate PollutionWithin(c: Cell, lo: real, hi: real) {
    c.pollution.Some? ==> lo <= c.pollution.value <= hi
  }

  /** `update_pollution(min, max)`. With a flower, pollution drops by the
      flower's current reduction but not below `lo`; without one it rises by
      the cell's increment but not above `hi`; no pollution, no change. */
  function UpdatePollution(c: Cell, lo: real, hi: real): (d: Cell)
    requires c.pollution.Some? && c.flower.Some? ==> StageIndexed(c.flower.value)
    ensures d.(pollution := c.pollution) == c
    ensures c.pollution.None? ==> d == c
    ensures c.pollution.Some? ==> d.pollution.Some?
    ensures c.pollution.Some? && c.flower.Some? ==>
              var p, r := c.pollution.value, PollutionReduction(c.flower.value);
              && d.pollution.value >= lo && d.pollution.value >= p - r
              && (d.pollution.value == lo || d.pollution.value == p - r)
    ensures c.pollution.Some? && c.flower.None? ==>
              var p := c.pollution.value;
              && d.pollution.value <= hi && d.pollution.value <= p + c.increment
              && (d.pollution.value == hi || d.pollution.value == p + c.increment)
  {
    match c.pollution
    case None => c
    case Some(p) =>
      if c.flower.Some? then
        var q := p - PollutionReduction(c.flower.value);
        c.(pollution := Some(if q > lo then q else lo))
      else
        var q := p + c.increment;
        c.(pollution := Some(if q < hi then q else hi))
  }

  /** The clamped update never leaves `[lo, hi]` when the flower's
      reductions and the cell's increment are non-negative. */
  lemma UpdatePollutionStaysWithin(c: Cell, lo: real, hi: real)
    requires c.pollution.Some? && c.flower.Some? ==> FlowerOk(c.flower.value)
    requires c.increment >= 0.0
    requires PollutionWithin(c, lo, hi)
    ensures PollutionWithin(UpdatePollution(c, lo, hi), lo, hi)
  {
  }

  /** The clamps only bound the direction pollution moves in: a new ground
      cell starts at 50 whatever the bounds, so with a minimum of 60 an empty
      cell climbs from 50 to 51, still below it, and with a maximum of 40 a
      flower that reduces nothing leaves it at 50, above it. */
  lemma StartOutsideBoundsStaysOutside(f: Flower)
    requires StageIndexed(f) && PollutionReduction(f) == 0.0
    ensures UpdatePollution(NewCell(Ground), 60.0, 100.0).pollution == Some(51.0)
    ensures UpdatePollution(NewCell(Ground).(flower := Some(f)), 0.0, 40.0).pollution == Some(50.0)
  {
  }

  /** Scenarios of the cell tests: a reduction of 5 takes 50 to 45 and keeps
      0 at 0; without a flower 50 rises to 51 and 100 stays at 100. */
  lemma UpdatePollutionScenarios(f: Flower)
    requires ValidStage(f) && PollutionReduction(f) == 5.0
    ensures UpdatePollution(NewCell(Ground).(flower := Some(f)), 0.0, 100.0).pollution == Some(45.0)
    ensures UpdatePollution(NewCell(Ground).(flower := Some(f), pollution := Some(0.0)), 0.0, 100.0).pollution == Some(0.0)
    ensures UpdatePollution(NewCell(Ground), 0.0, 100.0).pollution == Some(51.0)
    ensures UpdatePollution(NewCell(Ground).(pollution := Some(100.0)), 0.0, 100.0).pollution == Some(100.0)
  {
  }

  /** One cell's share of the grid tick: pollution is updated with the
      flower's reduction at its current stage, then the flower grows. */
  function TickCell(c: Cell, lo: real, hi: real): (d: Cell)
    requires c.pollution.Some? && c.flower.Some? ==> StageIndexed(c.flower.value)
    ensures d.cellType == c.cellType && d.agent == c.agent && d.increment == c.increment
    ensures d.flower.Some? <==> c.flower.Some?
    ensures d.flower.Some? ==> d.flower.value == Grow(c.flower.value)
    ensures d.pollution == UpdatePollution(c, lo, hi).pollution
  {
    var u := UpdatePollution(c, lo, hi);
    if u.flower.Some? then u.(flower := Some(Grow(u.flower.value))) else u
  }
}

=== FILE: gridfile.dfy ===
/** `WorldGrid.init_from_file` (ethicalgardeners/worldgrid.py): the reader
    of the text grid format, over the file's lines as `readlines` returns
    them. The first line holds `width height`; the next `height` lines hold
    one code per cell (`G`, `O`, `F<type>_<stage>`, `A<id>`); then one line
    `id,money,count|count|...` per distinct agent id; every remaining line is
    a flower type `type,price,reduction|reduction|...`. Any malformed part is
    a `ParseError` naming the 0-based line. */
module GridFile {
  import opened Common
  import opened Text
  import opened Cells
  import opened Agents
  import opened Grid
  import opened Constants
  import opened Construction

  /** One code of the grid section. */
  datatype Token = GroundTok | ObstacleTok | FlowerTok(flowerType: int, stage: int) | AgentTok(id: int)

  /** A code of the grid section, tested in the reader's order: `G`, `O`,
      then a leading `F` (two `_`-separated integers, extra pieces ignored),
      then a leading `A` (one integer). Anything else is refused. */
  function ParseToken(code: string): (r: Option<Token>)
    ensures r == Some(GroundTok) <==> code == "G"
    ensures r == Some(ObstacleTok) <==> code == "O"
    ensures r.Some? && r.value.FlowerTok? ==> |code| > 0 && code[0] == 'F'
    ensures r.Some? && r.value.AgentTok? ==> |code| > 0 && code[0] == 'A'
  {
    if code == "G" then Some(GroundTok)
    else if code == "O" then Some(ObstacleTok)
    else if |code| > 0 && code[0] == 'F' then FlowerCode(code[1..])
    else if |code| > 0 && code[0] == 'A' then AgentCode(code[1..])
    else None
  }

  /** What follows the `F` of a flower code: the type and the growth stage
      are the first two `_`-separated pieces. */
  function FlowerCode(info: string): (r: Option<Token>)
    ensures r.Some? ==> r.value.FlowerTok?
  {
    var pieces := SplitOn(info, '_');
    if |pieces| < 2 then None
    else
      match (ParseInt(pieces[0]), ParseInt(pieces[1]))
      case (Some(t), Some(s)) => Some(FlowerTok(t, s))
      case _ => None
  }

  /** What follows the `A` of an agent code: the agent's id. */
  function AgentCode(id: string): (r: Option<Token>)
    ensures r.Some? ==> r.value.AgentTok?
  {
    match ParseInt(id)
    case Some(i) => Some(AgentTok(i))
    case None => None
  }

  /** The code the format uses for a token. */
  function Render(tok: Token): (code: string)
    ensures |code| > 0
  {
    match tok
    case GroundTok => "G"
    case ObstacleTok => "O"
    case FlowerTok(t, s) => "F" + FlowerInfo(t, s)
    case AgentTok(id) => "A" + ShowInt(id)
  }

  /** The part of a flower code after its `F`. */
  function FlowerInfo(t: int, s: int): (info: string)
    ensures |info| > 0
  {
    ShowInt(t) + "_" + ShowInt(s)
  }

  /** A code of two characters or more is read by its first character. */
  lemma TaggedCode(c: char, rest: string)
    requires |rest| > 0
    ensures c == 'F' ==> ParseToken([c] + rest) == FlowerCode(rest)
    ensures c == 'A' ==> ParseToken([c] + rest) == AgentCode(rest)
  {
    var code := [c] + rest;
    assert code[1..] == rest;
    assert code[0] == c && |code| > 1;
  }

  /** The two numerals of a flower code read back as its type and stage. */
  lemma FlowerCodeShowInt(t: int, s: int)
    ensures FlowerCode(FlowerInfo(t, s)) == Some(FlowerTok(t, s))
  {
    var parts := [ShowInt(t), ShowInt(s)];
    ShowIntIsWord(t);
    ShowIntIsWord(s);
    assert FlowerInfo(t, s) == JoinOn(parts, '_');
    SplitJoinOn(parts, '_');
    ParseShowInt(t);
    ParseShowInt(s);
  }

  /** A flower code reads back as its type and stage. */
  lemma ParseRenderFlower(t: int, s: int)
    ensures ParseToken(Render(FlowerTok(t, s))) == Some(FlowerTok(t, s))
  {
    FlowerCodeShowInt(t, s);
    TaggedCode('F', FlowerInfo(t, s));
    hide FlowerCode, FlowerInfo, ParseToken;
  }

  /** An agent code reads back as its id. */
  lemma ParseRenderAgent(id: int)
    ensures ParseToken(Render(AgentTok(id))) == Some(AgentTok(id))
  {
    ParseShowInt(id);
    assert AgentCode(ShowInt(id)) == Some(AgentTok(id));
    TaggedCode('A', ShowInt(id));
    hide AgentCode, ShowInt, ParseToken;
  }

  /** Codes hold no whitespace. */
  lemma RenderIsWord(tok: Token)
    ensures Word(Render(tok))
  {
    match tok
    case GroundTok =>
    case ObstacleTok =>
    case FlowerTok(t, s) =>
      ShowIntIsWord(t);
      ShowIntIsWord(s);
      hide ShowInt;
      WordConcat(ShowInt(t), "_");
      WordConcat(ShowInt(t) + "_", ShowInt(s));
      assert Word(FlowerInfo(t, s));
      hide FlowerInfo;
      WordConcat("F", FlowerInfo(t, s));
    case AgentTok(id) =>
      ShowIntIsWord(id);
      hide ShowInt;
      WordConcat("A", ShowInt(id));
  }

  /** Every code reads back as the token it renders. */
  lemma ParseRender(tok: Token)
    ensures Word(Render(tok))
    ensures ParseToken(Render(tok)) == Some(tok)
  {
    RenderIsWord(tok);
    match tok
    case GroundTok =>
    case ObstacleTok =>
    case FlowerTok(t, s) => ParseRenderFlower(t, s);
    case AgentTok(id) => ParseRenderAgent(id);
  }

  /** The cell a code stands for: obstacles for `O`, fresh ground otherwise. */
  function TokenCell(tok: Token): (c: Cell)
    ensures c == NewCell(if tok == ObstacleTok then Obstacle else Ground)
  {
    if tok == ObstacleTok then NewCell(Obstacle) else NewCell(Ground)
  }

  // ---------------------------------------------------------------------
  // the grid section

  /** Every code of a row, or nothing when one is unknown. */
  function ParseCodes(codes: seq<string>): (r: Option<seq<Token>>)
    ensures r.Some? ==> |r.value| == |codes|
    decreases |codes|
  {
    if |codes| == 0 then Some([])
    else
      match ParseToken(codes[0])
      case None => None
      case Some(t) =>
        var rest := ParseCodes(codes[1..]);
        if rest.None? then None else Some([t] + rest.value)
  }

  /** The codes are read one by one: all are read exactly when each one is,
      and the result holds each code's token. */
  lemma {:induction false} ParseCodesSpec(codes: seq<string>)
    ensures ParseCodes(codes).Some? <==> forall k {:trigger ParseToken(codes[k])} :: 0 <= k < |codes| ==> ParseToken(codes[k]).Some?
    ensures ParseCodes(codes).Some? ==>
              forall k {:trigger ParseToken(codes[k])} :: 0 <= k < |codes| ==> ParseToken(codes[k]) == Some(ParseCodes(codes).value[k])
    decreases |codes|
  {
    hide ParseToken;
    if |codes| > 0 {
      ParseCodesSpec(codes[1..]);
      assert forall k :: 1 <= k < |codes| ==> codes[1..][k - 1] == codes[k];
    }
  }

  /** A code the reader writes into the grid: `G`, `O`, or one starting
      with `F` or `A`. Any other code is passed over. */
  predicate Assigned(code: string) {
    code == "G" || code == "O" || (|code| > 0 && (code[0] == 'F' || code[0] == 'A'))
  }

  /** One grid row: its first `width` codes, each known. A code past the
      width that the reader writes fails in the reader (an index past the
      row); any other code there is passed over. A shorter row, or an
      unknown code within the width, would leave an empty placeholder cell,
      which this reader refuses. */
  function ParseRow(line: string, width: nat): (r: Option<seq<Token>>)
    ensures r.Some? ==> |r.value| == width
  {
    var codes := SplitWs(Strip(line));
    if |codes| < width then None
    else if exists k :: width <= k < |codes| && Assigned(codes[k]) then None
    else ParseCodes(codes[..width])
  }

  /** A row is read exactly when it has at least `width` codes, each of the
      first `width` is known, and none after them is one the reader writes;
      the row then holds the first `width` codes' tokens. */
  lemma {:induction false} ParseRowSpec(line: string, width: nat)
    ensures var codes := SplitWs(Strip(line));
            ParseRow(line, width).Some? <==>
              && |codes| >= width
              && (forall k :: 0 <= k < width ==> ParseToken(codes[k]).Some?)
              && (forall k :: width <= k < |codes| ==> !Assigned(codes[k]))
    ensures var codes := SplitWs(Strip(line));
            ParseRow(line, width).Some? ==>
              forall k :: 0 <= k < width ==> ParseToken(codes[k]) == Some(ParseRow(line, width).value[k])
  {
    hide Strip, SplitWs, ParseToken, Assigned;
    var codes := SplitWs(Strip(line));
    if |codes| >= width {
      var head := codes[..width];
      ParseCodesSpec(head);
      assert forall k :: 0 <= k < width ==> head[k] == codes[k];
    }
  }

  /** The grid rows, the first refused row naming its line. */
  function ParseRows(lines: seq<string>, width: nat, first: int): (r: Result<seq<seq<Token>>>)
    ensures r.Ok? ==> |r.value| == |lines| && forall i :: 0 <= i < |r.value| ==> |r.value[i]| == width
    ensures r.Err? ==> r.error.ParseError? && first <= r.error.line < first + |lines|
    decreases |lines|
  {
    if |lines| == 0 then Ok([])
    else
      match ParseRow(lines[0], width)
      case None => Err(ParseError(first))
      case Some(row) =>
        match ParseRows(lines[1..], width, first + 1)
        case Err(e) => Err(e)
        case Ok(rest) => Ok([row] + rest)
  }

  /** The rows are read one by one: all are read exactly when each one is,
      the result holds each line's row, and an error names the first line
      refused. */
  lemma {:induction false} ParseRowsSpec(lines: seq<string>, width: nat, first: int)
    ensures ParseRows(lines, width, first).Ok? <==> forall k :: 0 <= k < |lines| ==> ParseRow(lines[k], width).Some?
    ensures ParseRows(lines, width, first).Ok? ==>
              forall k :: 0 <= k < |lines| ==> ParseRow(lines[k], width) == Some(ParseRows(lines, width, first).value[k])
    ensures ParseRows(lines, width, first).Err? ==>
              var k := ParseRows(lines, width, first).error.line - first;
              0 <= k < |lines| && ParseRow(lines[k], width).None? && forall j :: 0 <= j < k ==> ParseRow(lines[j], width).Some?
    decreases |lines|
  {
    hide ParseRow;
    if |lines| > 0 {
      ParseRowsSpec(lines[1..], width, first + 1);
      assert forall k :: 1 <= k < |lines| ==> lines[1..][k - 1] == lines[k];
    }
  }

  /** The grid the rows describe. */
  function CellsOf(toks: seq<seq<Token>>): (g: seq<seq<Cell>>)
    ensures |g| == |toks| && forall i :: 0 <= i < |toks| ==> |g[i]| == |toks[i]|
    ensures forall i, j :: 0 <= i < |toks| && 0 <= j < |toks[i]| ==> g[i][j] == TokenCell(toks[i][j])
  {
    seq(|toks|, i requires 0 <= i < |toks| => seq(|toks[i]|, j requires 0 <= j < |toks[i]| => TokenCell(toks[i][j])))
  }

  /** The codes paired with their positions, in reading order. */
  function Coded(toks: seq<seq<Token>>): (cs: seq<(Pos, Token)>)
    decreases |toks|
  {
    if |toks| == 0 then []
    else
      var n := |toks| - 1;
      Coded(toks[..n]) + seq(|toks[n]|, j requires 0 <= j < |toks[n]| => (Pos(n, j), toks[n][j]))
  }

  /** Every paired code is the code at its position. */
  lemma {:induction false} CodedPositions(toks: seq<seq<Token>>)
    ensures forall k :: 0 <= k < |Coded(toks)| ==>
              var c := Coded(toks)[k];
              0 <= c.0.row < |toks| && 0 <= c.0.col < |toks[c.0.row]| && toks[c.0.row][c.0.col] == c.1
    decreases |toks|
  {
    if |toks| > 0 {
      var n := |toks| - 1;
      var init := toks[..n];
      CodedPositions(init);
      var row := seq(|toks[n]|, j requires 0 <= j < |toks[n]| => (Pos(n, j), toks[n][j]));
      assert Coded(toks) == Coded(init) + row;
      forall k | 0 <= k < |Coded(toks)|
        ensures var c := Coded(toks)[k];
                0 <= c.0.row < |toks| && 0 <= c.0.col < |toks[c.0.row]| && toks[c.0.row][c.0.col] == c.1
      {
        if k < |Coded(init)| {
          assert Coded(toks)[k] == Coded(init)[k];
          var c := Coded(init)[k];
          assert init[c.0.row] == toks[c.0.row];
        } else {
          assert Coded(toks)[k] == row[k - |Coded(init)|];
        }
      }
    }
  }

  /** Looking an id up in an insertion-ordered dict held as pairs. */
  function Lookup(d: seq<(int, Pos)>, id: int): (r: Option<Pos>)
    ensures r.Some? ==> (id, r.value) in d
    ensures r.None? ==> forall k :: 0 <= k < |d| ==> d[k].0 != id
    decreases |d|
  {
    if |d| == 0 then None
    else if d[0].0 == id then Some(d[0].1)
    else
      var r := Lookup(d[1..], id);
      assert r.Some? ==> (id, r.value) in d[1..];
      r
  }

  /** `d[id] = p`: an existing id keeps its place and takes the new
      position; a new id goes last. */
  function Put(d: seq<(int, Pos)>, id: int, p: Pos): (e: seq<(int, Pos)>)
    ensures Lookup(e, id) == Some(p)
    ensures forall k :: k != id ==> Lookup(e, k) == Lookup(d, k)
    ensures Lookup(d, id).None? ==> e == d + [(id, p)]
    ensures Lookup(d, id).Some? ==> |e| == |d|
    decreases |d|
  {
    if |d| == 0 then [(id, p)]
    else if d[0].0 == id then [(id, p)] + d[1..]
    else
      var rest := Put(d[1..], id, p);
      assert ([d[0]] + rest)[1..] == rest;
      assert [d[0]] + (d[1..] + [(id, p)]) == d + [(id, p)];
      [d[0]] + rest
  }

  /** `agents_to_create`: every agent code's id with the last position it
      was seen at, ids in order of first appearance. */
  function AgentIds(cs: seq<(Pos, Token)>): (d: seq<(int, Pos)>)
    ensures forall k :: 0 <= k < |cs| && cs[k].1.AgentTok? ==> Lookup(d, cs[k].1.id).Some?
    ensures forall id :: Lookup(d, id).Some? ==> (Lookup(d, id).value, AgentTok(id)) in cs
    decreases |cs|
  {
    if |cs| == 0 then []
    else
      var n := |cs| - 1;
      var d := AgentIds(cs[..n]);
      assert forall k :: 0 <= k < n ==> cs[..n][k] == cs[k];
      assert forall x :: x in cs[..n] ==> x in cs;
      if cs[n].1.AgentTok? then Put(d, cs[n].1.id, cs[n].0) else d
  }

  /** `flowers_to_create` as a list: one placement per flower code, in
      reading order. */
  function FlowersOf(cs: seq<(Pos, Token)>): (fs: seq<FlowerPlacement>)
    ensures forall k :: 0 <= k < |fs| ==> (fs[k].position, FlowerTok(fs[k].flowerType, fs[k].growthStage)) in cs
    ensures forall k :: 0 <= k < |cs| && cs[k].1.FlowerTok? ==>
              FlowerPlacement(cs[k].0, cs[k].1.flowerType, cs[k].1.stage) in fs
    decreases |cs|
  {
    if |cs| == 0 then []
    else
      var n := |cs| - 1;
      var fs := FlowersOf(cs[..n]);
      assert forall k :: 0 <= k < n ==> cs[..n][k] == cs[k];
      assert forall x :: x in cs[..n] ==> x in cs;
      if cs[n].1.FlowerTok? then fs + [FlowerPlacement(cs[n].0, cs[n].1.flowerType, cs[n].1.stage)] else fs
  }

  // ---------------------------------------------------------------------
  // agent and flower definitions

  /** All of the values, or nothing when one is missing. */
  function AllSome<T>(opts: seq<Option<T>>): (r: Option<seq<T>>)
    ensures r.Some? <==> forall k :: 0 <= k < |opts| ==> opts[k].Some?
    ensures r.Some? ==> |r.value| == |opts| && forall k :: 0 <= k < |opts| ==> opts[k] == Some(r.value[k])
    decreases |opts|
  {
    if |opts| == 0 then Some([])
    else if opts[0].None? then None
    else
      var rest := AllSome(opts[1..]);
      assert forall k :: 1 <= k < |opts| ==> opts[1..][k - 1] == opts[k];
      if rest.None? then None else Some([opts[0].value] + rest.value)
  }

  /** The index of the first missing value. */
  function FirstNone<T>(opts: seq<Option<T>>): (i: nat)
    requires exists k :: 0 <= k < |opts| && opts[k].None?
    ensures i < |opts| && opts[i].None?
    ensures forall k :: 0 <= k < i ==> opts[k].Some?
    decreases |opts|
  {
    if opts[0].None? then 0
    else
      var k :| 0 <= k < |opts| && opts[k].None?;
      assert opts[1..][k - 1] == opts[k];
      1 + FirstNone(opts[1..])
  }

  /** Every line's value, or the error naming the first refused line. */
  function Collect<T>(opts: seq<Option<T>>, first: int): (r: Result<seq<T>>)
    ensures r.Ok? ==> |r.value| == |opts|
    ensures r.Err? ==> r.error.ParseError? && first <= r.error.line < first + |opts|
    decreases |opts|
  {
    if |opts| == 0 then Ok([])
    else if opts[0].None? then Err(ParseError(first))
    else
      match Collect(opts[1..], first + 1)
      case Err(e) => Err(e)
      case Ok(rest) => Ok([opts[0].value] + rest)
  }

  /** All values are collected exactly when none is missing, in order; an
      error names the first missing one. */
  lemma {:induction false} CollectSpec<T>(opts: seq<Option<T>>, first: int)
    ensures Collect(opts, first).Ok? <==> forall k :: 0 <= k < |opts| ==> opts[k].Some?
    ensures Collect(opts, first).Ok? ==> forall k :: 0 <= k < |opts| ==> opts[k] == Some(Collect(opts, first).value[k])
    ensures Collect(opts, first).Err? ==>
              var k := Collect(opts, first).error.line - first;
              0 <= k < |opts| && opts[k].None? && forall j :: 0 <= j < k ==> opts[j].Some?
    decreases |opts|
  {
    if |opts| > 0 {
      CollectSpec(opts[1..], first + 1);
      assert forall k :: 1 <= k < |opts| ==> opts[1..][k - 1] == opts[k];
    }
  }

  /** `list(map(int, pieces))`. */
  function ParseInts(pieces: seq<string>): (r: Option<seq<int>>)
    ensures r.Some? <==> forall k :: 0 <= k < |pieces| ==> ParseInt(pieces[k]).Some?
    ensures r.Some? ==> |r.value| == |pieces| && forall k :: 0 <= k < |pieces| ==> ParseInt(pieces[k]) == Some(r.value[k])
  {
    var opts := seq(|pieces|, k requires 0 <= k < |pieces| => ParseInt(pieces[k]));
    assert forall k :: 0 <= k < |pieces| ==> opts[k] == ParseInt(pieces[k]);
    AllSome(opts)
  }

  /** `list(map(float, pieces))`. */
  function ParseFloats(pieces: seq<string>): (r: Option<seq<real>>)
    ensures r.Some? <==> forall k :: 0 <= k < |pieces| ==> ParseFloat(pieces[k]).Some?
    ensures r.Some? ==> |r.value| == |pieces| && forall k :: 0 <= k < |pieces| ==> ParseFloat(pieces[k]) == Some(r.value[k])
  {
    var opts := seq(|pieces|, k requires 0 <= k < |pieces| => ParseFloat(pieces[k]));
    assert forall k :: 0 <= k < |pieces| ==> opts[k] == ParseFloat(pieces[k]);
    AllSome(opts)
  }

  /** `{i: count for i, count in enumerate(counts)}`. */
  function Enumerate(counts: seq<int>): (m: map<int, int>)
    ensures forall k :: k in m <==> 0 <= k < |counts|
    ensures forall k :: 0 <= k < |counts| ==> m[k] == counts[k]
  {
    map k | 0 <= k < |counts| :: counts[k]
  }

  /** One agent line `id,money,counts`: the agent stands where its id was
      seen in the grid; seed types are numbered by position in the list. An
      id never seen in the grid is refused. */
  function ParseAgentLine(line: string, at: seq<(int, Pos)>): (r: Option<Agent>)
    ensures r.Some? ==> r.value.turnsWithoutIncome == 0
    ensures r.Some? ==> exists id :: Lookup(at, id) == Some(r.value.position)
  {
    var fields := SplitOn(Strip(line), ',');
    if |fields| < 3 then None
    else
      match ParseInt(fields[0])
      case None => None
      case Some(id) =>
        match Lookup(at, id)
        case None => None
        case Some(p) =>
          match (ParseFloat(fields[1]), ParseInts(SplitOn(fields[2], '|')))
          case (Some(money), Some(counts)) => Some(NewAgent(p, money, Some(Enumerate(counts))))
          case _ => None
  }

  /** One flower line `type,price,reductions`; the price is read as an integer. */
  function ParseFlowerLine(line: string): (r: Option<(int, FlowerSpec)>)
    ensures r.Some? ==> r.value.1.price == r.value.1.price.Floor as real
  {
    var fields := SplitOn(Strip(line), ',');
    if |fields| < 3 then None
    else
      match (ParseInt(fields[0]), ParseInt(fields[1]), ParseFloats(SplitOn(fields[2], '|')))
      case (Some(t), Some(price), Some(reductions)) => Some((t, FlowerSpec(price as real, reductions)))
      case _ => None
  }

  /** `flowers_data[type] = ...` for each entry in turn: every type listed
      has the entry of its LAST line. */
  function TableOf<V>(entries: seq<(int, V)>): (m: map<int, V>)
    ensures |entries| > 0 ==> entries[|entries| - 1].0 in m && m[entries[|entries| - 1].0] == entries[|entries| - 1].1
    decreases |entries|
  {
    if |entries| == 0 then map[]
    else
      var n := |entries| - 1;
      TableOf(entries[..n])[entries[n].0 := entries[n].1]
  }

  /** The table holds exactly the listed types. */
  lemma {:induction false} TableOfKeys<V>(entries: seq<(int, V)>)
    ensures forall t :: t in TableOf(entries) <==> exists k :: 0 <= k < |entries| && entries[k].0 == t
    decreases |entries|
  {
    if |entries| > 0 {
      var n := |entries| - 1;
      var init := entries[..n];
      TableOfKeys(init);
      assert forall k :: 0 <= k < n ==> init[k] == entries[k];
      assert TableOf(entries) == TableOf(init)[entries[n].0 := entries[n].1];
      forall t | t in TableOf(entries)
        ensures exists k :: 0 <= k < |entries| && entries[k].0 == t
      {
        if t != entries[n].0 {
          var k :| 0 <= k < n && init[k].0 == t;
          assert entries[k].0 == t;
        }
      }
      forall t | exists k :: 0 <= k < |entries| && entries[k].0 == t
        ensures t in TableOf(entries)
      {
        var k :| 0 <= k < |entries| && entries[k].0 == t;
        if k < n {
          assert init[k].0 == t;
        }
      }
    }
  }

  /** Every type gets the entry of its last line. */
  lemma {:induction false} TableOfLastWins<V>(entries: seq<(int, V)>, k: nat)
    requires k < |entries|
    requires forall j :: k < j < |entries| ==> entries[j].0 != entries[k].0
    ensures entries[k].0 in TableOf(entries) && TableOf(entries)[entries[k].0] == entries[k].1
    decreases |entries|
  {
    var n := |entries| - 1;
    if k < n {
      var init := entries[..n];
      assert init[k] == entries[k];
      assert forall j :: k < j < |init| ==> init[j] == entries[j];
      TableOfLastWins(init, k);
    }
  }

  /** Each agent line read on its own. */
  function AgentLines(lines: seq<string>, at: seq<(int, Pos)>): (opts: seq<Option<Agent>>)
    ensures |opts| == |lines|
    ensures forall k {:trigger ParseAgentLine(lines[k], at)} :: 0 <= k < |lines| ==> opts[k] == ParseAgentLine(lines[k], at)
  {
    seq(|lines|, k requires 0 <= k < |lines| => ParseAgentLine(lines[k], at))
  }

  /** Each flower line read on its own. */
  function FlowerLines(lines: seq<string>): (opts: seq<Option<(int, FlowerSpec)>>)
    ensures |opts| == |lines|
    ensures forall k {:trigger ParseFlowerLine(lines[k])} :: 0 <= k < |lines| ==> opts[k] == ParseFlowerLine(lines[k])
  {
    seq(|lines|, k requires 0 <= k < |lines| => ParseFlowerLine(lines[k]))
  }

  function Min(a: int, b: int): int {
    if a <= b then a else b
  }

  /** `init_from_file`: reads the header, the grid rows, as many agent lines
      as there are distinct agent ids, and every remaining line as a flower
      type, then builds the world with the constructor's other defaults. A
      negative width or height is refused. */
  function ParseGridFile(lines: seq<string>): (r: Result<World>)
    ensures |lines| == 0 ==> r == Err(ParseError(0))
    ensures r.Ok? ==>
              var v := r.value;
              && Rectangular(v) && v.width >= 0 && v.height >= 0
              && v.minPollution == 0.0 && v.maxPollution == 100.0 && v.pollutionIncrement == 1.0
              && v.numSeedsReturned == Some(1) && v.collisionsOn
              && |lines| >= v.height + 1 + |v.agents|
  {
    if |lines| == 0 then Err(ParseError(0))
    else
      var head := SplitWs(Strip(lines[0]));
      if |head| < 2 then Err(ParseError(0))
      else
        if ParseInt(head[0]).None? || ParseInt(head[1]).None? then Err(ParseError(0))
        else
          var width, height := ParseInt(head[0]).value, ParseInt(head[1]).value;
          if width < 0 || height < 0 then Err(ParseError(0))
          else if |lines| < height + 1 then Err(ParseError(|lines|))
          else ParseSections(lines, width, height)
  }

  /** Everything after the header: the grid rows, the agent lines and the
      flower lines, then the constructor. */
  function ParseSections(lines: seq<string>, width: nat, height: nat): (r: Result<World>)
    requires |lines| >= height + 1
    ensures r.Ok? ==>
              var v := r.value;
              && Rectangular(v) && v.width == width && v.height == height
              && v.minPollution == 0.0 && v.maxPollution == 100.0 && v.pollutionIncrement == 1.0
              && v.numSeedsReturned == Some(1) && v.collisionsOn
              && |lines| >= v.height + 1 + |v.agents|
  {
    match ParseRows(lines[1..height + 1], width, 1)
    case Err(e) => Err(e)
    case Ok(toks) =>
      var at := AgentIds(Coded(toks));
      var agentEnd := Min(height + 1 + |at|, |lines|);
      ParseDefinitions(lines[height + 1..agentEnd], lines[agentEnd..], height + 1, width, toks)
  }

  /** The agent lines and the flower lines after a grid already read (the
      first agent line being line `first` of the file), then the
      constructor. */
  function ParseDefinitions(agentText: seq<string>, flowerText: seq<string>, first: int, width: nat, toks: seq<seq<Token>>)
    : (r: Result<World>)
    requires forall i :: 0 <= i < |toks| ==> |toks[i]| == width
    ensures r.Ok? ==>
              var v := r.value;
              && Rectangular(v) && v.width == width && v.height == |toks|
              && v.minPollution == 0.0 && v.maxPollution == 100.0 && v.pollutionIncrement == 1.0
              && v.numSeedsReturned == Some(1) && v.collisionsOn
              && |v.agents| == |agentText|
  {
    var coded := Coded(toks);
    match Collect(AgentLines(agentText, AgentIds(coded)), first)
    case Err(e) => Err(e)
    case Ok(agents) =>
      match Collect(FlowerLines(flowerText), first + |agentText|)
      case Err(e) => Err(e)
      case Ok(entries) =>
        Construct(ConstructorDefaults.(width := width, height := |toks|), Some(TableOf(entries)), 0,
                  CellsOf(toks), agents, FlowersOf(coded))
  }

  // ---------------------------------------------------------------------
  // the writer side: files in the format, and what the reader makes of them

  /** An agent definition with whole-number money and seed counts. */
  datatype AgentLine = AgentLine(id: int, money: int, seeds: seq<int>)

  /** A flower definition with whole-number reductions. */
  datatype FlowerLine = FlowerLine(flowerType: int, price: int, reductions: seq<int>)

  /** A line as `readlines` returns it. */
  function Line(s: string): (l: string)
    ensures |l| == |s| + 1 && l[..|s|] == s && l[|s|] == '\n'
  {
    s + "\n"
  }

  function Renders(row: seq<Token>): (codes: seq<string>)
    ensures |codes| == |row| && forall j :: 0 <= j < |row| ==> codes[j] == Render(row[j])
  {
    seq(|row|, j requires 0 <= j < |row| => Render(row[j]))
  }

  function ShowInts(xs: seq<int>): (ss: seq<string>)
    ensures |ss| == |xs| && forall k :: 0 <= k < |xs| ==> ss[k] == ShowInt(xs[k])
  {
    seq(|xs|, k requires 0 <= k < |xs| => ShowInt(xs[k]))
  }

  function RenderRow(row: seq<Token>): string {
    JoinSpace(Renders(row))
  }

  function RenderAgentLine(a: AgentLine): string
    requires |a.seeds| >= 1
  {
    JoinOn([ShowInt(a.id), ShowInt(a.money), JoinOn(ShowInts(a.seeds), '|')], ',')
  }

  function RenderFlowerLine(f: FlowerLine): string
    requires |f.reductions| >= 1
  {
    JoinOn([ShowInt(f.flowerType), ShowInt(f.price), JoinOn(ShowInts(f.reductions), '|')], ',')
  }

  /** The header, one line per grid row, then the agent and flower lines. */
  function RenderFile(width: int, toks: seq<seq<Token>>, agentLines: seq<AgentLine>, flowerLines: seq<FlowerLine>): (lines: seq<string>)
    requires forall k :: 0 <= k < |agentLines| ==> |agentLines[k].seeds| >= 1
    requires forall k :: 0 <= k < |flowerLines| ==> |flowerLines[k].reductions| >= 1
    ensures |lines| == 1 + |toks| + |agentLines| + |flowerLines|
  {
    [Line(JoinSpace([ShowInt(width), ShowInt(|toks|)]))] + RowLines(toks) + AgentLineTexts(agentLines) + FlowerLineTexts(flowerLines)
  }

  /** The agent an agent line describes, standing where `at` puts its id. */
  function AgentOf(a: AgentLine, at: seq<(int, Pos)>): (ag: Agent)
    requires Lookup(at, a.id).Some?
    ensures ag.position == Lookup(at, a.id).value && ag.money == a.money as real
    ensures forall t :: t in ag.seeds <==> 0 <= t < |a.seeds|
    ensures forall t :: 0 <= t < |a.seeds| ==> ag.seeds[t] == a.seeds[t]
    ensures forall t :: 0 <= t < |a.seeds| ==>
              t in ag.flowersPlanted && ag.flowersPlanted[t] == 0 && t in ag.flowersHarvested && ag.flowersHarvested[t] == 0
    ensures ag.turnsWithoutIncome == 0
  {
    NewAgent(Lookup(at, a.id).value, a.money as real, Some(Enumerate(a.seeds)))
  }

  function Reals(xs: seq<int>): (rs: seq<real>)
    ensures |rs| == |xs| && forall k :: 0 <= k < |xs| ==> rs[k] == xs[k] as real
  {
    seq(|xs|, k requires 0 <= k < |xs| => xs[k] as real)
  }

  /** The table entry a flower line describes. */
  function EntryOf(f: FlowerLine): (e: (int, FlowerSpec))
    ensures e.0 == f.flowerType && e.1.price == f.price as real && |e.1.pollutionReduction| == |f.reductions|
    ensures forall k :: 0 <= k < |f.reductions| ==> e.1.pollutionReduction[k] == f.reductions[k] as real
  {
    (f.flowerType, FlowerSpec(f.price as real, Reals(f.reductions)))
  }

  /** A rendered line comes back through `strip()` unchanged. */
  lemma StripLine(s: string)
    requires Word(s) || s == ""
    ensures Strip(Line(s)) == s
  {
    StripTrimmed(s);
  }

  /** Each rendered code of a row is a word that reads back as its token. */
  lemma RendersRead(row: seq<Token>)
    ensures forall j :: 0 <= j < |row| ==> Word(Renders(row)[j]) && ParseToken(Renders(row)[j]) == Some(row[j])
  {
    forall j | 0 <= j < |row| ensures Word(Renders(row)[j]) && ParseToken(Renders(row)[j]) == Some(row[j]) {
      ParseRender(row[j]);
    }
  }

  /** The codes of a rendered row read back as the row. */
  lemma ParseCodesRenders(row: seq<Token>)
    ensures ParseCodes(Renders(row)) == Some(row)
  {
    RendersRead(row);
    ParseCodesSpec(Renders(row));
    hide ParseToken, Render, Renders, ParseCodes, Word;
    assert ParseCodes(Renders(row)).value == row;
  }

  /** A rendered row line splits back into its codes. */
  lemma SplitRenderRow(row: seq<Token>)
    ensures SplitWs(Strip(Line(RenderRow(row)))) == Renders(row)
  {
    var codes := Renders(row);
    RendersRead(row);
    JoinSpaceTrimmed(codes);
    StripTrimmed(JoinSpace(codes));
    SplitJoinSpace(codes);
  }

  /** A rendered row reads back as its codes. */
  lemma ParseRenderRow(row: seq<Token>)
    ensures ParseRow(Line(RenderRow(row)), |row|) == Some(row)
  {
    SplitRenderRow(row);
    ParseCodesRenders(row);
    hide ParseCodes, SplitWs, Strip, Line, RenderRow, Renders;
    assert Renders(row)[..|row|] == Renders(row);
  }

  /** A line of words joined by spaces splits back into the words. */
  lemma {:induction false} SplitLine(codes: seq<string>)
    requires forall k :: 0 <= k < |codes| ==> Word(codes[k])
    ensures SplitWs(Strip(Line(JoinSpace(codes)))) == codes
  {
    JoinSpaceTrimmed(codes);
    hide SplitWs, Strip, Line, JoinSpace, Word;
    StripTrimmed(JoinSpace(codes));
    SplitJoinSpace(codes);
  }

  /** Codes past the width that the reader does not write are passed over:
      a rendered row followed by such words still reads back as the row. */
  lemma {:induction false} ParseRenderRowExtra(row: seq<Token>, extra: seq<string>)
    requires forall k :: 0 <= k < |extra| ==> Word(extra[k]) && !Assigned(extra[k])
    ensures ParseRow(Line(JoinSpace(Renders(row) + extra)), |row|) == Some(row)
  {
    hide ParseRow, ParseCodes, SplitWs, Strip, Line, JoinSpace, ParseToken, Word, Render, Assigned;
    var codes := Renders(row) + extra;
    var line := Line(JoinSpace(codes));
    RendersRead(row);
    assert forall k :: 0 <= k < |row| ==> codes[k] == Renders(row)[k];
    assert forall k :: |row| <= k < |codes| ==> codes[k] == extra[k - |row|];
    SplitLine(codes);
    ParseRowSpec(line, |row|);
    assert SplitWs(Strip(line)) == codes;
    assert forall k :: 0 <= k < |row| ==> ParseToken(codes[k]) == Some(row[k]);
    assert forall k :: |row| <= k < |codes| ==> !Assigned(codes[k]);
    assert ParseRow(line, |row|).Some?;
    var r := ParseRow(line, |row|).value;
    assert forall k :: 0 <= k < |row| ==> r[k] == row[k];
    assert r == row;
  }

  /** The pieces of the line `G G W`: two rendered ground codes, and a
      `W` that is a word the reader does not write. */
  lemma GroundGroundWallPieces()
    ensures Renders([GroundTok, GroundTok]) + ["W"] == ["G", "G", "W"]
    ensures Word("W") && !Assigned("W")
    ensures Line(JoinSpace(["G", "G", "W"])) == "G G W\n"
  {
    var ws := ["G", "G", "W"];
    assert ws[1..] == ["G", "W"] && ws[1..][1..] == ["W"];
    assert "W"[0] == 'W';
  }

  /** The row `G G W` of a grid two cells wide reads as two ground cells:
      the unknown code past the width is passed over. */
  lemma UnknownCodePastWidth()
    ensures ParseRow("G G W\n", 2) == Some([GroundTok, GroundTok])
  {
    hide ParseRow, JoinSpace, Line, Assigned, Word, Renders, Render;
    GroundGroundWallPieces();
    ParseRenderRowExtra([GroundTok, GroundTok], ["W"]);
  }

  /** A list of whole numbers joined by `|` reads back as those numbers. */
  lemma ParseRenderInts(xs: seq<int>)
    requires |xs| >= 1
    ensures Word(JoinOn(ShowInts(xs), '|')) && ',' !in JoinOn(ShowInts(xs), '|')
    ensures ParseInts(SplitOn(JoinOn(ShowInts(xs), '|'), '|')) == Some(xs)
    ensures ParseFloats(SplitOn(JoinOn(ShowInts(xs), '|'), '|')) == Some(Reals(xs))
  {
    var ss := ShowInts(xs);
    forall k | 0 <= k < |xs|
      ensures Word(ss[k]) && ',' !in ss[k] && '|' !in ss[k]
      ensures ParseInt(ss[k]) == Some(xs[k]) && ParseFloat(ss[k]) == Some(xs[k] as real)
    {
      ShowIntIsWord(xs[k]);
      ParseShowInt(xs[k]);
      ParseFloatShowInt(xs[k]);
    }
    JoinOnWord(ss, '|');
    JoinOnAvoids(ss, '|', ',');
    SplitJoinOn(ss, '|');
    var ints := ParseInts(ss);
    assert ints.Some? && ints.value == xs;
    var floats := ParseFloats(ss);
    assert floats.Some? && floats.value == Reals(xs);
  }

  /** The three fields of a definition line come back out of `strip` and
      `split(',')`. */
  lemma SplitRenderFields(a: string, b: string, c: string)
    requires Word(a) && Word(b) && Word(c)
    requires ',' !in a && ',' !in b && ',' !in c
    ensures SplitOn(Strip(Line(JoinOn([a, b, c], ','))), ',') == [a, b, c]
  {
    var fields := [a, b, c];
    JoinOnWord(fields, ',');
    StripLine(JoinOn(fields, ','));
    SplitJoinOn(fields, ',');
  }

  /** An agent line reads back as the agent it describes. */
  lemma ParseRenderAgentLine(a: AgentLine, at: seq<(int, Pos)>)
    requires |a.seeds| >= 1 && Lookup(at, a.id).Some?
    ensures ParseAgentLine(Line(RenderAgentLine(a)), at) == Some(AgentOf(a, at))
  {
    ShowIntIsWord(a.id);
    ShowIntIsWord(a.money);
    ParseRenderInts(a.seeds);
    SplitRenderFields(ShowInt(a.id), ShowInt(a.money), JoinOn(ShowInts(a.seeds), '|'));
    ParseShowInt(a.id);
    ParseFloatShowInt(a.money);
  }

  /** A flower line reads back as the table entry it describes. */
  lemma ParseRenderFlowerLine(f: FlowerLine)
    requires |f.reductions| >= 1
    ensures ParseFlowerLine(Line(RenderFlowerLine(f))) == Some(EntryOf(f))
  {
    ShowIntIsWord(f.flowerType);
    ShowIntIsWord(f.price);
    ParseRenderInts(f.reductions);
    SplitRenderFields(ShowInt(f.flowerType), ShowInt(f.price), JoinOn(ShowInts(f.reductions), '|'));
    ParseShowInt(f.flowerType);
    ParseShowInt(f.price);
  }

  function RowLines(toks: seq<seq<Token>>): (lines: seq<string>)
    ensures |lines| == |toks| && forall i :: 0 <= i < |toks| ==> lines[i] == Line(RenderRow(toks[i]))
  {
    seq(|toks|, i requires 0 <= i < |toks| => Line(RenderRow(toks[i])))
  }

  function AgentLineTexts(agentLines: seq<AgentLine>): (lines: seq<string>)
    requires forall k :: 0 <= k < |agentLines| ==> |agentLines[k].seeds| >= 1
    ensures |lines| == |agentLines| && forall k :: 0 <= k < |agentLines| ==> lines[k] == Line(RenderAgentLine(agentLines[k]))
  {
    seq(|agentLines|, k requires 0 <= k < |agentLines| => Line(RenderAgentLine(agentLines[k])))
  }

  function FlowerLineTexts(flowerLines: seq<FlowerLine>): (lines: seq<string>)
    requires forall k :: 0 <= k < |flowerLines| ==> |flowerLines[k].reductions| >= 1
    ensures |lines| == |flowerLines| && forall k :: 0 <= k < |flowerLines| ==> lines[k] == Line(RenderFlowerLine(flowerLines[k]))
  {
    seq(|flowerLines|, k requires 0 <= k < |flowerLines| => Line(RenderFlowerLine(flowerLines[k])))
  }

  /** The agents a list of agent lines describes. */
  function AgentsOf(agentLines: seq<AgentLine>, at: seq<(int, Pos)>): (agents: seq<Agent>)
    requires forall k :: 0 <= k < |agentLines| ==> Lookup(at, agentLines[k].id).Some?
    ensures |agents| == |agentLines| && forall k :: 0 <= k < |agentLines| ==> agents[k] == AgentOf(agentLines[k], at)
  {
    seq(|agentLines|, k requires 0 <= k < |agentLines| => AgentOf(agentLines[k], at))
  }

  /** The table entries a list of flower lines describes. */
  function EntriesOf(flowerLines: seq<FlowerLine>): (entries: seq<(int, FlowerSpec)>)
    ensures |entries| == |flowerLines| && forall k :: 0 <= k < |flowerLines| ==> entries[k] == EntryOf(flowerLines[k])
  {
    seq(|flowerLines|, k requires 0 <= k < |flowerLines| => EntryOf(flowerLines[k]))
  }

  lemma {:induction false} ParseRenderRows(toks: seq<seq<Token>>, width: nat, first: int)
    requires forall i :: 0 <= i < |toks| ==> |toks[i]| == width
    ensures ParseRows(RowLines(toks), width, first) == Ok(toks)
  {
    hide ParseRow, ParseRows;
    var lines := RowLines(toks);
    forall i | 0 <= i < |toks| ensures ParseRow(lines[i], width) == Some(toks[i]) {
      ParseRenderRow(toks[i]);
    }
    ParseRowsSpec(lines, width, first);
    var r := ParseRows(lines, width, first);
    assert r.Ok?;
    assert r.value == toks;
  }

  lemma ParseRenderAgentLines(agentLines: seq<AgentLine>, at: seq<(int, Pos)>, first: int)
    requires forall k :: 0 <= k < |agentLines| ==> |agentLines[k].seeds| >= 1 && Lookup(at, agentLines[k].id).Some?
    ensures Collect(AgentLines(AgentLineTexts(agentLines), at), first) == Ok(AgentsOf(agentLines, at))
  {
    var opts := AgentLines(AgentLineTexts(agentLines), at);
    forall k | 0 <= k < |agentLines| ensures opts[k] == Some(AgentOf(agentLines[k], at)) {
      ParseRenderAgentLine(agentLines[k], at);
    }
    CollectSpec(opts, first);
    var r := Collect(opts, first);
    assert r.Ok?;
    assert r.value == AgentsOf(agentLines, at);
  }

  lemma ParseRenderFlowerLines(flowerLines: seq<FlowerLine>, first: int)
    requires forall k :: 0 <= k < |flowerLines| ==> |flowerLines[k].reductions| >= 1
    ensures Collect(FlowerLines(FlowerLineTexts(flowerLines)), first) == Ok(EntriesOf(flowerLines))
  {
    var opts := FlowerLines(FlowerLineTexts(flowerLines));
    forall k | 0 <= k < |flowerLines| ensures opts[k] == Some(EntryOf(flowerLines[k])) {
      ParseRenderFlowerLine(flowerLines[k]);
    }
    CollectSpec(opts, first);
    var r := Collect(opts, first);
    assert r.Ok?;
    assert r.value == EntriesOf(flowerLines);
  }

  /** The header line reads back as the two dimensions. */
  lemma ParseRenderHeader(width: int, height: int)
    ensures var head := SplitWs(Strip(Line(JoinSpace([ShowInt(width), ShowInt(height)]))));
            |head| == 2 && ParseInt(head[0]) == Some(width) && ParseInt(head[1]) == Some(height)
  {
    ShowIntIsWord(width);
    ShowIntIsWord(height);
    var words := [ShowInt(width), ShowInt(height)];
    JoinSpaceTrimmed(words);
    StripTrimmed(JoinSpace(words));
    SplitJoinSpace(words);
    ParseShowInt(width);
    ParseShowInt(height);
  }

  /** Reading a file in the format: every well-formed file (one agent line
      per distinct agent id of the grid, each naming an id the grid holds)
      yields the world the constructor builds from its grid, its agents, its
      flower codes and the table its flower lines define. */
  lemma ParseRenderFile(width: nat, toks: seq<seq<Token>>, agentLines: seq<AgentLine>, flowerLines: seq<FlowerLine>)
    requires forall i :: 0 <= i < |toks| ==> |toks[i]| == width
    requires |agentLines| == |AgentIds(Coded(toks))|
    requires forall k :: 0 <= k < |agentLines| ==>
               |agentLines[k].seeds| >= 1 && Lookup(AgentIds(Coded(toks)), agentLines[k].id).Some?
    requires forall k :: 0 <= k < |flowerLines| ==> |flowerLines[k].reductions| >= 1
    ensures ParseGridFile(RenderFile(width, toks, agentLines, flowerLines))
            == Construct(ConstructorDefaults.(width := width, height := |toks|), Some(TableOf(EntriesOf(flowerLines))), 0,
                         CellsOf(toks), AgentsOf(agentLines, AgentIds(Coded(toks))), FlowersOf(Coded(toks)))
  {
    var lines := RenderFile(width, toks, agentLines, flowerLines);
    var height := |toks|;
    var header := Line(JoinSpace([ShowInt(width), ShowInt(height)]));
    SliceFile(header, RowLines(toks), AgentLineTexts(agentLines), FlowerLineTexts(flowerLines));
    ParseRenderHeader(width, height);
    HeaderSplit(lines, width, height);
    ParseRenderRows(toks, width, 1);
    SectionsSplit(lines, width, toks, AgentLineTexts(agentLines), FlowerLineTexts(flowerLines));
    ParseRenderDefinitions(width, toks, agentLines, flowerLines, height + 1);
  }

  /** The four parts of a file can be sliced back out of it. */
  lemma SliceFile<T>(header: T, rows: seq<T>, agentText: seq<T>, flowerText: seq<T>)
    ensures var s := [header] + rows + agentText + flowerText;
            && |s| == 1 + |rows| + |agentText| + |flowerText|
            && s[0] == header
            && s[1..|rows| + 1] == rows
            && s[|rows| + 1..|rows| + 1 + |agentText|] == agentText
            && s[|rows| + 1 + |agentText|..] == flowerText
  {
    var s := [header] + rows + agentText + flowerText;
    assert s[1..|rows| + 1] == rows;
    assert s[|rows| + 1..|rows| + 1 + |agentText|] == agentText;
    assert s[|rows| + 1 + |agentText|..] == flowerText;
  }

  /** A header naming non-negative dimensions, with enough lines after it,
      hands the rest of the file to the section reader. */
  lemma HeaderSplit(lines: seq<string>, width: nat, height: nat)
    requires |lines| >= height + 1
    requires var head := SplitWs(Strip(lines[0]));
             |head| == 2 && ParseInt(head[0]) == Some(width) && ParseInt(head[1]) == Some(height)
    ensures ParseGridFile(lines) == ParseSections(lines, width, height)
  {
  }

  /** Once the grid rows read back, the sections after them are exactly
      the agent lines and the flower lines. */
  lemma SectionsSplit(lines: seq<string>, width: nat, toks: seq<seq<Token>>, agentText: seq<string>, flowerText: seq<string>)
    requires forall i :: 0 <= i < |toks| ==> |toks[i]| == width
    requires |agentText| == |AgentIds(Coded(toks))|
    requires |lines| == 1 + |toks| + |agentText| + |flowerText|
    requires ParseRows(lines[1..|toks| + 1], width, 1) == Ok(toks)
    requires lines[|toks| + 1..|toks| + 1 + |agentText|] == agentText
    requires lines[|toks| + 1 + |agentText|..] == flowerText
    ensures ParseSections(lines, width, |toks|) == ParseDefinitions(agentText, flowerText, |toks| + 1, width, toks)
  {
    hide ParseRows, Collect, AgentLines, FlowerLines, Construct, ParseDefinitions;
    var at := AgentIds(Coded(toks));
    var agentEnd := Min(|toks| + 1 + |at|, |lines|);
    assert agentEnd == |toks| + 1 + |agentText|;
    assert lines[|toks| + 1..agentEnd] == agentText;
    assert lines[agentEnd..] == lines[|toks| + 1 + |agentText|..];
    assert ParseSections(lines, width, |toks|)
           == ParseDefinitions(lines[|toks| + 1..agentEnd], lines[agentEnd..], |toks| + 1, width, toks);
  }

  lemma ParseRenderDefinitions(width: nat, toks: seq<seq<Token>>, agentLines: seq<AgentLine>, flowerLines: seq<FlowerLine>, first: int)
    requires forall i :: 0 <= i < |toks| ==> |toks[i]| == width
    requires forall k :: 0 <= k < |agentLines| ==>
               |agentLines[k].seeds| >= 1 && Lookup(AgentIds(Coded(toks)), agentLines[k].id).Some?
    requires forall k :: 0 <= k < |flowerLines| ==> |flowerLines[k].reductions| >= 1
    ensures ParseDefinitions(AgentLineTexts(agentLines), FlowerLineTexts(flowerLines), first, width, toks)
            == Construct(ConstructorDefaults.(width := width, height := |toks|), Some(TableOf(EntriesOf(flowerLines))), 0,
                         CellsOf(toks), AgentsOf(agentLines, AgentIds(Coded(toks))), FlowersOf(Coded(toks)))
  {
    var at := AgentIds(Coded(toks));
    var agentText, flowerText := AgentLineTexts(agentLines), FlowerLineTexts(flowerLines);
    var agents, entries := AgentsOf(agentLines, at), EntriesOf(flowerLines);
    ParseRenderAgentLines(agentLines, at, first);
    forall f ensures Collect(FlowerLines(flowerText), f) == Ok(entries) {
      ParseRenderFlowerLines(flowerLines, f);
    }
    hide Construct, Coded, AgentIds, Lookup, CellsOf, FlowersOf, TableOf, EntriesOf, AgentsOf, AgentOf, EntryOf;
    hide AgentLineTexts, FlowerLineTexts, ParseDefinitions, Collect, AgentLines, FlowerLines;
    DefinitionsRead(agentText, flowerText, first, width, toks, agents, entries);
  }

  /** Once both kinds of definition lines are read, the world is the
      constructor's. */
  lemma DefinitionsRead(agentText: seq<string>, flowerText: seq<string>, first: int, width: nat, toks: seq<seq<Token>>,
                        agents: seq<Agent>, entries: seq<(int, FlowerSpec)>)
    requires forall i :: 0 <= i < |toks| ==> |toks[i]| == width
    requires Collect(AgentLines(agentText, AgentIds(Coded(toks))), first) == Ok(agents)
    requires Collect(FlowerLines(flowerText), first + |agentText|) == Ok(entries)
    ensures ParseDefinitions(agentText, flowerText, first, width, toks)
            == Construct(ConstructorDefaults.(width := width, height := |toks|), Some(TableOf(entries)), 0,
                         CellsOf(toks), agents, FlowersOf(Coded(toks)))
  {
    hide AgentLines, FlowerLines, Collect, Construct, TableOf, Coded, AgentIds, FlowersOf, CellsOf, Configured, Rectangular, InBounds, GetCell, SameSoil, TokenCell, Lookup;
  }
}

=== FILE: legacycell.dfy ===
/** The older cell of ethicalgardeners/WorldGrid.py: three cell types
    (GROUND, OBSTACLE, WALL), a numeric pollution for every type, a fixed
    module-wide increment, and an update that is guarded rather than clamped,
    so it can overshoot the bounds it checks. */
module LegacyCell {
  import opened Common
  import Cells

  datatype LegacyCellType = Ground | Obstacle | Wall

  /** The module constant `pollution_increment`. */
  const PollutionIncrement: real := 1.0

  /** `flower` is held by value; `agent` is the back-reference (`Agent` in the source). */
  datatype LegacyCell = LegacyCell(
    cellType: LegacyCellType,
    flower: Option<Cells.Flower>,
    agent: Option<nat>,
    pollution: real)

  /** `Cell(cell_type, pollution)`: neither flower nor agent. */
  function NewLegacyCell(t: LegacyCellType, pollution: real): (c: LegacyCell)
    ensures !HaveFlower(c) && !HaveAgent(c)
    ensures c.cellType == t && c.pollution == pollution
  {
    LegacyCell(t, None, None, pollution)
  }

  predicate IsGround(c: LegacyCell) { c.cellType == Ground }

  predicate HaveFlower(c: LegacyCell) { c.flower.Some? }

  predicate HaveAgent(c: LegacyCell) { c.agent.Some? }

  /** `update_pollution(min, max)`: with a flower and pollution strictly
      above `lo`, the full reduction is subtracted; without a flower and
      pollution strictly below `hi`, the module increment is added; in every
      other case nothing changes. Nothing is clamped. */
  function LegacyUpdatePollution(c: LegacyCell, lo: real, hi: real): (d: LegacyCell)
    requires HaveFlower(c) && c.pollution > lo ==> Cells.StageIndexed(c.flower.value)
    ensures d.(pollution := c.pollution) == c
    ensures HaveFlower(c) && c.pollution > lo ==>
              d.pollution == c.pollution - Cells.PollutionReduction(c.flower.value)
    ensures !HaveFlower(c) && c.pollution < hi ==> d.pollution - c.pollution == PollutionIncrement
    ensures (HaveFlower(c) && c.pollution <= lo) || (!HaveFlower(c) && c.pollution >= hi) ==> d == c
  {
    if HaveFlower(c) && c.pollution > lo then
      c.(pollution := c.pollution - Cells.PollutionReduction(c.flower.value))
    else if !HaveFlower(c) && c.pollution < hi then
      c.(pollution := c.pollution + PollutionIncrement)
    else
      c
  }

  /** Undershoot: from `lo + 1` a reduction of 5 lands at `lo - 4`, below the
      bound the guard tested. */
  lemma LegacyUndershoot(f: Cells.Flower, lo: real, hi: real)
    requires Cells.StageIndexed(f) && Cells.PollutionReduction(f) == 5.0
    ensures LegacyUpdatePollution(LegacyCell(Ground, Some(f), None, lo + 1.0), lo, hi).pollution == lo - 4.0
  {
  }

  /** Overshoot: from just below `hi` the increment of 1 carries the
      pollution above `hi`. */
  lemma LegacyOvershoot(hi: real, lo: real)
    ensures LegacyUpdatePollution(LegacyCell(Ground, None, None, hi - 0.5), lo, hi).pollution == hi + 0.5
  {
  }

  /** The contrast with the current cell: from the same state (a ground
      cell with the same flower and pollution inside the bounds) the current
      update stays at or above `lo` while the legacy one may go below it;
      whenever the legacy result is within bounds the two agree. */
  lemma LegacyVersusClamped(f: Cells.Flower, p: real, lo: real, hi: real)
    requires Cells.StageIndexed(f) && lo < p <= hi
    ensures var legacy := LegacyUpdatePollution(LegacyCell(Ground, Some(f), None, p), lo, hi).pollution;
            var current := Cells.UpdatePollution(Cells.Cell(Cells.Ground, Some(p), 1.0, Some(f), None), lo, hi).pollution.value;
            && current >= lo
            && (legacy >= lo ==> current == legacy)
            && (legacy < lo ==> current == lo)
  {
  }
}

=== FILE: runs.dfy ===
/** Runs of the world: any interleaving of agents' actions (through
    `ActionHandler.handle_action`) and grid ticks (`WorldGrid.update_cell`),
    and the invariants every such run keeps. The environment decides the
    order of events; here the order is an arbitrary sequence. An event that
    raises in the source ends the run. */
module Runs {
  import opened Common
  import opened Cells
  import opened Agents
  import opened Actions
  import opened Grid
  import opened ActionHandler

  // ---------------------------------------------------------------------
  // well-formed worlds

  /** A cell as the world keeps it: pollution exactly on ground and within
      the world's bounds, a non-negative increment, and a flower whose stage
      indexes its non-negative reductions. */
  predicate CellOk(c: Cell, lo: real, hi: real) {
    && (c.pollution.Some? <==> c.cellType == Ground)
    && PollutionWithin(c, lo, hi)
    && c.increment >= 0.0
    && (c.flower.Some? ==> FlowerOk(c.flower.value))
  }

  ghost predicate CellsOk(w: World)
    requires Rectangular(w)
  {
    forall p :: InBounds(w, p) ==> CellOk(GetCell(w, p), w.minPollution, w.maxPollution)
  }

  /** Every agent stands on the grid, and its seed counts are the infinite
      sentinel or non-negative, with counters for exactly its seed types. */
  ghost predicate AgentsOk(w: World) {
    forall k :: 0 <= k < |w.agents| ==> InBounds(w, w.agents[k].position) && AgentOk(w.agents[k])
  }

  /** Every configured type has at least one growth stage and non-negative
      reductions, and a harvest never returns a negative number of seeds. */
  ghost predicate SettingsOk(w: World) {
    && (forall t :: t in w.flowersData ==>
          |w.flowersData[t].pollutionReduction| > 0 && NonNegative(w.flowersData[t].pollutionReduction))
    && (w.numSeedsReturned.Some? ==> w.numSeedsReturned.value >= 0 || w.numSeedsReturned.value == -3)
  }

  ghost predicate WorldWf(w: World) {
    Rectangular(w) && CellsOk(w) && AgentsOk(w) && SettingsOk(w)
  }

  /** In a well-formed world every flower can be ticked. */
  lemma WfTickReady(w: World)
    requires WorldWf(w)
    ensures TickReady(w)
  {
    forall r, c | 0 <= r < |w.grid| && 0 <= c < |w.grid[r]|
      ensures var cell := w.grid[r][c];
              cell.pollution.Some? && cell.flower.Some? ==> StageIndexed(cell.flower.value)
    {
      assert InBounds(w, Pos(r, c));
      assert GetCell(w, Pos(r, c)) == w.grid[r][c];
    }
  }

  // ---------------------------------------------------------------------
  // events

  /** One step of a run: agent `agent` acts (with the flower type chosen
      for a plant and the number drawn for a random seed return), or every
      cell is updated. */
  datatype Event = Act(agent: nat, action: Action, flowerType: Option<int>, draw: int) | Tick

  /** What the event needs beyond a well-formed world. */
  predicate Ready(w: World, e: Event) {
    match e
    case Act(i, action, ft, draw) => ActionReady(w, i, action, ft, draw)
    case Tick => true
  }

  /** The event applied to the world; an action the handler refuses is an error. */
  function Fire(w: World, e: Event): (r: Result<World>)
    requires WorldWf(w) && Ready(w, e)
    ensures r.Ok? ==> Rectangular(r.value)
    ensures r.Ok? ==> r.value == w.(grid := r.value.grid, agents := r.value.agents, flowers := r.value.flowers)
    ensures r.Ok? ==> |r.value.agents| == |w.agents|
    ensures e.Tick? ==> r.Ok? && r.value.agents == w.agents && r.value.flowers == w.flowers
    ensures r.Err? ==> e.Act? && (e.action == Plant || e.action == Harvest)
  {
    hide WorldWf;
    match e
    case Act(i, action, ft, draw) => HandleAction(w, i, action, ft, draw)
    case Tick =>
      WfTickReady(w);
      Ok(Grid.Tick(w))
  }

  /** The world after the events in order, or `None` once an event is not
      ready or raises. Every world along the way is well-formed. */
  function Run(w: World, events: seq<Event>): (r: Option<World>)
    requires WorldWf(w)
    ensures r.Some? ==> WorldWf(r.value)
    ensures r.Some? ==> |r.value.agents| == |w.agents|
    ensures r.Some? ==> r.value == w.(grid := r.value.grid, agents := r.value.agents, flowers := r.value.flowers)
    decreases |events|
  {
    if |events| == 0 then Some(w)
    else if !Ready(w, events[0]) then None
    else
      match Fire(w, events[0])
      case Err(_) => None
      case Ok(v) =>
        FirePreservesWf(w, events[0]);
        Run(v, events[1..])
  }

  // ---------------------------------------------------------------------
  // each event keeps the world well-formed

  lemma FirePreservesWf(w: World, e: Event)
    requires WorldWf(w) && Ready(w, e) && Fire(w, e).Ok?
    ensures WorldWf(Fire(w, e).value)
  {
    match e
    case Tick =>
      WfTickReady(w);
      TickPreservesWf(w);
    case Act(i, action, ft, draw) =>
      if action.IsMove() {
        MovePreservesWf(w, i, action);
      } else if action == Plant {
        PlantPreservesWf(w, i, ft.value);
      } else if action == Harvest {
        HarvestPreservesWf(w, i, draw);
      } else {
        assert Fire(w, e).value == WaitTurn(w, i);
        WaitPreservesWf(w, i);
      }
  }

  lemma WaitPreservesWf(w: World, i: nat)
    requires WorldWf(w) && i < |w.agents|
    ensures WorldWf(WaitTurn(w, i))
  {
    var v := WaitTurn(w, i);
    forall p | InBounds(v, p) ensures CellOk(GetCell(v, p), v.minPollution, v.maxPollution) {
      assert GetCell(v, p) == GetCell(w, p);
    }
    forall k | 0 <= k < |v.agents| ensures InBounds(v, v.agents[k].position) && AgentOk(v.agents[k]) {
      if k != i {
        assert v.agents[k] == w.agents[k];
      }
    }
  }

  /** A tick keeps ground pollution within the bounds and every flower's
      stage within its reductions. */
  lemma TickPreservesWf(w: World)
    requires WorldWf(w) && TickReady(w)
    ensures WorldWf(Grid.Tick(w))
  {
    var v := Grid.Tick(w);
    forall p | InBounds(v, p) ensures CellOk(GetCell(v, p), v.minPollution, v.maxPollution) {
      var c := GetCell(w, p);
      assert CellOk(c, w.minPollution, w.maxPollution);
      UpdatePollutionStaysWithin(c, w.minPollution, w.maxPollution);
    }
  }

  lemma MovePreservesWf(w: World, i: nat, d: Action)
    requires WorldWf(w) && i < |w.agents|
    ensures WorldWf(MoveAgent(w, i, d))
  {
    var v := MoveAgent(w, i, d);
    var dest := Destination(w.agents[i].position, d);
    if ValidMove(w, dest) {
      forall p | InBounds(v, p) ensures CellOk(GetCell(v, p), v.minPollution, v.maxPollution) {
        assert CellOk(GetCell(w, p), w.minPollution, w.maxPollution);
      }
      forall k | 0 <= k < |v.agents| ensures InBounds(v, v.agents[k].position) && AgentOk(v.agents[k]) {
        if k != i {
          assert v.agents[k] == w.agents[k];
        }
      }
    }
  }

  lemma PlantPreservesWf(w: World, i: nat, t: int)
    requires WorldWf(w) && PlantReady(w, i, Some(t)) && PlantFlower(w, i, Some(t)).Ok?
    ensures WorldWf(PlantFlower(w, i, Some(t)).value)
  {
    var v := PlantFlower(w, i, Some(t)).value;
    assert Planted(w, i, t, v);
    var a := w.agents[i];
    var p := a.position;
    forall q | InBounds(v, q) ensures CellOk(GetCell(v, q), v.minPollution, v.maxPollution) {
      assert CellOk(GetCell(w, q), w.minPollution, w.maxPollution);
    }
    SeedOpsPreserveAgentOk(a, t, 0);
    forall k | 0 <= k < |v.agents| ensures InBounds(v, v.agents[k].position) && AgentOk(v.agents[k]) {
      if k != i {
        assert v.agents[k] == w.agents[k];
      }
    }
  }

  lemma HarvestPreservesWf(w: World, i: nat, draw: int)
    requires WorldWf(w) && HarvestReady(w, i, draw) && HarvestFlower(w, i, draw).Ok?
    ensures WorldWf(HarvestFlower(w, i, draw).value)
  {
    var v := HarvestFlower(w, i, draw).value;
    var a := w.agents[i];
    forall q | InBounds(v, q) ensures CellOk(GetCell(v, q), v.minPollution, v.maxPollution) {
      assert CellOk(GetCell(w, q), w.minPollution, w.maxPollution);
    }
    var f := GetCell(w, a.position).flower.value;
    match SeedsReturned(w, draw)
    case None =>
    case Some(n) =>
      SeedOpsPreserveAgentOk(a, f.flowerType, n);
    forall k | 0 <= k < |v.agents| ensures InBounds(v, v.agents[k].position) && AgentOk(v.agents[k]) {
      if k != i {
        assert v.agents[k] == w.agents[k];
      }
    }
  }

  /** The whole-run invariant, stated for the run's final world: ground
      pollution within the bounds, every flower's stage within
      `[0, num_growth_stage]`, and every seed count `-1` or non-negative. */
  lemma RunKeepsBounds(w: World, events: seq<Event>)
    requires WorldWf(w) && Run(w, events).Some?
    ensures var v := Run(w, events).value;
            forall p :: InBounds(v, p) ==>
              var c := GetCell(v, p);
              && (c.cellType == Ground ==> v.minPollution <= c.pollution.value <= v.maxPollution)
              && (c.flower.Some? ==> 0 <= c.flower.value.stage <= NumGrowthStage(c.flower.value))
    ensures var v := Run(w, events).value;
            forall k, t :: 0 <= k < |v.agents| && t in v.agents[k].seeds ==>
              v.agents[k].seeds[t] == Infinite || v.agents[k].seeds[t] >= 0
  {
    var v := Run(w, events).value;
    forall p | InBounds(v, p) ensures CellOk(GetCell(v, p), v.minPollution, v.maxPollution) {
    }
    forall k | 0 <= k < |v.agents| ensures AgentOk(v.agents[k]) {
    }
  }

  // ---------------------------------------------------------------------
  // back-references

  /** Each agent's cell refers to that agent. */
  ghost predicate AgentsReferenced(w: World)
    requires Rectangular(w)
  {
    forall k :: 0 <= k < |w.agents| ==>
      InBounds(w, w.agents[k].position) && GetCell(w, w.agents[k].position).agent == Some(k)
  }

  /** Referenced agents stand on distinct cells. */
  lemma ReferencedMeansDistinct(w: World)
    requires Rectangular(w) && AgentsReferenced(w)
    ensures forall j, k :: 0 <= j < k < |w.agents| ==> w.agents[j].position != w.agents[k].position
  {
  }

  /** With collisions on, a move aims only at an unreferenced cell, so the
      references stay right (the stale one left behind names the mover,
      which no other agent can be standing on). */
  lemma MoveKeepsReferenced(w: World, i: nat, d: Action)
    requires Rectangular(w) && w.collisionsOn && i < |w.agents| && AgentsReferenced(w)
    ensures AgentsReferenced(MoveAgent(w, i, d))
  {
    hide MoveAgent;
    var v := MoveAgent(w, i, d);
    var dest := Destination(w.agents[i].position, d);
    if ValidMove(w, dest) {
      forall k | 0 <= k < |v.agents| ensures InBounds(v, v.agents[k].position) && GetCell(v, v.agents[k].position).agent == Some(k) {
        if k != i {
          assert v.agents[k] == w.agents[k];
          assert GetCell(w, w.agents[k].position).agent == Some(k);
          assert w.agents[k].position != dest;
        }
      }
    }
  }

  /** Every event keeps the references right when collisions are on. */
  lemma FireKeepsReferenced(w: World, e: Event)
    requires WorldWf(w) && Ready(w, e) && Fire(w, e).Ok? && w.collisionsOn && AgentsReferenced(w)
    ensures AgentsReferenced(Fire(w, e).value)
  {
    hide HandleAction, MoveAgent, PlantFlower, HarvestFlower, WaitTurn, Planting, Grid.Tick;
    var v := Fire(w, e).value;
    match e
    case Tick =>
      WfTickReady(w);
      forall k | 0 <= k < |v.agents| ensures InBounds(v, v.agents[k].position) && GetCell(v, v.agents[k].position).agent == Some(k) {
        TickKeepsLayout(w, w.agents[k].position);
      }
    case Act(i, action, ft, draw) =>
      if action.IsMove() {
        MoveKeepsReferenced(w, i, action);
      } else if action == Plant {
        assert Planted(w, i, ft.value, v);
        forall k | 0 <= k < |v.agents| ensures InBounds(v, v.agents[k].position) && GetCell(v, v.agents[k].position).agent == Some(k) {
          assert v.agents[k].position == w.agents[k].position;
        }
      } else if action == Harvest {
        forall k | 0 <= k < |v.agents| ensures InBounds(v, v.agents[k].position) && GetCell(v, v.agents[k].position).agent == Some(k) {
          assert v.agents[k].position == w.agents[k].position;
        }
      } else {
        assert v == WaitTurn(w, i);
        forall k | 0 <= k < |v.agents| ensures InBounds(v, v.agents[k].position) && GetCell(v, v.agents[k].position).agent == Some(k) {
          assert v.agents[k].position == w.agents[k].position;
        }
      }
  }

  /** With collisions on, a run that starts with every agent referenced by
      its cell ends that way, so no two agents ever share a cell. */
  lemma {:induction false} RunKeepsReferenced(w: World, events: seq<Event>)
    requires WorldWf(w) && w.collisionsOn && AgentsReferenced(w) && Run(w, events).Some?
    ensures AgentsReferenced(Run(w, events).value)
    ensures var v := Run(w, events).value;
            forall j, k :: 0 <= j < k < |v.agents| ==> v.agents[j].position != v.agents[k].position
    decreases |events|
  {
    if |events| > 0 {
      var v := Fire(w, events[0]).value;
      FireKeepsReferenced(w, events[0]);
      FirePreservesWf(w, events[0]);
      assert Run(w, events) == Run(v, events[1..]);
      RunKeepsReferenced(v, events[1..]);
    } else {
      ReferencedMeansDistinct(w);
    }
  }

  /** No cell refers to an agent that is not standing on it. */
  ghost predicate NoStaleReferences(w: World)
    requires Rectangular(w)
  {
    forall q, k :: InBounds(w, q) && GetCell(w, q).agent == Some(k) ==> k < |w.agents| && w.agents[k].position == q
  }

  /** The source's move breaks exactness at once: the cell left behind
      still names the mover. */
  lemma MoveLeavesStaleReference(w: World, i: nat, d: Action)
    requires AgentOnGrid(w, i) && d.IsMove() && AgentsReferenced(w)
    requires ValidMove(w, Destination(w.agents[i].position, d))
    ensures !NoStaleReferences(MoveAgent(w, i, d))
  {
    var p := w.agents[i].position;
    MoveLeavesStaleBackReference(w, i, d);
    DestinationAgreesWithMove(w.agents[i], d);
    assert GetCell(MoveAgent(w, i, d), p).agent == Some(i);
  }

  /** The intended move keeps every agent referenced by its cell and no
      reference stale. */
  lemma MoveClearedKeepsExact(w: World, i: nat, d: Action)
    requires AgentOnGrid(w, i) && d.IsMove() && w.collisionsOn
    requires AgentsReferenced(w) && NoStaleReferences(w)
    ensures AgentsReferenced(MoveAgentCleared(w, i, d)) && NoStaleReferences(MoveAgentCleared(w, i, d))
  {
    MoveClearedKeepsReferenced(w, i, d);
    MoveClearedNoStale(w, i, d);
  }

  lemma MoveClearedKeepsReferenced(w: World, i: nat, d: Action)
    requires AgentOnGrid(w, i) && d.IsMove() && w.collisionsOn && AgentsReferenced(w)
    ensures AgentsReferenced(MoveAgentCleared(w, i, d))
  {
    hide MoveAgentCleared, MoveAgent;
    var v := MoveAgentCleared(w, i, d);
    var p := w.agents[i].position;
    var dest := Destination(p, d);
    DestinationAgreesWithMove(w.agents[i], d);
    if ValidMove(w, dest) {
      forall k | 0 <= k < |v.agents| ensures InBounds(v, v.agents[k].position) && GetCell(v, v.agents[k].position).agent == Some(k) {
        if k != i {
          assert v.agents[k] == w.agents[k];
          assert GetCell(w, w.agents[k].position).agent == Some(k);
        }
      }
    }
  }

  lemma MoveClearedNoStale(w: World, i: nat, d: Action)
    requires AgentOnGrid(w, i) && d.IsMove() && NoStaleReferences(w)
    ensures NoStaleReferences(MoveAgentCleared(w, i, d))
  {
    hide MoveAgentCleared, MoveAgent;
    var v := MoveAgentCleared(w, i, d);
    var p := w.agents[i].position;
    var dest := Destination(p, d);
    if ValidMove(w, dest) {
      forall q, k | InBounds(v, q) && GetCell(v, q).agent == Some(k) ensures k < |v.agents| && v.agents[k].position == q {
        if q != p && q != dest {
          assert GetCell(v, q) == GetCell(w, q);
          assert w.agents[k].position == q;
          assert k != i;
          assert v.agents[k] == w.agents[k];
        }
      }
    }
  }
}

=== FILE: text.dfy ===
/** The Python string primitives the grid-file reader relies on:
    `str.strip()`, `str.split()`, `str.split(sep)`, `int(s)` and `float(s)`,
    each paired with a renderer it inverts. */
module Text {
  import opened Common

  /** The characters of `str.isspace()`, which `str.strip()`, `str.split()`,
      `int()` and `float()` skip: the ASCII controls 9 to 13 and 28 to 31,
      the space, U+0085, the no-break space, the Ogham space mark, the
      spaces U+2000 to U+200A, the line and paragraph separators, the
      narrow no-break space, the medium mathematical space and the
      ideographic space. */
  predicate IsSpace(c: char) {
    var n := c as int;
    || 9 <= n <= 13 || 28 <= n <= 32 || n == 0x85 || n == 0xA0 || n == 0x1680
    || 0x2000 <= n <= 0x200A || n == 0x2028 || n == 0x2029 || n == 0x202F || n == 0x205F || n == 0x3000
  }

  predicate IsDigit(c: char) {
    '0' <= c <= '9'
  }

  predicate AllDigits(s: string) {
    forall k :: 0 <= k < |s| ==> IsDigit(s[k])
  }

  /** A non-empty run without whitespace: what `str.split()` yields. */
  predicate Word(s: string) {
    |s| > 0 && forall k :: 0 <= k < |s| ==> !IsSpace(s[k])
  }

  /** Two words written together make one word. */
  lemma WordConcat(a: string, b: string)
    requires Word(a) && Word(b)
    ensures Word(a + b)
  {
    forall k | 0 <= k < |a + b| ensures !IsSpace((a + b)[k]) {
      if k >= |a| {
        assert (a + b)[k] == b[k - |a|];
      }
    }
  }

  /** No whitespace at either end. */
  predicate Trimmed(s: string) {
    |s| > 0 ==> !IsSpace(s[0]) && !IsSpace(s[|s| - 1])
  }

  // ---------------------------------------------------------------------
  // strip

  function TrimStart(s: string): (t: string)
    ensures |t| <= |s| && t == s[|s| - |t|..]
    ensures |t| > 0 ==> !IsSpace(t[0])
    ensures forall k :: 0 <= k < |s| - |t| ==> IsSpace(s[k])
    decreases |s|
  {
    if |s| > 0 && IsSpace(s[0]) then TrimStart(s[1..]) else s
  }

  function TrimEnd(s: string): (t: string)
    ensures |t| <= |s| && t == s[..|t|]
    ensures |t| > 0 ==> !IsSpace(t[|t| - 1])
    ensures forall k :: |t| <= k < |s| ==> IsSpace(s[k])
    decreases |s|
  {
    if |s| > 0 && IsSpace(s[|s| - 1]) then TrimEnd(s[..|s| - 1]) else s
  }

  predicate AllSpace(s: string) {
    forall k :: 0 <= k < |s| ==> IsSpace(s[k])
  }

  /** `t` is the infix `s[i..i + |t|]` and everything of `s` around it is
      whitespace. */
  predicate InfixAt(s: string, t: string, i: int) {
    && 0 <= i <= |s| - |t|
    && t == s[i..i + |t|]
    && AllSpace(s[..i])
    && AllSpace(s[i + |t|..])
  }

  /** `str.strip()`: the infix of `s` left when only whitespace is dropped
      around it, with no whitespace at either end. */
  function Strip(s: string): (t: string)
    ensures Trimmed(t) && |t| <= |s|
    ensures exists i :: InfixAt(s, t, i)
    ensures AllSpace(s) ==> t == ""
  {
    StripWitness(s);
    TrimEnd(TrimStart(s))
  }

  lemma {:induction false} StripWitness(s: string)
    ensures var a := TrimStart(s);
            && Trimmed(TrimEnd(a))
            && InfixAt(s, TrimEnd(a), |s| - |a|)
            && (AllSpace(s) ==> TrimEnd(a) == "")
  {
    hide TrimStart, TrimEnd;
    var a := TrimStart(s);
    var t := TrimEnd(a);
    assert |t| > 0 ==> t[0] == a[0];
    var i := |s| - |a|;
    assert t == s[i..i + |t|];
    assert AllSpace(s[..i]);
    assert AllSpace(s[i + |t|..]) by {
      var tail := s[i + |t|..];
      forall k | 0 <= k < |tail| ensures IsSpace(tail[k]) {
        assert tail[k] == a[|t| + k];
      }
    }
    assert InfixAt(s, t, i);
    assert Trimmed(t);
    assert |t| > 0 ==> s[i] == t[0];
  }

  /** Around an infix, every character of `s` is whitespace. */
  lemma InfixSurround(s: string, t: string, i: int)
    requires InfixAt(s, t, i)
    ensures 0 <= i <= |s| - |t|
    ensures forall k :: 0 <= k < i ==> IsSpace(s[k])
    ensures forall k :: i + |t| <= k < |s| ==> IsSpace(s[k])
    ensures forall k :: 0 <= k < |t| ==> s[i + k] == t[k]
  {
    forall k | 0 <= k < i ensures IsSpace(s[k]) {
      assert s[..i][k] == s[k];
    }
    forall k | i + |t| <= k < |s| ensures IsSpace(s[k]) {
      assert s[i + |t|..][k - (i + |t|)] == s[k];
    }
  }

  /** The only infix with whitespace around it that starts and ends with
      a non-whitespace character is the one `strip` keeps. */
  lemma StripUnique(s: string, u: string, j: int)
    requires InfixAt(s, u, j) && |u| > 0 && !IsSpace(u[0]) && !IsSpace(u[|u| - 1])
    ensures Strip(s) == u
  {
    hide Strip, TrimStart, TrimEnd, InfixAt;
    var t := Strip(s);
    var i :| InfixAt(s, t, i);
    InfixSurround(s, t, i);
    InfixSurround(s, u, j);
    assert s[j] == u[0] && s[j + |u| - 1] == u[|u| - 1];
    assert !IsSpace(s[j]) && !IsSpace(s[j + |u| - 1]);
    assert i <= j < i + |t|;
    assert s[i] == t[0] && s[i + |t| - 1] == t[|t| - 1];
    assert !IsSpace(s[i]) && !IsSpace(s[i + |t| - 1]);
    assert i == j && |t| == |u|;
    assert t == s[i..i + |t|] && u == s[j..j + |u|] by {
      assert InfixAt(s, t, i) && InfixAt(s, u, j);
    }
  }

  /** Stripping an already trimmed string, or one that only carries a
      line break after it, gives the string itself. */
  lemma StripTrimmed(s: string)
    requires Trimmed(s)
    ensures Strip(s) == s
    ensures Strip(s + "\n") == s
  {
    assert TrimStart(s) == s;
    var n := s + "\n";
    if |s| == 0 {
      assert TrimStart(n) == TrimStart(n[1..]);
      assert n[1..] == "";
    } else {
      assert TrimStart(n) == n;
      assert n[..|n| - 1] == s;
      assert TrimEnd(n) == TrimEnd(s);
    }
  }

  // ---------------------------------------------------------------------
  // split on whitespace

  function WordLen(s: string): (n: nat)
    ensures n <= |s| && forall k :: 0 <= k < n ==> !IsSpace(s[k])
    ensures n < |s| ==> IsSpace(s[n])
    decreases |s|
  {
    if |s| == 0 || IsSpace(s[0]) then 0 else 1 + WordLen(s[1..])
  }

  /** `str.split()`: the maximal runs of non-whitespace, in order. */
  function SplitWs(s: string): (words: seq<string>)
    ensures forall k :: 0 <= k < |words| ==> Word(words[k])
    decreases |s|
  {
    if |s| == 0 then []
    else if IsSpace(s[0]) then SplitWs(s[1..])
    else
      var n := WordLen(s);
      [s[..n]] + SplitWs(s[n..])
  }

  /** The whitespace runs of `s` around and between its words: the run
      before the first word, the runs between words, and the run after the
      last. */
  function Gaps(s: string): (gaps: seq<string>)
    ensures |gaps| > 0
    ensures |s| > 0 && IsSpace(s[0]) ==> |gaps[0]| > 0
    decreases |s|
  {
    if |s| == 0 then [""]
    else if IsSpace(s[0]) then
      var g := Gaps(s[1..]);
      [[s[0]] + g[0]] + g[1..]
    else [""] + Gaps(s[WordLen(s)..])
  }

  /** `gaps[0] + words[0] + gaps[1] + ... + words[n - 1] + gaps[n]`. */
  function Interleave(gaps: seq<string>, words: seq<string>): (s: string)
    requires |gaps| == |words| + 1
    decreases |words|
  {
    if |words| == 0 then gaps[0] else gaps[0] + words[0] + Interleave(gaps[1..], words[1..])
  }

  /** There is one whitespace run more than there are words; all are
      whitespace, and those between two words are not empty. */
  predicate Separated(gaps: seq<string>, words: seq<string>)
  {
    && |gaps| == |words| + 1
    && (forall k :: 0 <= k < |gaps| ==> AllSpace(gaps[k]))
    && (forall k :: 0 < k < |words| ==> |gaps[k]| > 0)
  }

  lemma SeparatedSpace(c: char, g: seq<string>, words: seq<string>)
    requires IsSpace(c) && Separated(g, words)
    ensures Separated([[c] + g[0]] + g[1..], words)
  {
    var gaps := [[c] + g[0]] + g[1..];
    assert AllSpace(gaps[0]) by {
      assert forall k :: 1 <= k < |gaps[0]| ==> gaps[0][k] == g[0][k - 1];
    }
    assert forall k :: 1 <= k < |gaps| ==> gaps[k] == g[k];
  }

  lemma SeparatedWord(w: string, g: seq<string>, words: seq<string>)
    requires Separated(g, words) && (|words| > 0 ==> |g[0]| > 0)
    ensures Separated([""] + g, [w] + words)
  {
    var gaps := [""] + g;
    assert forall k :: 1 <= k < |gaps| ==> gaps[k] == g[k - 1];
  }

  lemma {:induction false} GapsShape(s: string)
    ensures Separated(Gaps(s), SplitWs(s))
    decreases |s|
  {
    if |s| > 0 {
      if IsSpace(s[0]) {
        GapsShape(s[1..]);
        SeparatedSpace(s[0], Gaps(s[1..]), SplitWs(s[1..]));
      } else {
        var n := WordLen(s);
        GapsShape(s[n..]);
        assert |SplitWs(s[n..])| > 0 ==> n < |s| && |Gaps(s[n..])[0]| > 0;
        SeparatedWord(s[..n], Gaps(s[n..]), SplitWs(s[n..]));
      }
    }
  }

  lemma {:induction false} InterleaveWiden(c: char, gaps: seq<string>, words: seq<string>)
    requires |gaps| == |words| + 1
    ensures Interleave([[c] + gaps[0]] + gaps[1..], words) == [c] + Interleave(gaps, words)
  {
    var gs := [[c] + gaps[0]] + gaps[1..];
    assert gs[1..] == gaps[1..];
  }

  lemma {:induction false} InterleaveWord(w: string, gaps: seq<string>, words: seq<string>)
    requires |gaps| == |words| + 1
    ensures Interleave([""] + gaps, [w] + words) == w + Interleave(gaps, words)
  {
    assert ([""] + gaps)[1..] == gaps && ([w] + words)[1..] == words;
  }

  /** `split()` cuts `s` into maximal runs: `s` is its words in order,
      separated by non-empty whitespace runs, with possibly empty whitespace
      runs at both ends. */
  lemma {:induction false} SplitWsGaps(s: string)
    ensures Separated(Gaps(s), SplitWs(s))
    ensures s == Interleave(Gaps(s), SplitWs(s))
    decreases |s|
  {
    SplitStep(s);
    hide Gaps, SplitWs, Interleave;
    GapsShape(s);
    if |s| > 0 {
      if IsSpace(s[0]) {
        SplitWsGaps(s[1..]);
        InterleaveWiden(s[0], Gaps(s[1..]), SplitWs(s[1..]));
        assert s == [s[0]] + s[1..];
      } else {
        var n := WordLen(s);
        SplitWsGaps(s[n..]);
        InterleaveWord(s[..n], Gaps(s[n..]), SplitWs(s[n..]));
        assert s == s[..n] + s[n..];
      }
    }
  }

  /** One step of `SplitWs` and `Gaps`: a leading space widens the first
      run, a leading word is split off with an empty run before it. */
  lemma SplitStep(s: string)
    ensures |s| == 0 ==> Interleave(Gaps(s), SplitWs(s)) == s
    ensures |s| > 0 && IsSpace(s[0]) ==>
              && Gaps(s) == [[s[0]] + Gaps(s[1..])[0]] + Gaps(s[1..])[1..]
              && SplitWs(s) == SplitWs(s[1..])
    ensures |s| > 0 && !IsSpace(s[0]) ==>
              && Gaps(s) == [""] + Gaps(s[WordLen(s)..])
              && SplitWs(s) == [s[..WordLen(s)]] + SplitWs(s[WordLen(s)..])
  {
  }

  /** Words joined by single spaces: `" ".join(words)`. */
  function JoinSpace(words: seq<string>): (s: string)
    decreases |words|
  {
    if |words| == 0 then ""
    else if |words| == 1 then words[0]
    else words[0] + " " + JoinSpace(words[1..])
  }

  lemma {:induction false} WordLenOfWord(w: string, rest: string)
    requires Word(w) && (|rest| == 0 || IsSpace(rest[0]))
    ensures WordLen(w + rest) == |w|
    decreases |w|
  {
    var s := w + rest;
    assert s[1..] == w[1..] + rest;
    if |w| > 1 {
      WordLenOfWord(w[1..], rest);
    } else {
      assert s[1..] == rest;
    }
  }

  /** Joined words are trimmed. */
  lemma {:induction false} JoinSpaceTrimmed(words: seq<string>)
    requires forall k :: 0 <= k < |words| ==> Word(words[k])
    ensures Trimmed(JoinSpace(words))
    ensures |words| > 0 ==> |JoinSpace(words)| > 0 && JoinSpace(words)[0] == words[0][0]
    decreases |words|
  {
    if |words| > 1 {
      JoinSpaceTrimmed(words[1..]);
      var rest := JoinSpace(words[1..]);
      assert |rest| > 0 && rest[0] == words[1][0];
      assert JoinSpace(words)[|JoinSpace(words)| - 1] == rest[|rest| - 1];
    }
  }

  /** `split()` undoes `" ".join(...)` on words. */
  lemma {:induction false} SplitJoinSpace(words: seq<string>)
    requires forall k :: 0 <= k < |words| ==> Word(words[k])
    ensures SplitWs(JoinSpace(words)) == words
    decreases |words|
  {
    if |words| == 0 {
    } else if |words| == 1 {
      var w := words[0];
      WordLenOfWord(w, "");
      assert w + "" == w;
      assert w[|w|..] == "";
    } else {
      var w := words[0];
      var rest := JoinSpace(words[1..]);
      var s := w + " " + rest;
      assert s == w + (" " + rest);
      WordLenOfWord(w, " " + rest);
      assert s[..|w|] == w;
      assert s[|w|..] == " " + rest;
      assert (" " + rest)[1..] == rest;
      SplitJoinSpace(words[1..]);
    }
  }

  // ---------------------------------------------------------------------
  // split on a separator

  /** `str.split(sep)`: the pieces between separators; never empty. */
  function SplitOn(s: string, sep: char): (parts: seq<string>)
    ensures |parts| >= 1
    ensures forall k :: 0 <= k < |parts| ==> sep !in parts[k]
    decreases |s|
  {
    if |s| == 0 then [""]
    else
      var rest := SplitOn(s[1..], sep);
      if s[0] == sep then [""] + rest
      else [[s[0]] + rest[0]] + rest[1..]
  }

  /** `sep.join(parts)`. */
  function JoinOn(parts: seq<string>, sep: char): (s: string)
    requires |parts| >= 1
    decreases |parts|
  {
    if |parts| == 1 then parts[0] else parts[0] + [sep] + JoinOn(parts[1..], sep)
  }

  /** A string without the separator splits into itself; a separator after
      such a string starts a new piece. */
  lemma {:induction false} SplitOnPiece(w: string, sep: char, rest: string)
    requires sep !in w
    ensures SplitOn(w, sep) == [w]
    ensures SplitOn(w + [sep] + rest, sep) == [w] + SplitOn(rest, sep)
    decreases |w|
  {
    if |w| == 0 {
      assert w + [sep] + rest == [sep] + rest;
      assert ([sep] + rest)[1..] == rest;
    } else {
      SplitOnPiece(w[1..], sep, rest);
      assert (w + [sep] + rest)[1..] == w[1..] + [sep] + rest;
      assert [w[0]] + w[1..] == w;
    }
  }

  /** A string without the separator is its own single piece. */
  lemma {:induction false} SplitOnWhole(w: string, sep: char)
    requires sep !in w
    ensures SplitOn(w, sep) == [w]
    decreases |w|
  {
    if |w| > 0 {
      SplitOnWhole(w[1..], sep);
      assert [w[0]] + w[1..] == w;
    }
  }

  /** `split(sep)` undoes `sep.join(...)` on pieces without `sep`. */
  lemma {:induction false} SplitJoinOn(parts: seq<string>, sep: char)
    requires |parts| >= 1
    requires forall k :: 0 <= k < |parts| ==> sep !in parts[k]
    ensures SplitOn(JoinOn(parts, sep), sep) == parts
    decreases |parts|
  {
    SplitOnPiece(parts[0], sep, "");
    if |parts| > 1 {
      SplitOnPiece(parts[0], sep, JoinOn(parts[1..], sep));
      SplitJoinOn(parts[1..], sep);
    }
  }

  /** Words joined by a visible separator make one word. */
  lemma {:induction false} JoinOnWord(parts: seq<string>, sep: char)
    requires |parts| >= 1 && !IsSpace(sep)
    requires forall k :: 0 <= k < |parts| ==> Word(parts[k])
    ensures Word(JoinOn(parts, sep))
    decreases |parts|
  {
    if |parts| > 1 {
      var rest := parts[1..];
      assert forall k :: 0 <= k < |rest| ==> rest[k] == parts[k + 1];
      JoinOnWord(rest, sep);
      var a, b := parts[0], JoinOn(rest, sep);
      var s := JoinOn(parts, sep);
      assert s == a + [sep] + b;
      forall k | 0 <= k < |s|
        ensures !IsSpace(s[k])
      {
        if k < |a| {
          assert s[k] == a[k];
        } else if k > |a| {
          assert s[k] == b[k - |a| - 1];
        }
      }
    }
  }

  /** A character other than the separator, absent from every piece, is
      absent from the join. */
  lemma {:induction false} JoinOnAvoids(parts: seq<string>, sep: char, c: char)
    requires |parts| >= 1 && c != sep
    requires forall k :: 0 <= k < |parts| ==> c !in parts[k]
    ensures c !in JoinOn(parts, sep)
    decreases |parts|
  {
    if |parts| > 1 {
      var rest := parts[1..];
      assert forall k :: 0 <= k < |rest| ==> rest[k] == parts[k + 1];
      JoinOnAvoids(rest, sep, c);
      assert JoinOn(parts, sep) == parts[0] + [sep] + JoinOn(rest, sep);
    }
  }

  /** `sep.join(s.split(sep))` gives back `s`. */
  lemma {:induction false} JoinSplitOn(s: string, sep: char)
    ensures JoinOn(SplitOn(s, sep), sep) == s
    decreases |s|
  {
    if |s| > 0 {
      var rest := SplitOn(s[1..], sep);
      JoinSplitOn(s[1..], sep);
      if s[0] != sep {
        if |rest| > 1 {
          assert JoinOn(rest, sep) == rest[0] + [sep] + JoinOn(rest[1..], sep);
          assert ([[s[0]] + rest[0]] + rest[1..])[1..] == rest[1..];
        }
      } else {
        assert ([""] + rest)[1..] == rest;
      }
    }
  }

  // ---------------------------------------------------------------------
  // decimal numerals

  function DigitValue(c: char): (d: nat)
    requires IsDigit(c)
    ensures d < 10
  {
    c as int - '0' as int
  }

  function DigitChar(d: nat): (c: char)
    requires d < 10
    ensures IsDigit(c) && DigitValue(c) == d
  {
    ('0' as int + d) as char
  }

  /** The value of a decimal numeral (no digits: zero). */
  function DigitsValue(ds: string): (n: nat)
    requires AllDigits(ds)
    decreases |ds|
  {
    if |ds| == 0 then 0 else DigitsValue(ds[..|ds| - 1]) * 10 + DigitValue(ds[|ds| - 1])
  }

  /** The decimal numeral of `n`, without leading zeros. */
  function ShowNat(n: nat): (s: string)
    ensures |s| > 0 && AllDigits(s)
    decreases n
  {
    if n < 10 then [DigitChar(n)] else ShowNat(n / 10) + [DigitChar(n % 10)]
  }

  /** `str(i)`. */
  function ShowInt(i: int): (s: string)
    ensures |s| > 0
  {
    if i < 0 then "-" + ShowNat(-i) else ShowNat(i)
  }

  lemma {:induction false} DigitsValueShowNat(n: nat)
    ensures DigitsValue(ShowNat(n)) == n
    decreases n
  {
    if n >= 10 {
      DigitsValueShowNat(n / 10);
      var s := ShowNat(n);
      assert s[..|s| - 1] == ShowNat(n / 10);
    }
  }

  /** A numeral shows no whitespace and none of the separators the grid
      file uses. */
  lemma ShowIntIsWord(i: int)
    ensures Word(ShowInt(i)) && Trimmed(ShowInt(i))
    ensures ',' !in ShowInt(i) && '|' !in ShowInt(i) && '_' !in ShowInt(i) && '.' !in ShowInt(i)
  {
    var s := ShowInt(i);
    if i < 0 {
      assert forall k :: 1 <= k < |s| ==> s[k] == ShowNat(-i)[k - 1];
    }
  }

  /** A numeral has no whitespace at its ends. */
  lemma DigitsAreTrimmed(s: string)
    ensures |s| > 0 && AllDigits(s) ==> Trimmed(s) && Strip(s) == s
  {
    if |s| > 0 && AllDigits(s) {
      assert IsDigit(s[0]) && IsDigit(s[|s| - 1]);
      StripTrimmed(s);
    }
  }

  /** `int(s)`: surrounding whitespace, an optional sign, then at least one
      decimal digit. */
  function ParseInt(s: string): (r: Option<int>)
    ensures |s| > 0 && AllDigits(s) ==> r == Some(DigitsValue(s))
  {
    DigitsAreTrimmed(s);
    var t := Strip(s);
    if |t| > 0 && (t[0] == '-' || t[0] == '+') then
      var ds := t[1..];
      if |ds| > 0 && AllDigits(ds) then Some(if t[0] == '-' then -(DigitsValue(ds) as int) else DigitsValue(ds))
      else None
    else if |t| > 0 && AllDigits(t) then Some(DigitsValue(t))
    else None
  }

  /** A decimal numeral with an optional sign: what `int` accepts once the
      surrounding whitespace is gone. */
  predicate Numeral(t: string) {
    || (|t| > 0 && AllDigits(t))
    || (|t| > 1 && (t[0] == '-' || t[0] == '+') && AllDigits(t[1..]))
  }

  function NumeralValue(t: string): int
    requires Numeral(t)
  {
    if t[0] == '-' then -(DigitsValue(t[1..]) as int)
    else if t[0] == '+' then DigitsValue(t[1..])
    else DigitsValue(t)
  }

  /** `int` reads the stripped string as a numeral. */
  lemma ParseIntStripped(s: string)
    ensures ParseInt(s) == if Numeral(Strip(s)) then Some(NumeralValue(Strip(s))) else None
  {
    hide Strip, TrimStart, TrimEnd, DigitsValue;
    var t := Strip(s);
    if |t| > 1 && (t[0] == '-' || t[0] == '+') {
      assert Numeral(t) <==> AllDigits(t[1..]);
    }
  }

  /** A numeral neither starts nor ends with whitespace. */
  lemma NumeralEnds(u: string)
    requires Numeral(u)
    ensures |u| > 0 && !IsSpace(u[0]) && !IsSpace(u[|u| - 1])
  {
    if !AllDigits(u) {
      assert u[|u| - 1] == u[1..][|u| - 2];
    }
  }

  /** `int(s)` succeeds exactly when `s` is a numeral with whitespace
      around it, and then yields the numeral's signed value. */
  lemma ParseIntSyntax(s: string)
    ensures ParseInt(s).Some? <==> exists i, u :: InfixAt(s, u, i) && Numeral(u)
    ensures forall i, u :: InfixAt(s, u, i) && Numeral(u) ==> ParseInt(s) == Some(NumeralValue(u))
  {
    ParseIntStripped(s);
    hide ParseInt, Strip, Numeral, NumeralValue, InfixAt;
    var t := Strip(s);
    var i :| InfixAt(s, t, i);
    forall j, u | InfixAt(s, u, j) && Numeral(u) ensures ParseInt(s) == Some(NumeralValue(u)) {
      NumeralEnds(u);
      StripUnique(s, u, j);
    }
  }

  /** `int` reads back what `str` wrote, with or without a trailing line break. */
  lemma ParseShowInt(i: int)
    ensures ParseInt(ShowInt(i)) == Some(i)
  {
    hide Strip, ParseInt, ShowNat, DigitsValue, DigitChar, TrimStart, TrimEnd;
    var s := ShowInt(i);
    ShowIntIsWord(i);
    StripTrimmed(s);
    ParseIntStripped(s);
    if i < 0 {
      DigitsValueShowNat(-i);
      assert s[0] == '-';
      assert s[1..] == ShowNat(-i);
    } else {
      DigitsValueShowNat(i);
      assert IsDigit(s[0]);
    }
  }

  /** The value of the digits after a decimal point: `0.d1d2...`. */
  function FracValue(ds: string): (v: real)
    requires AllDigits(ds)
    ensures 0.0 <= v < 1.0
    ensures |ds| == 0 ==> v == 0.0
    decreases |ds|
  {
    if |ds| == 0 then 0.0 else (DigitValue(ds[0]) as real + FracValue(ds[1..])) / 10.0
  }

  /** The number written with the digits `whole` before the point and
      `frac` after it; at least one digit in all. */
  function DecimalValue(whole: string, frac: string): (r: Option<real>)
    ensures r.Some? <==> AllDigits(whole) && AllDigits(frac) && |whole| + |frac| > 0
    ensures r.Some? ==> r.value >= 0.0
    ensures r.Some? && |frac| == 0 ==> r.value == DigitsValue(whole) as real
  {
    if !AllDigits(whole) || !AllDigits(frac) || |whole| + |frac| == 0 then None
    else Some(DigitsValue(whole) as real + FracValue(frac))
  }

  /** An unsigned decimal: digits with at most one decimal point. */
  function ParseDecimal(body: string): (r: Option<real>)
    ensures r.Some? ==> r.value >= 0.0
  {
    var parts := SplitOn(body, '.');
    if |parts| > 2 then None
    else DecimalValue(parts[0], if |parts| == 2 then parts[1] else "")
  }

  /** `float(s)` on decimal notation: surrounding whitespace, an optional
      sign, then an unsigned decimal. */
  function ParseFloat(s: string): (r: Option<real>)
    ensures r.Some? ==> |Strip(s)| > 0
    ensures r.Some? && r.value < 0.0 ==> Strip(s)[0] == '-'
  {
    var t := Strip(s);
    var signed := |t| > 0 && (t[0] == '-' || t[0] == '+');
    match ParseDecimal(if signed then t[1..] else t)
    case None => None
    case Some(v) => Some(if signed && t[0] == '-' then -v else v)
  }

  /** Digits, a point and digits, with at least one digit in all. */
  predicate PointedDecimal(whole: string, frac: string) {
    AllDigits(whole) && AllDigits(frac) && |whole| + |frac| > 0
  }

  /** A decimal that is read is a run of digits or two runs around a point. */
  lemma ParseDecimalShape(body: string)
    requires ParseDecimal(body).Some?
    ensures (|body| > 0 && AllDigits(body)) || exists w, f :: PointedDecimal(w, f) && body == w + "." + f
  {
    var parts := SplitOn(body, '.');
    JoinSplitOn(body, '.');
    assert DecimalValue(parts[0], if |parts| == 2 then parts[1] else "").Some?;
    hide SplitOn, DecimalValue, ParseDecimal;
    if |parts| == 2 {
      assert JoinOn(parts, '.') == parts[0] + "." + parts[1];
      assert PointedDecimal(parts[0], parts[1]);
    } else {
      assert JoinOn(parts, '.') == parts[0];
    }
  }

  /** Two runs of digits around a point are read as whole part plus fraction. */
  lemma ParseDecimalPointed(w: string, f: string)
    requires PointedDecimal(w, f)
    ensures ParseDecimal(w + "." + f) == Some(DigitsValue(w) as real + FracValue(f))
  {
    DigitsHaveNoPoint(w);
    DigitsHaveNoPoint(f);
    SplitOnPiece(w, '.', f);
    SplitOnWhole(f, '.');
    assert w + "." + f == w + ['.'] + f;
    hide SplitOn;
    assert SplitOn(w + "." + f, '.') == [w, f];
  }

  /** An unsigned decimal is read exactly when it is a run of digits, or
      two runs of digits around a single point, and then with its value. */
  lemma ParseDecimalSyntax(body: string)
    ensures ParseDecimal(body).Some? ==>
              (|body| > 0 && AllDigits(body)) || exists w, f :: PointedDecimal(w, f) && body == w + "." + f
    ensures |body| > 0 && AllDigits(body) ==> ParseDecimal(body) == Some(DigitsValue(body) as real)
    ensures forall w, f :: PointedDecimal(w, f) && body == w + "." + f ==>
              ParseDecimal(body) == Some(DigitsValue(w) as real + FracValue(f))
  {
    hide ParseDecimal, SplitOn, DecimalValue, JoinOn, DigitsValue, FracValue;
    if ParseDecimal(body).Some? {
      ParseDecimalShape(body);
    }
    if |body| > 0 && AllDigits(body) {
      DecimalOfDigits(body);
    }
    forall w, f | PointedDecimal(w, f) && body == w + "." + f
      ensures ParseDecimal(body) == Some(DigitsValue(w) as real + FracValue(f))
    {
      ParseDecimalPointed(w, f);
    }
  }

  /** `float` reads back a decimal written with an optional minus sign, a
      whole part and the digits after the point. */
  lemma ParseFloatShowDecimal(negative: bool, whole: nat, frac: string)
    requires AllDigits(frac)
    ensures var s := (if negative then "-" else "") + ShowNat(whole) + "." + frac;
            var v := whole as real + FracValue(frac);
            ParseFloat(s) == Some(if negative then -v else v)
  {
    hide ShowNat, DigitsValue, FracValue, ParseDecimal, SplitOn, Strip, TrimStart, TrimEnd;
    var w := ShowNat(whole);
    var body := w + "." + frac;
    DigitsValueShowNat(whole);
    assert PointedDecimal(w, frac);
    ParseDecimalPointed(w, frac);
    assert IsDigit(w[0]) && body[0] == w[0];
    assert body[|body| - 1] == (if |frac| > 0 then frac[|frac| - 1] else '.');
    var sign := if negative then "-" else "";
    assert sign + ShowNat(whole) + "." + frac == sign + body;
    ParseFloatSigned(sign, body);
  }

  /** A trimmed unsigned body, possibly after a minus sign, is read as the
      decimal it spells, negated after the sign. */
  lemma ParseFloatSigned(sign: string, body: string)
    requires sign == "-" || sign == ""
    requires |body| > 0 && !IsSpace(body[0]) && !IsSpace(body[|body| - 1]) && body[0] != '-' && body[0] != '+'
    ensures ParseFloat(sign + body)
            == match ParseDecimal(body)
               case None => None
               case Some(v) => Some(if sign == "-" then -v else v)
  {
    hide ParseDecimal, SplitOn, Strip, TrimStart, TrimEnd;
    var s := sign + body;
    assert s[|s| - 1] == body[|body| - 1];
    if sign == "-" {
      assert s[0] == '-' && s[1..] == body;
    } else {
      assert s == body;
    }
    StripTrimmed(s);
  }

  /** A run of digits is a decimal without a point, of the same value. */
  lemma DecimalOfDigits(ds: string)
    requires |ds| > 0 && AllDigits(ds)
    ensures ParseDecimal(ds) == Some(DigitsValue(ds) as real)
  {
    DigitsHaveNoPoint(ds);
    SplitOnWhole(ds, '.');
    assert AllDigits("");
    hide SplitOn, AllDigits, DecimalValue;
  }

  lemma DigitsHaveNoPoint(ds: string)
    requires AllDigits(ds)
    ensures '.' !in ds
  {
    forall k | 0 <= k < |ds| ensures ds[k] != '.' {
      assert IsDigit(ds[k]);
    }
  }

  /** Wherever `int` accepts a string, `float` accepts it with the same value. */
  lemma ParseIntThenFloat(s: string)
    requires ParseInt(s).Some?
    ensures ParseFloat(s) == Some(ParseInt(s).value as real)
  {
    hide Strip, TrimStart, TrimEnd;
    var t := Strip(s);
    var body := if |t| > 0 && (t[0] == '-' || t[0] == '+') then t[1..] else t;
    DecimalOfDigits(body);
    hide ParseDecimal;
  }

  /** `float` reads back an integer numeral as that integer. */
  lemma ParseFloatShowInt(i: int)
    ensures ParseFloat(ShowInt(i)) == Some(i as real)
  {
    ParseShowInt(i);
    ParseIntThenFloat(ShowInt(i));
  }

  /** `float("2.5")` is two and a half. */
  lemma ParseFloatFraction()
    ensures ParseFloat("2.5") == Some(2.5)
  {
    assert ShowNat(2) == "2";
    assert FracValue("5") == 0.5;
    assert "" + "2" + "." + "5" == "2.5";
    ParseFloatShowDecimal(false, 2, "5");
  }

  /** `float("-7")` keeps the sign. */
  lemma ParseFloatNegative()
    ensures ParseFloat("-7") == Some(-7.0)
  {
    assert ShowInt(-7) == "-7";
    ParseFloatShowInt(-7);
  }

  /** `float(".")` has no digit and is refused. */
  lemma ParseFloatBarePoint()
    ensures ParseFloat(".") == None
  {
    hide DecimalValue;
    assert "."[1..] == "";
    assert SplitOn(".", '.') == ["", ""];
    assert ParseDecimal(".") == None;
    StripTrimmed(".");
    hide ParseDecimal;
  }
}

=== FILE: worldgrid.dfy ===
/** The world grid (ethicalgardeners/worldgrid.py, class WorldGrid): the
    row-major grid of cells, the agent list, the per-type flower index, and
    the operations that validate positions, place and remove things, and
    advance pollution and growth by one tick. */
module Grid {
  import opened Common
  import opened Cells
  import opened Agents

  /** The state of a `WorldGrid`. `numSeedsReturned` is `None` when the seed
      system is disabled. `flowersData` is the stored attribute: it is empty
      when the constructor was given no table (the source then never sets
      it). `flowers` indexes planted flowers by type through their
      positions; it is a list of references and is never purged. */
  datatype World = World(
    width: int,
    height: int,
    minPollution: real,
    maxPollution: real,
    pollutionIncrement: real,
    numSeedsReturned: Option<int>,
    collisionsOn: bool,
    flowersData: map<int, FlowerSpec>,
    grid: seq<seq<Cell>>,
    agents: seq<Agent>,
    flowers: map<int, seq<Pos>>)

  /** The grid has `height` rows of `width` cells. */
  predicate Rectangular(w: World) {
    && |w.grid| == RangeLen(w.height)
    && forall r :: 0 <= r < |w.grid| ==> |w.grid[r]| == RangeLen(w.width)
  }

  predicate InBounds(w: World, p: Pos) {
    0 <= p.row < w.height && 0 <= p.col < w.width
  }

  /** `get_cell(position)`: `grid[row][col]`. */
  function GetCell(w: World, p: Pos): Cell
    requires Rectangular(w) && InBounds(w, p)
  {
    w.grid[p.row][p.col]
  }

  /** `valid_position`: inside the grid and walkable. */
  predicate ValidPosition(w: World, p: Pos)
    requires Rectangular(w)
  {
    InBounds(w, p) && CanWalkOn(GetCell(w, p))
  }

  /** `valid_move`: a valid position that, when collisions are on, holds no
      agent. With collisions off, occupancy is never looked at. */
  function ValidMove(w: World, p: Pos): (ok: bool)
    requires Rectangular(w)
    ensures ok ==> ValidPosition(w, p)
    ensures ok ==> 0 <= p.row < w.height && 0 <= p.col < w.width && GetCell(w, p).cellType == Ground
    ensures w.collisionsOn && InBounds(w, p) && HasAgent(GetCell(w, p)) ==> !ok
    ensures !w.collisionsOn ==> (ok <==> ValidPosition(w, p))
    ensures ValidPosition(w, p) && !HasAgent(GetCell(w, p)) ==> ok
  {
    if !ValidPosition(w, p) then false
    else if w.collisionsOn && HasAgent(GetCell(w, p)) then false
    else true
  }

  /** Replace the cell at `p`, leaving every other cell and field alone. */
  function SetCell(w: World, p: Pos, c: Cell): (v: World)
    requires Rectangular(w) && InBounds(w, p)
    ensures Rectangular(v)
    ensures v == w.(grid := v.grid)
    ensures GetCell(v, p) == c
    ensures forall q :: InBounds(w, q) && q != p ==> GetCell(v, q) == GetCell(w, q)
  {
    w.(grid := w.grid[p.row := w.grid[p.row][p.col := c]])
  }

  /** `place_agent(agent)`: refuses an invalid position; refuses an occupied
      cell only when collisions are OFF; otherwise points the cell at the
      new agent (overwriting any earlier back-reference) and appends it. */
  function PlaceAgent(w: World, a: Agent): (r: Result<World>)
    requires Rectangular(w)
    ensures !ValidPosition(w, a.position) ==> r == Err(InvalidPosition)
    ensures ValidPosition(w, a.position) && HasAgent(GetCell(w, a.position)) && !w.collisionsOn
            ==> r == Err(OccupiedCell)
    ensures r.Ok? <==> ValidPosition(w, a.position) && (w.collisionsOn || !HasAgent(GetCell(w, a.position)))
    ensures r.Ok? ==>
              && Rectangular(r.value)
              && r.value.agents == w.agents + [a]
              && r.value == w.(grid := r.value.grid, agents := r.value.agents)
              && GetCell(r.value, a.position) == GetCell(w, a.position).(agent := Some(|w.agents|))
              && (forall q :: InBounds(w, q) && q != a.position ==> GetCell(r.value, q) == GetCell(w, q))
  {
    if !ValidPosition(w, a.position) then Err(InvalidPosition)
    else
      var cell := GetCell(w, a.position);
      if HasAgent(cell) && !w.collisionsOn then Err(OccupiedCell)
      else Ok(SetCell(w, a.position, cell.(agent := Some(|w.agents|))).(agents := w.agents + [a]))
  }

  /** A type whose flowers can be built and indexed: it has an entry in the
      stored table, and that entry has an index list. */
  predicate Indexable(w: World, t: int) {
    t in w.flowersData ==> t in w.flowers
  }

  /** A growth stage that indexes the type's reductions, counting from the
      end when negative. */
  predicate StageFits(w: World, t: int, stage: int) {
    t in w.flowersData ==> -|w.flowersData[t].pollutionReduction| <= stage < |w.flowersData[t].pollutionReduction|
  }

  /** `place_flower(position, type, stage)`: refuses an invalid position, a
      cell that already has a flower, and a type missing from the stored
      table; otherwise installs the flower and appends its position to the
      type's index list. */
  function PlaceFlower(w: World, p: Pos, t: int, stage: int): (r: Result<World>)
    requires Rectangular(w) && Indexable(w, t)
    ensures !ValidPosition(w, p) ==> r == Err(InvalidPosition)
    ensures ValidPosition(w, p) && HasFlower(GetCell(w, p)) ==> r == Err(OccupiedCell)
    ensures r.Ok? <==> ValidPosition(w, p) && !HasFlower(GetCell(w, p)) && t in w.flowersData
    ensures r.Ok? ==>
              var v := r.value;
              && Rectangular(v)
              && v == w.(grid := v.grid, flowers := v.flowers)
              && GetCell(v, p) == GetCell(w, p).(flower := Some(NewFlower(p, t, w.flowersData, stage)))
              && (forall q :: InBounds(w, q) && q != p ==> GetCell(v, q) == GetCell(w, q))
              && v.flowers == w.flowers[t := w.flowers[t] + [p]]
  {
    if !ValidPosition(w, p) then Err(InvalidPosition)
    else
      var cell := GetCell(w, p);
      if HasFlower(cell) then Err(OccupiedCell)
      else if t !in w.flowersData then Err(UnknownFlowerType)
      else
        var v := SetCell(w, p, cell.(flower := Some(NewFlower(p, t, w.flowersData, stage))));
        Ok(v.(flowers := w.flowers[t := w.flowers[t] + [p]]))
  }

  /** `remove_flower(position)`: refuses a flowerless cell; otherwise clears
      that cell's flower and nothing else. The type index keeps the entry. */
  function RemoveFlower(w: World, p: Pos): (r: Result<World>)
    requires Rectangular(w) && InBounds(w, p)
    ensures r.Ok? <==> HasFlower(GetCell(w, p))
    ensures r.Err? ==> r.error == NoFlower
    ensures r.Ok? ==>
              var v := r.value;
              && Rectangular(v)
              && v == w.(grid := v.grid)
              && v.flowers == w.flowers
              && GetCell(v, p) == GetCell(w, p).(flower := None)
              && (forall q :: InBounds(w, q) && q != p ==> GetCell(v, q) == GetCell(w, q))
  {
    var cell := GetCell(w, p);
    if !HasFlower(cell) then Err(NoFlower) else Ok(SetCell(w, p, cell.(flower := None)))
  }

  /** Every flower that the tick could touch has a stage that indexes its reductions. */
  ghost predicate TickReady(w: World)
    requires Rectangular(w)
  {
    forall r, c :: 0 <= r < |w.grid| && 0 <= c < |w.grid[r]| ==>
      var cell := w.grid[r][c];
      cell.pollution.Some? && cell.flower.Some? ==> StageIndexed(cell.flower.value)
  }

  /** `update_cell`: every cell has its pollution updated (with the flower's
      reduction before growth) and then its flower, if any, grown. */
  function Tick(w: World): (v: World)
    requires Rectangular(w) && TickReady(w)
    ensures Rectangular(v)
    ensures v == w.(grid := v.grid)
    ensures forall p :: InBounds(w, p) ==> GetCell(v, p) == TickCell(GetCell(w, p), w.minPollution, w.maxPollution)
  {
    var g := seq(|w.grid|, r requires 0 <= r < |w.grid| =>
                 seq(|w.grid[r]|, c requires 0 <= c < |w.grid[r]| =>
                     TickCell(w.grid[r][c], w.minPollution, w.maxPollution)));
    w.(grid := g)
  }

  /** `update_cell` as the source writes it: a row-by-row, cell-by-cell
      sweep that visits every cell exactly once. */
  method UpdateCell(w: World) returns (v: World)
    requires Rectangular(w) && TickReady(w)
    ensures Rectangular(v)
    ensures v == w.(grid := v.grid)
    ensures forall p :: InBounds(w, p) ==> GetCell(v, p) == TickCell(GetCell(w, p), w.minPollution, w.maxPollution)
  {
    var rows: seq<seq<Cell>> := [];
    var i := 0;
    while i < |w.grid|
      invariant 0 <= i <= |w.grid|
      invariant |rows| == i
      invariant forall r :: 0 <= r < i ==> |rows[r]| == |w.grid[r]|
      invariant forall r, c :: 0 <= r < i && 0 <= c < |w.grid[r]| ==>
                  rows[r][c] == TickCell(w.grid[r][c], w.minPollution, w.maxPollution)
    {
      var row: seq<Cell> := [];
      var j := 0;
      while j < |w.grid[i]|
        invariant 0 <= j <= |w.grid[i]|
        invariant |row| == j
        invariant forall c :: 0 <= c < j ==> row[c] == TickCell(w.grid[i][c], w.minPollution, w.maxPollution)
      {
        row := row + [TickCell(w.grid[i][j], w.minPollution, w.maxPollution)];
        j := j + 1;
      }
      rows := rows + [row];
      i := i + 1;
    }
    v := w.(grid := rows);
  }

  /** The tick changes no cell type, no agent back-reference, no agent, no
      flower index, and leaves obstacles exactly as they were. */
  lemma TickKeepsLayout(w: World, p: Pos)
    requires Rectangular(w) && TickReady(w) && InBounds(w, p)
    ensures GetCell(Tick(w), p).cellType == GetCell(w, p).cellType
    ensures GetCell(Tick(w), p).agent == GetCell(w, p).agent
    ensures Tick(w).agents == w.agents && Tick(w).flowers == w.flowers
    ensures GetCell(w, p).pollution.None? && GetCell(w, p).flower.None? ==> GetCell(Tick(w), p) == GetCell(w, p)
  {
  }

  /** Opposite collision polarity: with collisions ON an occupied cell is
      still accepted by `place_agent` (the back-reference is overwritten) but
      rejected by `valid_move`; with collisions OFF it is the other way round. */
  lemma CollisionPolarity(w: World, a: Agent)
    requires Rectangular(w) && ValidPosition(w, a.position) && HasAgent(GetCell(w, a.position))
    ensures w.collisionsOn ==> PlaceAgent(w, a).Ok? && !ValidMove(w, a.position)
    ensures w.collisionsOn ==> GetCell(PlaceAgent(w, a).value, a.position).agent == Some(|w.agents|)
    ensures !w.collisionsOn ==> PlaceAgent(w, a) == Err(OccupiedCell) && ValidMove(w, a.position)
  {
  }

  /** The flower index is not purged: after a removal the position is still
      listed under its type although the cell holds no flower any more. */
  lemma RemoveFlowerLeavesIndexEntry(w: World, p: Pos, t: int)
    requires Rectangular(w) && InBounds(w, p) && HasFlower(GetCell(w, p))
    requires t in w.flowers && p in w.flowers[t]
    ensures RemoveFlower(w, p).Ok?
    ensures p in RemoveFlower(w, p).value.flowers[t]
    ensures !HasFlower(GetCell(RemoveFlower(w, p).value, p))
  {
  }

  /** Placing a flower and then removing it restores the grid, while the
      index keeps one more entry for the type. */
  lemma PlaceThenRemove(w: World, p: Pos, t: int, stage: int)
    requires Rectangular(w) && Indexable(w, t)
    requires PlaceFlower(w, p, t, stage).Ok?
    ensures var v := PlaceFlower(w, p, t, stage).value;
            && RemoveFlower(v, p).Ok?
            && RemoveFlower(v, p).value == w.(flowers := w.flowers[t := w.flowers[t] + [p]])
  {
    var v := PlaceFlower(w, p, t, stage).value;
    var u := RemoveFlower(v, p).value;
    forall r | 0 <= r < |w.grid|
      ensures u.grid[r] == w.grid[r]
    {
      forall c | 0 <= c < |w.grid[r]|
        ensures u.grid[r][c] == w.grid[r][c]
      {
        assert InBounds(w, Pos(r, c));
        assert GetCell(u, Pos(r, c)) == GetCell(w, Pos(r, c));
      }
    }
  }
}
